=== FILE: README.md ===
# Quote line-item editor — a Dafny model

This project models the quote line-item editor of a Salesforce Lightning web
component, `createQuoteLineItems`. A sales user edits a table of quote lines.
Each row is a product line, an individual-discount line (a "5% Discount"
to "20% Discount" product that takes its percentage off the row above it),
or the single overall-discount line that takes the overall rate off the
total of all other rows. The model covers four parts:

- **Calculator** (`calculator.dfy`, `calculator_facts.dfy`). One typed cell
  edit triggers a recalculation of the row: the area from the dimensions, the
  quantity rounded up to whole units, then rate, amount, 5% tax and gross, then
  costs, and finally two-decimal formatting. The field-enablement flags follow
  from the product family and the area.
- **Discount engine** (`discounts.dfy`, `discount_facts.dfy`, `recalc_facts.dfy`). The overall
  discount row is appended after all other rows and recomputed over them.
  Individual discounts are linked to their target row in both directions and
  recomputed after edits. A product pick is refused when it would put two
  individual discounts next to each other.
- **Row table** (`row_table.dfy`, `row_table_facts.dfy`). Covers selection,
  the edit/read toggle with its cancel copy, cancel itself, and insert. It
  also covers remove, with its rejection, the cascade to the owned discount
  row, and the ledger of removed persisted ids.
- **Load and save** (`persistence.dfy`, `persistence_facts.dfy`). Loading
  maps stored items to rows. It puts the discount-family rows last and reads
  the overall rate back from the overall row's name. Saving assigns row
  numbers, builds the line-item payloads and the overall discount amount, and
  clears the ledger only when the upsert succeeds.

Shared ground is in `values.dfy`, `text.dfy` and `line_items.dfy`:

- A cell is `Field = Blank | Val(x)`. This is the JavaScript truthiness of a
  cell together with the number `safeParseFloat` reads from it.
- A number written into a cell is blank exactly when it is 0. A stored 0
  loads as the truthy text "0".
- `toFixed(2)` is `Round2`, on exact reals, rounding ties away from zero.
- Scanners for the three regular expressions the editor uses.
- The `Row` and `Editor` records.

The editor state is immutable: every handler is a function from `Editor` to
`Editor`. A handler's deferred step (a `setTimeout` of 100 ms) is run straight
after the handler. The `...Settled` functions model this, and so does the
attachment inside `SelectProduct`. The deferred resynchronisation runs in the
component's order, overall discount first (`Discounts.ResyncAsWritten`). The product search, the load query and the
upsert are not modelled as code. A load receives the query's result, or `None`
when the query failed. A save is told whether the upsert succeeded.

Behaviours of the code that the model keeps deliberately:

- The overall base excludes only the overall row, so individual-discount rows
  count in it.
- An overall rate reading 0 or less is a no-op when typed in. The deferred
  refresh after an edit still rebuilds the row for any non-empty rate
  (`DiscountFacts.ZeroRateRowOnResync`).
- Editing the width does not recompute the net area.
- The overall-discount row is recognised by its family and location. Typing the overall location into another discount-family row therefore makes a second overall row (`RowTableFacts.LocationEditMovesOverall`).
- A removal notes the selected row's external id before checking the
  rejection. A rejected removal therefore still lists the row for deletion at
  the next save.
- Links between a discount row and its target are written only when the
  discount is attached or recalculated, and never cleared. Removing an
  individual-discount row on its own leaves its target naming an id that is
  gone (`RowTableFacts.RemoveDiscountLeavesDanglingLink`), and that link is
  saved with the row. Ids are never handed out twice, so the link cannot come
  to name another row, and a later removal of the target finds nothing to
  cascade to.

## Model

| member | source | states |
|---|---|---|
| Text.ExtractUnitValueOfDecimal | force-app/main/default/lwc/createQuoteLineItems/createQuoteLineItems.js:487-493 | A unit label that starts with digits, a point and digits yields exactly that decimal number. |
| Text.ExtractUnitValueOfInteger | force-app/main/default/lwc/createQuoteLineItems/createQuoteLineItems.js:487-493 | A unit label that starts with digits not followed by a point and a digit yields that integer. |
| Text.ExtractUnitValueDefault | force-app/main/default/lwc/createQuoteLineItems/createQuoteLineItems.js:487-493 | A unit label that does not start with a digit counts as one unit. |
| Text.IntegerPercentOfLabel | force-app/main/default/lwc/createQuoteLineItems/createQuoteLineItems.js:277-280 | A name that starts with digits and '%' carries exactly that percentage. |
| Text.NatTextRoundTrip | force-app/main/default/lwc/createQuoteLineItems/createQuoteLineItems.js:851 | Reading back the decimal text of a whole number gives the number. |
| Values.Round2IsCents | force-app/main/default/lwc/createQuoteLineItems/createQuoteLineItems.js:478-485 | A two-decimal rendering is a whole number of cents. |
| Values.Round2Error | force-app/main/default/lwc/createQuoteLineItems/createQuoteLineItems.js:478-485 | A two-decimal rendering is within half a cent of the value. |
| Values.GrossIsAmountPlusTax | force-app/main/default/lwc/createQuoteLineItems/createQuoteLineItems.js:450-453 | For a whole-cents amount, 105% rounded equals the amount plus 5% rounded. |
| Values.CeilCovers | force-app/main/default/lwc/createQuoteLineItems/createQuoteLineItems.js:416 | For a positive unit, ceil(total/unit) units cover the total and one fewer does not. |
| Values.FromNumber | force-app/main/default/lwc/createQuoteLineItems/createQuoteLineItems.js:257-261 | A number written into a cell reads back as itself and is blank exactly when it is 0. |
| Calculator.UpdateTableRow | force-app/main/default/lwc/createQuoteLineItems/createQuoteLineItems.js:346-356 | Every row keeps its place and id, and rows with another id are untouched. An edited row keeps its family, product name and family flags. An edit of the net area or the wastage leaves its wastage input enabled. |
| Calculator.UpdateRow | force-app/main/default/lwc/createQuoteLineItems/createQuoteLineItems.js:347-354 | The edited row keeps its id, family, product name and family flags. Its location changes only on a location edit. A net-area or wastage edit always leaves a total area and an enabled wastage input. |
| Calculator.Apply | force-app/main/default/lwc/createQuoteLineItems/createQuoteLineItems.js:349 | Writing the typed value changes no id, family, name, flag or total area. Only a location edit writes the location, and only a unit edit writes the unit label. |
| Calculator.CalculationsKeepIdentity | force-app/main/default/lwc/createQuoteLineItems/createQuoteLineItems.js:380-395 | The recalculation keeps id, family, name, location, unit label and the three flags. An area edit always leaves a total area. |
| Calculator.FieldStatesKeepIdentity | force-app/main/default/lwc/createQuoteLineItems/createQuoteLineItems.js:368-378 | Updating the field states keeps identity, location, family flags and total area. It enables wastage once there is a total area, unless the edit was of the length. |
| Calculator.PerformCalculations | force-app/main/default/lwc/createQuoteLineItems/createQuoteLineItems.js:380-395 | Definition only. CalculationsKeepIdentity, CalculationsKeepNetArea, LengthEditExample and EditLeavesCents state its properties. |
| Calculator.AreaFromDimensions | force-app/main/default/lwc/createQuoteLineItems/createQuoteLineItems.js:397-402 | Definition only. CalculationsKeepNetArea and AreaEditTotal state its properties for every row and edit. |
| Calculator.TotalArea | force-app/main/default/lwc/createQuoteLineItems/createQuoteLineItems.js:404-409 | Definition only. AreaEditTotal states it for every row and edit. |
| CalculatorFacts.AreaEditTotal | force-app/main/default/lwc/createQuoteLineItems/createQuoteLineItems.js:397-409 | After a net-area, wastage or length edit, the net area is length times width when both are filled in, else the edited net area. The total area is that net area plus the wastage percentage of it, rounded to cents, and 0 without a net area. |
| CalculatorFacts.UpdateRowAreas | force-app/main/default/lwc/createQuoteLineItems/createQuoteLineItems.js:347-354 | An area-recomputing edit leaves the net area of the area stage and its total area rounded to cents; the later stages change neither. |
| Calculator.Quantities | force-app/main/default/lwc/createQuoteLineItems/createQuoteLineItems.js:411-425 | Definition only. QuantitiesCount, QuantitiesRoundUp, QuantitiesRoundUpByWidth and QuantitiesFrame state its properties. |
| Calculator.Pricing | force-app/main/default/lwc/createQuoteLineItems/createQuoteLineItems.js:427-454 | Definition only. RateOfSources, AmountOfIsCents, PricingTaxAndGross and PricingGrossIsAmountPlusTax state its properties. |
| Calculator.Costs | force-app/main/default/lwc/createQuoteLineItems/createQuoteLineItems.js:456-476 | Definition only. ExtendedCostRounds and CostPriceSources state its properties. |
| Calculator.FormatNumbers | force-app/main/default/lwc/createQuoteLineItems/createQuoteLineItems.js:478-485 | Definition only. FormatNumbersRounds states its properties. |
| Calculator.UpdateFieldStates | force-app/main/default/lwc/createQuoteLineItems/createQuoteLineItems.js:368-378 | Definition only. FieldStatesKeepIdentity and EditFieldStates state its properties. |
| Calculator.SetFieldStatesForFamily | force-app/main/default/lwc/createQuoteLineItems/createQuoteLineItems.js:589-595 | Definition only. DiscountFacts.PickSetsFamilyFlags states its effect on a picked row. |
| Calculator.TriggersResync | force-app/main/default/lwc/createQuoteLineItems/createQuoteLineItems.js:358-366 | Definition only. These are the five edited fields that schedule the resynchronisation; RowTable.UpdateSettled uses it. |
| CalculatorFacts.UnitCountCovers | force-app/main/default/lwc/createQuoteLineItems/createQuoteLineItems.js:416 | The quantity is the least whole number of units whose area reaches the total area. |
| CalculatorFacts.CountedAreaRounds | force-app/main/default/lwc/createQuoteLineItems/createQuoteLineItems.js:417 | The quantity area is whole cents and within half a cent of quantity times unit. |
| CalculatorFacts.QuantitiesCount | force-app/main/default/lwc/createQuoteLineItems/createQuoteLineItems.js:411-425 | For a positive quantum, the quantity is filled in and is the least whole count covering the total area. The quantity area is that count times the quantum, to cents. |
| CalculatorFacts.QuantitiesRoundUp | force-app/main/default/lwc/createQuoteLineItems/createQuoteLineItems.js:412-417 | With a total area and a unit label, the count is taken against the label's number. |
| CalculatorFacts.QuantitiesRoundUpByWidth | force-app/main/default/lwc/createQuoteLineItems/createQuoteLineItems.js:418-424 | With a total area, no unit label and a width, the count is taken against the width. |
| CalculatorFacts.QuantitiesFrame | force-app/main/default/lwc/createQuoteLineItems/createQuoteLineItems.js:411-425 | Only quantity and quantity area change; without a total area nothing changes. |
| CalculatorFacts.RateOfSources | force-app/main/default/lwc/createQuoteLineItems/createQuoteLineItems.js:427-437 | A positive unit price sets the rate to unit price times label number, else times width, to the cent; otherwise the rate is kept. |
| CalculatorFacts.AmountOfIsCents | force-app/main/default/lwc/createQuoteLineItems/createQuoteLineItems.js:443-447 | An amount pricing computes, from quantity area and unit price or from quantity and rate, is whole cents. |
| CalculatorFacts.PricingTaxAndGross | force-app/main/default/lwc/createQuoteLineItems/createQuoteLineItems.js:449-453 | A non-zero amount gets tax 5% and gross 105%, each to cents. A zero or empty amount leaves tax and gross as they were. |
| CalculatorFacts.GrossOfCentsIsAmountPlusTax | force-app/main/default/lwc/createQuoteLineItems/createQuoteLineItems.js:450-453 | For a non-zero whole-cents amount, gross is exactly amount plus tax. |
| CalculatorFacts.PricingGrossIsAmountPlusTax | force-app/main/default/lwc/createQuoteLineItems/createQuoteLineItems.js:443-453 | After pricing, a non-zero amount has gross exactly equal to amount plus tax. This holds whenever pricing computed the amount or the kept amount was already whole cents. |
| CalculatorFacts.ExtendedCostRounds | force-app/main/default/lwc/createQuoteLineItems/createQuoteLineItems.js:457-461 | Extended cost is average cost times quantity, to the cent, when both are non-zero; otherwise it is kept. |
| CalculatorFacts.CostPriceSources | force-app/main/default/lwc/createQuoteLineItems/createQuoteLineItems.js:463-471 | A non-zero cost per unit prices the width or, without one, the label number, to the cent; otherwise the cost price is kept. |
| CalculatorFacts.Format2Rounds | force-app/main/default/lwc/createQuoteLineItems/createQuoteLineItems.js:478-485 | Formatting keeps a cell blank or filled, leaves whole cents and moves it by at most half a cent. |
| CalculatorFacts.FormatNumbersRounds | force-app/main/default/lwc/createQuoteLineItems/createQuoteLineItems.js:478-485 | Each of the seven formatted cells keeps its blankness and holds whole cents. |
| CalculatorFacts.CalculationsKeepNetArea | force-app/main/default/lwc/createQuoteLineItems/createQuoteLineItems.js:380-402 | Net area becomes length times width only for edits of net area, wastage or length with both dimensions filled in. Otherwise it is kept. |
| CalculatorFacts.WidthEditKeepsNetArea | force-app/main/default/lwc/createQuoteLineItems/createQuoteLineItems.js:380-389 | An edit of the width leaves the net area as it was. |
| CalculatorFacts.LaterStagesKeep | force-app/main/default/lwc/createQuoteLineItems/createQuoteLineItems.js:427-485 | Pricing, costs and formatting keep net area and quantity. They only round total area and quantity area to cents. |
| CalculatorFacts.LengthEditExample | force-app/main/default/lwc/createQuoteLineItems/createQuoteLineItems.js:380-425 | Length 4, width 2.5, wastage 10% and unit "2 sqm" give net 10, total 11, quantity 6 and quantity area 12. |
| CalculatorFacts.ExampleAreas | force-app/main/default/lwc/createQuoteLineItems/createQuoteLineItems.js:380-402 | In that example the area stage gives net area 10 and total area 11. |
| CalculatorFacts.ExampleQuantities | force-app/main/default/lwc/createQuoteLineItems/createQuoteLineItems.js:411-425 | In that example 11 sqm sold in units of "2 sqm" gives 6 units and 12 sqm. |
| CalculatorFacts.TwoSqmIsTwo | force-app/main/default/lwc/createQuoteLineItems/createQuoteLineItems.js:487-493 | The unit label "2 sqm" counts 2. |
| CalculatorFacts.EditFieldStates | force-app/main/default/lwc/createQuoteLineItems/createQuoteLineItems.js:368-378 | After any typed edit, wastage is disabled exactly when there is no total area, except that a length edit keeps the flag. An area edit always leaves a total area; other edits keep whether there is one. A typed quantity gives a unit-less row "SqM", a typed unit label stays, and no other edit changes the label. |
| CalculatorFacts.EditLeavesCents | force-app/main/default/lwc/createQuoteLineItems/createQuoteLineItems.js:380-395 | After any typed edit the seven formatted cells (total area, rate, amount, tax, gross, extended cost, quantity area) are whole numbers of cents. |
| LineItems.NonOverall | force-app/main/default/lwc/createQuoteLineItems/createQuoteLineItems.js:238-242 | The filter keeps only non-overall rows. |
| LineItems.NonOverallWithoutOverall | force-app/main/default/lwc/createQuoteLineItems/createQuoteLineItems.js:238-242 | A table without an overall row passes the filter unchanged. |
| LineItems.BlankRow | force-app/main/default/lwc/createQuoteLineItems/createQuoteLineItems.js:84-124 | Definition only. RowTableFacts.InsertShape and PersistenceFacts.LoadWithoutItems state where it is used. |
| LineItems.NonOverallFrom | force-app/main/default/lwc/createQuoteLineItems/createQuoteLineItems.js:238-242 | Every row the filter keeps comes from the table. |
| DiscountFacts.NonOverallHasNone | force-app/main/default/lwc/createQuoteLineItems/createQuoteLineItems.js:238-242 | After removal no overall row is left, a second removal changes nothing, and the overall-last shape holds. |
| DiscountFacts.NonOverallKeepsIds | force-app/main/default/lwc/createQuoteLineItems/createQuoteLineItems.js:238-242 | Removing overall rows keeps ids unique and below the counter. |
| Discounts.AddOverallDiscountRow | force-app/main/default/lwc/createQuoteLineItems/createQuoteLineItems.js:210-236 | When the gross total over the other rows is not positive, the editor is unchanged. Otherwise exactly one id is used, and selection, rate, cancel copy and ledger stay. |
| DiscountFacts.OverallRowCells | force-app/main/default/lwc/createQuoteLineItems/createQuoteLineItems.js:244-271 | The overall row is recognised as such and has row number 9999 and quantity 1. Each money cell is minus the rate's share of that column's total, to cents. |
| DiscountFacts.AddOverallShape | force-app/main/default/lwc/createQuoteLineItems/createQuoteLineItems.js:210-236 | With a positive gross total, the table becomes the other rows in order plus one overall row, which is last and the only one. |
| DiscountFacts.AddOverallRepeat | force-app/main/default/lwc/createQuoteLineItems/createQuoteLineItems.js:210-271 | Applying the same rate again gives the same table except for the overall row's new id. |
| DiscountFacts.AddOverallKeepsInvariants | force-app/main/default/lwc/createQuoteLineItems/createQuoteLineItems.js:210-236 | Adding the overall row keeps ids unique and fresh and the overall row last. |
| Discounts.ApplyOverallDiscount | force-app/main/default/lwc/createQuoteLineItems/createQuoteLineItems.js:195-208 | An empty rate removes the overall rows without using an id, and a rate reading 0 or less changes nothing. |
| DiscountFacts.EmptyRateRemovesOverall | force-app/main/default/lwc/createQuoteLineItems/createQuoteLineItems.js:204-206 | After an empty rate no overall-discount row is left. |
| DiscountFacts.ZeroRateRowOnResync | force-app/main/default/lwc/createQuoteLineItems/createQuoteLineItems.js:321-325 | A rate of 0 is a no-op when typed. The deferred refresh still appends an overall row whose money cells are all blank. |
| Discounts.RecalcOverall | force-app/main/default/lwc/createQuoteLineItems/createQuoteLineItems.js:321-325 | An empty rate leaves the editor unchanged. |
| Discounts.ApplyIndividualDiscount | force-app/main/default/lwc/createQuoteLineItems/createQuoteLineItems.js:273-319 | Length is kept. A missing target, a name without a percentage or a discount id not in the table leaves the table unchanged. |
| DiscountFacts.AttachEffect | force-app/main/default/lwc/createQuoteLineItems/createQuoteLineItems.js:273-319 | The discount row's five money cells are minus the percentage of the target's cells, to cents. Its quantity is 1, it points at the target, the target points back, and no other row changes. |
| DiscountFacts.AttachLinksBothWays | force-app/main/default/lwc/createQuoteLineItems/createQuoteLineItems.js:303-313 | After an attachment the target and the discount row point at each other's ids. |
| DiscountFacts.AttachKeepsSkeleton | force-app/main/default/lwc/createQuoteLineItems/createQuoteLineItems.js:273-319 | With unique ids, an attachment changes no row's id, name, family, location or external id. |
| DiscountFacts.DiscountNamesHavePercent | force-app/main/default/lwc/createQuoteLineItems/createQuoteLineItems.js:277-278 | Every individual-discount product name carries a percentage, so attachment never stops at the regular expression. |
| Discounts.LinkedTarget | force-app/main/default/lwc/createQuoteLineItems/createQuoteLineItems.js:329-331 | A found target is the row the discount row says it was applied from. |
| DiscountFacts.RecalcFromKeepsSkeleton | force-app/main/default/lwc/createQuoteLineItems/createQuoteLineItems.js:327-336 | The recalculation walk, with its shared-then-copied arrays, changes no id, name, family, location or external id. |
| DiscountFacts.RecalcStepKeepsSkeleton | force-app/main/default/lwc/createQuoteLineItems/createQuoteLineItems.js:327-336 | One step of the walk keeps ids unique and keeps every row's id, name, family, location and external id. |
| DiscountFacts.RecalcIndividualKeepsSkeleton | force-app/main/default/lwc/createQuoteLineItems/createQuoteLineItems.js:327-336 | Recalculating individual discounts changes no row's identity. |
| DiscountFacts.ResyncAsWrittenKeepsInvariants | force-app/main/default/lwc/createQuoteLineItems/createQuoteLineItems.js:361-364 | The deferred resynchronisation in the component's order, overall discount first, keeps ids unique and fresh, and it keeps the overall row last when it was last. |
| DiscountFacts.ResyncKeepsInvariants | force-app/main/default/lwc/createQuoteLineItems/createQuoteLineItems.js:361-364 | The corrected resynchronisation (see Findings) keeps the same invariants: ids unique and fresh, and the overall row last when it was last. |
| Discounts.Resync | force-app/main/default/lwc/createQuoteLineItems/createQuoteLineItems.js:361-364 | The resynchronisation with the individual discounts refreshed first (see Findings). The counter never decreases, and the selection, rate, ledger and cancel copy are kept. ResyncKeepsInvariants and RecalcFacts.ResyncPricesOverallLast state the rest. |
| Discounts.ResyncAsWritten | force-app/main/default/lwc/createQuoteLineItems/createQuoteLineItems.js:361-364 | The resynchronisation in the component's order, overall discount first. The counter never decreases, and the selection, rate, ledger and cancel copy are kept. DiscountFacts.ResyncAsWrittenKeepsInvariants states its invariants and RecalcFacts.ResyncAsWrittenPricesStale its stale overall row. The handlers run it. |
| RecalcFacts.ResyncPricesOverallLast | force-app/main/default/lwc/createQuoteLineItems/createQuoteLineItems.js:210-236 | With the individual discounts refreshed first, the table ends with exactly one overall row, priced from the other rows as they end up. A further overall recalculation rebuilds the same row over the same rows, only under a new id. |
| RecalcFacts.ResyncAsWrittenPricesStale | force-app/main/default/lwc/createQuoteLineItems/createQuoteLineItems.js:361-364 | A product priced at 100 with a 10% discount below it and a 10% overall rate: one run in the component's order prices the overall row at -10, although the other rows then total 90; a second run gives -9. |
| RecalcFacts.StaleFirstRun | force-app/main/default/lwc/createQuoteLineItems/createQuoteLineItems.js:361-364 | The first run in the component's order on such a table: the overall row is -10 and the discount row becomes -10. |
| RecalcFacts.StaleSecondRun | force-app/main/default/lwc/createQuoteLineItems/createQuoteLineItems.js:361-364 | The second run on the result: the other rows total 90 and the overall row becomes -9. |
| RecalcFacts.OverallGrossAtTenPercent | force-app/main/default/lwc/createQuoteLineItems/createQuoteLineItems.js:210-236 | A 10% overall rate over rows with a positive gross total, a tenth of which is whole cents, appends after them an overall row whose gross is minus that tenth. |
| Discounts.RecalcIndividual | force-app/main/default/lwc/createQuoteLineItems/createQuoteLineItems.js:327-336 | The table keeps its length. RecalcIndividualKeepsSkeleton, RecalcFacts.RecalcRebuildsDiscount and RecalcFacts.RecalcKeepsOtherRows state what it computes. |
| RecalcFacts.RecalcRebuildsDiscount | force-app/main/default/lwc/createQuoteLineItems/createQuoteLineItems.js:327-336 | Each linked discount row is rebuilt from its target: its name carries a percentage p, and its rate, unit price, amount, tax and gross are minus p% of the target's, rounded to cents, with quantity 1 and a link to the target. The target's money cells are unchanged, and it links back to the discount unless a later discount takes it. |
| RecalcFacts.RecalcKeepsOtherRows | force-app/main/default/lwc/createQuoteLineItems/createQuoteLineItems.js:327-336 | Every row that is not an individual discount keeps its money cells. A row that is neither a linked discount nor the target of one is unchanged. |
| RecalcFacts.RecalcAtDiscount | force-app/main/default/lwc/createQuoteLineItems/createQuoteLineItems.js:327-336 | At a linked discount the walk leaves the discount rebuilt from its target, and the target keeps its id and money cells. |
| RecalcFacts.RecalcIsPlain | force-app/main/default/lwc/createQuoteLineItems/createQuoteLineItems.js:327-336 | The forEach walk, with its shared-then-copied arrays, equals a plain walk over the original rows that rewrites each linked discount and its target in turn. |
| RecalcFacts.RecalcPairWithOther | force-app/main/default/lwc/createQuoteLineItems/createQuoteLineItems.js:327-336 | In a three-row table whose only linked discount is the middle row, that row gets minus p% of the first row's gross and the other two keep their money cells. |
| Discounts.RecalcFrom | force-app/main/default/lwc/createQuoteLineItems/createQuoteLineItems.js:327-336 | Each step keeps the table length. RecalcFromKeepsSkeleton and RecalcFacts.WalkIsPlain state the forEach walk. |
| RecalcFacts.WalkIsPlain | force-app/main/default/lwc/createQuoteLineItems/createQuoteLineItems.js:327-336 | From any position, the remaining forEach steps do what the plain walk does, whether the walk still shares its array with the table or has copied it. |
| Discounts.OverallDiscountRow | force-app/main/default/lwc/createQuoteLineItems/createQuoteLineItems.js:244-271 | Definition only. DiscountFacts.OverallRowCells states its cells. |
| Discounts.DiscountedRow | force-app/main/default/lwc/createQuoteLineItems/createQuoteLineItems.js:289-302 | Definition only. DiscountFacts.AttachEffect states its cells. |
| Discounts.Picked | force-app/main/default/lwc/createQuoteLineItems/createQuoteLineItems.js:556-567 | Definition only. DiscountFacts.PickSetsFamilyFlags and PickedDiscountLinks state what a pick writes. |
| Discounts.ConsecutiveDiscount | force-app/main/default/lwc/createQuoteLineItems/createQuoteLineItems.js:546-554 | Definition only. Discounts.ApplyProductToRow and SelectProduct state that a pick it matches changes nothing. |
| Discounts.ApplyProductToRow | force-app/main/default/lwc/createQuoteLineItems/createQuoteLineItems.js:542-577 | A pick writes the product into that row and recalculates it, touching no other row. A position past the table, or a consecutive discount, changes nothing. |
| Discounts.SelectProduct | force-app/main/default/lwc/createQuoteLineItems/createQuoteLineItems.js:546-553 | A discount product next to an individual-discount row is refused and the editor is unchanged. |
| DiscountFacts.PickedDiscountLinks | force-app/main/default/lwc/createQuoteLineItems/createQuoteLineItems.js:579-586 | A discount product picked below a row ends up linked to it in both directions. |
| DiscountFacts.PickSetsFamilyFlags | force-app/main/default/lwc/createQuoteLineItems/createQuoteLineItems.js:556-595 | After an accepted pick the row is the picked product. Its net area is locked exactly for wall-to-wall families and its length exactly for decking families. The recalculation keeps both flags. |
| DiscountFacts.AttachAboveLinks | force-app/main/default/lwc/createQuoteLineItems/createQuoteLineItems.js:579-586 | A discount row written at a position and attached to the row above links the two both ways, keeping its id and name. |
| RowTable.Select | force-app/main/default/lwc/createQuoteLineItems/createQuoteLineItems.js:623-631 | Exactly the row at the chosen index is flagged selected, and nothing else changes. |
| RowTableFacts.SelectKeepsInvariants | force-app/main/default/lwc/createQuoteLineItems/createQuoteLineItems.js:623-631 | Selecting keeps ids unique and fresh and the overall row last. |
| RowTable.ToggleEdit | force-app/main/default/lwc/createQuoteLineItems/createQuoteLineItems.js:633-667 | Length, counter, selection, rate and ledger are kept. |
| RowTable.RefreshBelow | force-app/main/default/lwc/createQuoteLineItems/createQuoteLineItems.js:641-655 | Only the row below the selection may change, and it keeps its id, name, family and location. |
| RowTableFacts.RefreshBelowCells | force-app/main/default/lwc/createQuoteLineItems/createQuoteLineItems.js:641-652 | The discount row below is redescribed. Its gross, amount, tax, rate and unit price each become minus the percentage of the selected row's cell, unrounded. |
| RowTableFacts.ToggleEditNeverStops | force-app/main/default/lwc/createQuoteLineItems/createQuoteLineItems.js:641-644 | The early return for a discount name without a percentage cannot happen. |
| RowTableFacts.ToggleEditFlips | force-app/main/default/lwc/createQuoteLineItems/createQuoteLineItems.js:657-665 | The selected row's mode flips. The cancel copy is the row as it was exactly when it enters edit mode. Rows other than it and the one below stay. |
| RowTableFacts.ToggleEditKeepsInvariants | force-app/main/default/lwc/createQuoteLineItems/createQuoteLineItems.js:633-667 | The toggle keeps ids unique and fresh and the overall row last. |
| RowTableFacts.ToggleEditKeepsRowKinds | force-app/main/default/lwc/createQuoteLineItems/createQuoteLineItems.js:633-667 | Every row keeps its id and whether it is the overall row. |
| RowTable.ToggleEditSettled | force-app/main/default/lwc/createQuoteLineItems/createQuoteLineItems.js:669-673 | Without a selected row nothing happens at all. |
| RowTableFacts.ToggleEditSettledKeepsInvariants | force-app/main/default/lwc/createQuoteLineItems/createQuoteLineItems.js:669-673 | The toggle with its deferred overall refresh keeps ids unique and fresh and the overall row last. |
| RowTable.Cancel | force-app/main/default/lwc/createQuoteLineItems/createQuoteLineItems.js:676-685 | The corrected cancel (see Findings) keeps the number of rows and every row's id. |
| RowTableFacts.EditThenCancelRestores | force-app/main/default/lwc/createQuoteLineItems/createQuoteLineItems.js:676-685 | Entering edit mode, editing the row and cancelling gives back the row exactly as it was. |
| RowTableFacts.CancelKeepsIds | force-app/main/default/lwc/createQuoteLineItems/createQuoteLineItems.js:676-685 | The corrected cancel (see Findings) keeps ids unique and below the counter. The component's cancel does not (CancelAsWrittenDuplicatesRow). |
| RowTable.CancelAsWritten | force-app/main/default/lwc/createQuoteLineItems/createQuoteLineItems.js:676-685 | The source's cancel keeps the number of rows. |
| RowTableFacts.CancelAsWrittenDuplicatesRow | force-app/main/default/lwc/createQuoteLineItems/createQuoteLineItems.js:676-685 | Edit the first of two rows, select the second, cancel: the source's cancel leaves the first row's id twice in the table. |
| RowTableFacts.CancelLeavesOtherRow | force-app/main/default/lwc/createQuoteLineItems/createQuoteLineItems.js:676-685 | In the same flow the corrected cancel changes nothing. |
| RowTable.InsertIndex | force-app/main/default/lwc/createQuoteLineItems/createQuoteLineItems.js:691-699 | The insert point is one past the selection. When the first overall row comes earlier, the insert point is that row's index, so no row before it is an overall row. |
| RowTable.Insert | force-app/main/default/lwc/createQuoteLineItems/createQuoteLineItems.js:687-708 | Without a selection nothing changes. With one, the table grows by one row and one id is used. |
| RowTableFacts.InsertShape | force-app/main/default/lwc/createQuoteLineItems/createQuoteLineItems.js:687-708 | A blank edit-mode row with the next id lands at the clamped insert point. The other rows keep their order and are deselected. Selection and cancel copy move to the new row. |
| RowTableFacts.InsertKeepsInvariants | force-app/main/default/lwc/createQuoteLineItems/createQuoteLineItems.js:687-705 | An insert keeps ids unique and fresh and the overall row last. |
| RowTableFacts.InsertAtKeepsInvariants | force-app/main/default/lwc/createQuoteLineItems/createQuoteLineItems.js:700-704 | A fresh non-overall row inserted with no overall row before it keeps ids unique and fresh and the overall row last. |
| RowTable.InsertSettled | force-app/main/default/lwc/createQuoteLineItems/createQuoteLineItems.js:710-713 | The insert followed by the resynchronisation in the component's order, overall discount first. Without a selection nothing happens at all. |
| RowTableFacts.InsertSettledKeepsInvariants | force-app/main/default/lwc/createQuoteLineItems/createQuoteLineItems.js:710-713 | An insert with its deferred resynchronisation, in the component's order, keeps ids unique and fresh and the overall row last. |
| RowTable.Noted | force-app/main/default/lwc/createQuoteLineItems/createQuoteLineItems.js:722-724 | A removed row's external id is appended to the ledger exactly when it has one. |
| RowTable.Remove | force-app/main/default/lwc/createQuoteLineItems/createQuoteLineItems.js:716-772 | No selection or a single row changes nothing. Otherwise the counter and cancel copy stay and no row is added. |
| RowTableFacts.RemoveRejected | force-app/main/default/lwc/createQuoteLineItems/createQuoteLineItems.js:719-736 | A product row above an individual discount is not removed and the table and selection stay. Its external id is noted all the same. |
| RowTableFacts.RemoveDiscountLeavesDanglingLink | force-app/main/default/lwc/createQuoteLineItems/createQuoteLineItems.js:763-767 | Removing an individual-discount row on its own leaves the row it was applied to, at its shifted position, naming the removed id, which no row carries any more. |
| RowTableFacts.RemoveAlone | force-app/main/default/lwc/createQuoteLineItems/createQuoteLineItems.js:755-771 | A row owning no discount is removed alone and later rows move up. The selection becomes max(0, i-1) and its id is noted. The rate is cleared exactly when it was the overall row. |
| RowTableFacts.RemoveWithOwnedDiscount | force-app/main/default/lwc/createQuoteLineItems/createQuoteLineItems.js:738-772 | A row owning a discount row is removed with it. The owned row goes first, then the selected row at its shifted position s1, and the others keep their order. Neither id is left, and both external ids are noted, the selected row's first. The selection becomes max(0, s1-1). |
| RowTableFacts.RemoveBothLeavesNeither | force-app/main/default/lwc/createQuoteLineItems/createQuoteLineItems.js:738-753 | Removing two distinct rows leaves two rows fewer, all from the table, with neither id (ids being unique). |
| RowTableFacts.RemoveOverallClearsRate | force-app/main/default/lwc/createQuoteLineItems/createQuoteLineItems.js:755-761 | Removing the overall row clears the overall rate. |
| RowTableFacts.RemoveKeepsInvariants | force-app/main/default/lwc/createQuoteLineItems/createQuoteLineItems.js:716-772 | Every removal keeps ids unique and fresh and the overall row last. |
| RowTable.RemoveSettled | force-app/main/default/lwc/createQuoteLineItems/createQuoteLineItems.js:725-728 | The removal followed by the resynchronisation in the component's order, overall discount first. When the handler returns before scheduling, nothing happens at all. |
| RowTableFacts.RemoveSettledKeepsInvariants | force-app/main/default/lwc/createQuoteLineItems/createQuoteLineItems.js:725-728 | A removal with its deferred resynchronisation, in the component's order, keeps ids unique and fresh and the overall row last. |
| RowTableFacts.HandlersKeepInvariants | force-app/main/default/lwc/createQuoteLineItems/createQuoteLineItems.js:623-772 | Select, toggle, insert and remove, deferred steps included and run in the component's order, keep ids unique and below the counter and the overall row last. |
| RowTableFacts.HandlersOnlyRaiseCounter | force-app/main/default/lwc/createQuoteLineItems/createQuoteLineItems.js:171-173 | No handler lowers the id counter, and an insert with a selection raises it. |
| RowTable.UpdateSettled | force-app/main/default/lwc/createQuoteLineItems/createQuoteLineItems.js:338-366 | The edit followed, for the five resync fields, by the resynchronisation in the component's order, overall discount first. The selection, rate, ledger and cancel copy are kept, and the counter never decreases. An edit of a field outside the five resync fields adds no row and uses no id. |
| RowTableFacts.UpdateSettledKeepsInvariants | force-app/main/default/lwc/createQuoteLineItems/createQuoteLineItems.js:338-366 | An edit with its deferred resync, in the component's order, keeps ids unique and fresh. It keeps the overall row last unless the edit types the overall location into a row. |
| RowTableFacts.LocationEditMovesOverall | force-app/main/default/lwc/createQuoteLineItems/createQuoteLineItems.js:346-356 | Typing the overall location into a discount-family row above the last row makes an overall row that is not last. |
| Persistence.MapItemToTableRow | force-app/main/default/lwc/createQuoteLineItems/createQuoteLineItems.js:126-169 | A loaded row has the given id and the stored external id. It is read-only, unselected and has no discount links. |
| Persistence.SplitFamily | force-app/main/default/lwc/createQuoteLineItems/createQuoteLineItems.js:61-62 | Each part is no longer than the table; every row of the discount part is in the discount family and no row of the other part is. |
| PersistenceFacts.SplitFamilyPermutes | force-app/main/default/lwc/createQuoteLineItems/createQuoteLineItems.js:61-62 | The two parts together are a permutation of the loaded rows. |
| PersistenceFacts.SplitFamilyFrom | force-app/main/default/lwc/createQuoteLineItems/createQuoteLineItems.js:61-62 | Every row of either part comes from the table. |
| PersistenceFacts.SplitFamilyKeepsOrder | force-app/main/default/lwc/createQuoteLineItems/createQuoteLineItems.js:61-62 | Each part keeps the table's increasing ids in order. |
| PersistenceFacts.SplitFamilyUnique | force-app/main/default/lwc/createQuoteLineItems/createQuoteLineItems.js:61-62 | With increasing ids, the two parts joined have unique ids. |
| PersistenceFacts.SplitFamilyOrders | force-app/main/default/lwc/createQuoteLineItems/createQuoteLineItems.js:61-65 | In the two parts joined, every discount-family row comes after every other row. |
| PersistenceFacts.LoadedRowsPermute | force-app/main/default/lwc/createQuoteLineItems/createQuoteLineItems.js:59-65 | The loaded table has one row per item and is a permutation of the mapped items. |
| PersistenceFacts.LoadedRowsOrder | force-app/main/default/lwc/createQuoteLineItems/createQuoteLineItems.js:59-65 | In the loaded table, discount-family rows come after all other rows. |
| PersistenceFacts.LoadedRowsRead | force-app/main/default/lwc/createQuoteLineItems/createQuoteLineItems.js:59-65 | Every loaded row is in read mode. |
| Persistence.Load | force-app/main/default/lwc/createQuoteLineItems/createQuoteLineItems.js:56-82 | A load always leaves at least one row and keeps selection, cancel copy and ledger. |
| Persistence.LoadedRows | force-app/main/default/lwc/createQuoteLineItems/createQuoteLineItems.js:59-65 | Definition only. PersistenceFacts.LoadedRowsPermute, LoadedRowsOrder and LoadedRowsRead state its properties. |
| Persistence.LoadedRate | force-app/main/default/lwc/createQuoteLineItems/createQuoteLineItems.js:67-73 | Definition only. PersistenceFacts.LoadRestoresWholeRate and LoadKeepsRateWithoutOverall state its properties. |
| PersistenceFacts.LoadShape | force-app/main/default/lwc/createQuoteLineItems/createQuoteLineItems.js:59-65 | Loading items keeps each as one read-only row, a permutation of the mapped items, with every discount-family row after every other row. |
| PersistenceFacts.LoadWithoutItems | force-app/main/default/lwc/createQuoteLineItems/createQuoteLineItems.js:74-81 | A failed or empty load leaves one blank row with the next id and keeps the rate. |
| PersistenceFacts.LoadIdsFresh | force-app/main/default/lwc/createQuoteLineItems/createQuoteLineItems.js:56-82 | Whatever the table held, the loaded table's ids are unique and below the counter. |
| PersistenceFacts.OverallLabelCarriesRate | force-app/main/default/lwc/createQuoteLineItems/createQuoteLineItems.js:67-70 | The overall row's name for a whole-number rate yields that rate under the decimal-percentage expression. |
| PersistenceFacts.DecimalPercentOfWholeLabel | force-app/main/default/lwc/createQuoteLineItems/createQuoteLineItems.js:67-70 | A name "Discount (<digits>%)" yields those digits as its percentage. |
| PersistenceFacts.LoadRestoresWholeRate | force-app/main/default/lwc/createQuoteLineItems/createQuoteLineItems.js:67-73 | A stored overall row named for a whole-number rate brings that rate back. |
| PersistenceFacts.LoadKeepsRateWithoutOverall | force-app/main/default/lwc/createQuoteLineItems/createQuoteLineItems.js:67-73 | Without a stored overall row the rate stays as it was. |
| Persistence.RowNumbers | force-app/main/default/lwc/createQuoteLineItems/createQuoteLineItems.js:808-827 | Overall rows get 9999. Every other row gets one more than the number of non-overall rows before it. |
| Persistence.NonOverallBeforeCounts | force-app/main/default/lwc/createQuoteLineItems/createQuoteLineItems.js:808-821 | The running count before a position is the number of rows the overall filter keeps from the prefix. |
| Persistence.AssignRowNumbers | force-app/main/default/lwc/createQuoteLineItems/createQuoteLineItems.js:808-827 | Only row numbers change, and they follow the same rule. |
| PersistenceFacts.NumbersCountRows | force-app/main/default/lwc/createQuoteLineItems/createQuoteLineItems.js:808-821 | The non-overall rows, in table order, are numbered 1, 2, 3, ... without gaps. |
| Persistence.ToPayload | force-app/main/default/lwc/createQuoteLineItems/createQuoteLineItems.js:829-860 | The row id goes out as its decimal text and a blank quantity as 1. The individual-discount flag matches the product name. |
| Persistence.BuildQuoteLineItems | force-app/main/default/lwc/createQuoteLineItems/createQuoteLineItems.js:829-860 | One payload per row, in order, carrying its id text and row number. |
| PersistenceFacts.PayloadOfLoadedItem | force-app/main/default/lwc/createQuoteLineItems/createQuoteLineItems.js:829-860 | A loaded, untouched row goes back out with the texts and numbers it was stored with. A missing number goes out as 0 and a missing quantity as 1. |
| Persistence.OverallDiscountAmount | force-app/main/default/lwc/createQuoteLineItems/createQuoteLineItems.js:862-866 | The overall discount amount is never negative. |
| PersistenceFacts.AmountWithoutOverall | force-app/main/default/lwc/createQuoteLineItems/createQuoteLineItems.js:862-866 | A table without an overall row sends a discount amount of 0. |
| PersistenceFacts.AmountOfAppliedDiscount | force-app/main/default/lwc/createQuoteLineItems/createQuoteLineItems.js:862-866 | Once the overall discount is applied, the amount sent is the size of its gross discount. |
| Persistence.Save | force-app/main/default/lwc/createQuoteLineItems/createQuoteLineItems.js:785-806 | Rows are renumbered whatever the outcome. The request carries each renumbered row's payload, the rate (0 when empty), the overall amount and the ledger. The ledger is cleared only on success. |

## Left out

- The product search and its debounce, suggestion lists, focus and blur, and loading spinners: these are user-interface state.
- Toast messages: their text has no effect on the table.
- The load query, the product query and the upsert: they are inputs and outcomes, as described above.
- `setTimeout` scheduling: each deferred step runs right after its handler. Interleavings of several pending timers are not modelled.
- IEEE-754 arithmetic, `parseFloat` on arbitrary text and string coercion. Cells hold exact reals. A text that reads as NaN is `Val(0)`. This matches `safeParseFloat` with its default of 0, but not with any other default.
- The `selectedDiscount` combo-box value, which mirrors the rate and is only displayed.
- Text.ExtractUnitValue: models the string branch only. The number branch is out because unit labels in this editor are always text.
- Text.NumberText: renders up to six decimals. The rate round trip is proved only for whole-number rates (`PersistenceFacts.LoadRestoresWholeRate`).
- Persistence.ToPayload: a quantity cell holding text that parses to NaN goes out as 1 in the source, since `safeParseFloat` at line 843 has a default of 1. The model cannot tell that text from a typed 0 and sends 0.
- Calculator.Quantities: a unit quantum of 0 divides by zero in the source and writes "Infinity" or "NaN". The model leaves the row unchanged in that case.
- Persistence.Load: the stored items carry no discount links, so loaded rows have none. What the load query selects and orders is not part of this model.
- RowTable.CancelAsWritten: a selection past the table end writes past the array end in the source, leaving holes. The model leaves the editor unchanged.
- RowTable.ToggleEdit, RowTable.Remove: a selection past the table end makes the source throw before any change. The model leaves the editor unchanged.
- Discounts.ApplyProductToRow: a position past the table end is ignored.
- RecalcFacts.RecalcRebuildsDiscount: stated for tables where no linked discount points at another individual-discount row (the editor refuses to put two of them next to each other). For a target claimed by several discount rows, the back link is stated only for the last of them.
- RecalcFacts.ResyncPricesOverallLast: stated when the rate is set and the other rows' gross total is positive. Otherwise no overall row is appended (`Discounts.AddOverallDiscountRow`).
- The `isSuggestionsVisible`, `editmode` and `readmode` flags: `editmode`/`readmode` are one `Mode` value, since the source always sets them as opposites.
- `fileUploader.js`, the check-in and check-out components, the signing and sending components, and the navigation controller: each is a thin wrapper around one server call.

## Findings

The handlers' deferred steps run `Discounts.ResyncAsWritten`, in the component's order, and their invariant lemmas are proved for that order. `Discounts.Resync` is the corrected resynchronisation of the second row below, with its property proved on its own.

| source | as written | input that shows it | evidently intended | confidence | as-written member | corrected member |
|---|---|---|---|---|---|---|
| force-app/main/default/lwc/createQuoteLineItems/createQuoteLineItems.js:676-685 | Cancel writes the kept copy into whichever row is selected now | Two rows with ids 1 and 2. Select row 0, toggle it into edit mode, select row 1, cancel: row 1 is overwritten by the copy of row 0, and id 1 appears twice. | Restore the copy only into the row it was taken from | not executed | RowTableFacts.CancelAsWrittenDuplicatesRow | RowTableFacts.EditThenCancelRestores |
| force-app/main/default/lwc/createQuoteLineItems/createQuoteLineItems.js:361-364 | The overall discount is recalculated before the individual discounts (here and in the same steps at lines 710-713 and 725-728), so its base total counts individual-discount cells that are not yet up to date | A product row with gross 100, a "10% Discount" row linked to it with no gross yet, overall rate 10%. One run prices the overall row at -10 while the rows it covers then total 90. A second run on the result gives -9. | Refresh the individual discounts first, so that the overall row is priced from the rows as they end up | not executed | RecalcFacts.ResyncAsWrittenPricesStale | RecalcFacts.ResyncPricesOverallLast |

=== FILE: calculator.dfy ===
/**
 * The derived-field calculator: what one edit of a row's cell recomputes in
 * that row (area, quantity, pricing, cost, two-decimal formatting) and the
 * field-enablement flags that follow from the product family and the area.
 */
module Calculator {
  import opened Values
  import opened Text
  import opened LineItems

  /** A cell edit typed into a row. Numbers typed as text arrive as fields. */
  datatype Input =
    | SetLocation(text: string)
    | SetDescription(text: string)
    | SetNetArea(value: Field)
    | SetWastage(value: Field)
    | SetLength(value: Field)
    | SetWidth(value: Field)
    | SetQuantity(value: Field)
    | SetUnits(text: string)
    | SetRate(value: Field)
    | SetUnitPrice(value: Field)
    | SetAmount(value: Field)
    | SetTaxAmount(value: Field)
    | SetGrossAmount(value: Field)
    | SetAverageCost(value: Field)
    | SetCostPricePerUnit(value: Field)

  /** What caused a recalculation: a typed cell, or a catalog product picked
      into the row. */
  datatype Trigger = Typed(input: Input) | ProductSelected

  /** The row once the typed value is in its cell. No identifying field or
      flag changes, and only the matching edit writes the location or the
      unit label. */
  function Apply(r: Row, input: Input): (r': Row)
    ensures r'.id == r.id && r'.family == r.family && r'.itemInput == r.itemInput
    ensures r'.netAreaDisable == r.netAreaDisable && r'.lengthDisable == r.lengthDisable
    ensures r'.wastageDisable == r.wastageDisable && r'.totalArea == r.totalArea
    ensures r'.location == (if input.SetLocation? then input.text else r.location)
    ensures r'.units == (if input.SetUnits? then input.text else r.units)
  {
    match input
    case SetLocation(t) => r.(location := t)
    case SetDescription(t) => r.(description := t)
    case SetNetArea(v) => r.(netArea := v)
    case SetWastage(v) => r.(wastage := v)
    case SetLength(v) => r.(length := v)
    case SetWidth(v) => r.(widthM := v)
    case SetQuantity(v) => r.(quantity := v)
    case SetUnits(t) => r.(units := t)
    case SetRate(v) => r.(rate := v)
    case SetUnitPrice(v) => r.(unitPriceSub := v)
    case SetAmount(v) => r.(amount := v)
    case SetTaxAmount(v) => r.(taxAmount := v)
    case SetGrossAmount(v) => r.(grossAmount := v)
    case SetAverageCost(v) => r.(averageCost := v)
    case SetCostPricePerUnit(v) => r.(costPricePerUnit := v)
  }

  /** Only edits of net area, wastage or length recompute the area; an edit
      of the width does not. */
  predicate RecomputesArea(t: Trigger) {
    t.Typed? && (t.input.SetNetArea? || t.input.SetWastage? || t.input.SetLength?)
  }

  /** Edits after which the discount rows are resynchronised. */
  predicate TriggersResync(input: Input) {
    input.SetAmount? || input.SetGrossAmount? || input.SetQuantity? || input.SetRate? || input.SetUnitPrice?
  }

  /** calculateTotalArea: net area plus the wastage percentage of it; 0 when
      there is no net area. */
  function TotalArea(netArea: Field, wastage: Field): real {
    if !Present(netArea) then 0.0
    else
      var net := Num(netArea);
      net + net * Num(wastage) / 100.0
  }

  /** The net area after calculateAreaFromDimensions: length times width when
      both cells are filled in, otherwise the net area as it was. The product
      is written as text, so even a zero product is a filled-in cell. */
  function NetAreaOf(length: Field, width: Field, netArea: Field): Field {
    if Present(length) && Present(width) then Val(Num(length) * Num(width)) else netArea
  }

  /** calculateAreaFromDimensions. The total area is always written, as text,
      so it becomes truthy even when it is 0. */
  function AreaFromDimensions(r: Row): Row {
    var net := NetAreaOf(r.length, r.widthM, r.netArea);
    r.(netArea := net, totalArea := Val(TotalArea(net, r.wastage)))
  }

  /** The unit quantum calculateQuantities counts in, when it counts at all:
      the unit label's leading number, or the width for a row without units. */
  function Quantum(totalArea: Field, units: string, width: Field): Option<real> {
    if Present(totalArea) && units != "" then Some(ExtractUnitValue(units))
    else if Present(width) && units == "" && Present(totalArea) then Some(Num(width))
    else None
  }

  /** Math.ceil(total / u), as the number the quantity cell holds. */
  function UnitCount(total: real, u: real): real
    requires u != 0.0
  {
    Ceil(total / u) as real
  }

  /** The quantity area: the count of units times the unit, to cents. */
  function CountedArea(total: real, u: real): real
    requires u != 0.0
  {
    Round2(UnitCount(total, u) * u)
  }

  /** calculateQuantities. A zero quantum makes the source divide by zero;
      the model then leaves the row as it is. */
  function Quantities(r: Row): Row {
    match Quantum(r.totalArea, r.units, r.widthM)
    case None => r
    case Some(u) =>
      if u == 0.0 then r
      else r.(quantity := Val(UnitCount(Num(r.totalArea), u)), quantitySqm := Val(CountedArea(Num(r.totalArea), u)))
  }

  /** calculatePricing, first step: a positive unit price sets the rate per
      unit quantum (the unit label's number, else the width). */
  function RateOf(unitPrice: real, units: string, width: Field, rate: Field): Field {
    if unitPrice > 0.0 && units != "" then Val(Round2(unitPrice * ExtractUnitValue(units)))
    else if unitPrice > 0.0 && Present(width) then Val(Round2(unitPrice * Num(width)))
    else rate
  }

  /** Second step: the amount, from quantity area times unit price, else from
      quantity times rate, else the amount as it was. */
  function AmountOf(quantitySqm: real, unitPrice: real, quantity: real, rate: real, amount: Field): Field {
    if quantitySqm != 0.0 && unitPrice != 0.0 then Val(Round2(quantitySqm * unitPrice))
    else if quantity != 0.0 && rate != 0.0 then Val(Round2(quantity * rate))
    else amount
  }

  /** Last step: tax at the fixed rate of a non-zero amount. */
  function TaxOf(amount: real, tax: Field): Field {
    if amount != 0.0 then Val(Round2(amount * TaxRate)) else tax
  }

  /** Last step: the tax-inclusive gross of a non-zero amount. */
  function GrossOf(amount: real, gross: Field): Field {
    if amount != 0.0 then Val(Round2(amount * (1.0 + TaxRate))) else gross
  }

  /** calculatePricing. */
  function Pricing(r: Row): Row {
    var unitPrice := Num(r.unitPriceSub);
    var rate := RateOf(unitPrice, r.units, r.widthM, r.rate);
    var amount := AmountOf(Num(r.quantitySqm), unitPrice, Num(r.quantity), Num(rate), r.amount);
    r.(rate := rate, amount := amount,
       taxAmount := TaxOf(Num(amount), r.taxAmount), grossAmount := GrossOf(Num(amount), r.grossAmount))
  }

  /** calculateCosts, extended cost: average cost times quantity. */
  function ExtendedCostOf(averageCost: real, quantity: real, cost: Field): Field {
    if averageCost != 0.0 && quantity != 0.0 then Val(Round2(averageCost * quantity)) else cost
  }

  /** calculateCosts, cost price: cost per unit times the width, else times
      the unit label's number. */
  function CostPriceOf(perUnit: real, width: Field, units: string, costPrice: Field): Field {
    if perUnit != 0.0 && Present(width) then Val(Round2(Num(width) * perUnit))
    else if perUnit != 0.0 && units != "" then Val(Round2(ExtractUnitValue(units) * perUnit))
    else costPrice
  }

  /** calculateCosts. */
  function Costs(r: Row): Row {
    r.(estExtendedCost := ExtendedCostOf(Num(r.averageCost), Num(r.quantity), r.estExtendedCost),
       costPrice := CostPriceOf(Num(r.costPricePerUnit), r.widthM, r.units, r.costPrice),
       costEstimateType := if Present(r.rate) && Present(r.quantity) then "Custom" else r.costEstimateType)
  }

  /** Two-decimal rendering of a non-empty cell. */
  function Format2(f: Field): Field {
    match f
    case Blank => Blank
    case Val(x) => Val(Round2(x))
  }

  /** formatNumbers. */
  function FormatNumbers(r: Row): Row {
    r.(totalArea := Format2(r.totalArea), rate := Format2(r.rate), amount := Format2(r.amount),
       taxAmount := Format2(r.taxAmount), grossAmount := Format2(r.grossAmount),
       estExtendedCost := Format2(r.estExtendedCost), quantitySqm := Format2(r.quantitySqm))
  }

  /** performCalculations. */
  function PerformCalculations(r: Row, t: Trigger): Row {
    var r0 := if RecomputesArea(t) then AreaFromDimensions(r) else r;
    FormatNumbers(Costs(Pricing(Quantities(r0))))
  }

  /** updateFieldStates: a typed quantity gives a unit-less row the base unit,
      and the wastage input is enabled once there is a total area. */
  function UpdateFieldStates(r: Row, input: Input): Row {
    var units := if input.SetQuantity? && r.units == "" then BaseUnitLabel else r.units;
    var wastageDisable :=
      if !input.SetLength? && Present(r.totalArea) then false
      else if !Present(r.totalArea) then true
      else r.wastageDisable;
    r.(units := units, wastageDisable := wastageDisable)
  }

  /** setFieldStatesForFamily. */
  function SetFieldStatesForFamily(r: Row): Row {
    r.(netAreaDisable := r.family in WallToWallFamilies, lengthDisable := r.family in DeckingFamilies)
  }

  /** One typed edit of a row: write the cell, recalculate, update the flags.
      The row keeps its identity and the flags its family set, and only a
      location edit moves it to another location; an edit of
      the net area or the wastage always leaves a total area behind, so the
      wastage input comes out enabled. */
  function UpdateRow(r: Row, input: Input): (r': Row)
    ensures r'.id == r.id && r'.family == r.family && r'.itemInput == r.itemInput
    ensures r'.location == (if input.SetLocation? then input.text else r.location)
    ensures r'.netAreaDisable == r.netAreaDisable && r'.lengthDisable == r.lengthDisable
    ensures input.SetNetArea? || input.SetWastage? ==> Present(r'.totalArea) && !r'.wastageDisable
  {
    var a := Apply(r, input);
    var c := PerformCalculations(a, Typed(input));
    CalculationsKeepIdentity(a, Typed(input));
    FieldStatesKeepIdentity(c, input);
    UpdateFieldStates(c, input)
  }

  /** updateFieldStates leaves identity, location, family flags and the
      total area alone, and enables wastage once there is a total area
      (unless the edit was of the length). */
  lemma FieldStatesKeepIdentity(r: Row, input: Input)
    ensures var r' := UpdateFieldStates(r, input);
            && r'.id == r.id && r'.family == r.family && r'.itemInput == r.itemInput && r'.location == r.location
            && r'.netAreaDisable == r.netAreaDisable && r'.lengthDisable == r.lengthDisable
            && r'.totalArea == r.totalArea
            && (!input.SetLength? && Present(r.totalArea) ==> !r'.wastageDisable)
  {
  }

  /** What the recalculation never writes: a row's identity, family, unit
      label and enablement flags. */
  predicate SameIdentity(a: Row, b: Row) {
    && a.id == b.id && a.family == b.family && a.itemInput == b.itemInput && a.location == b.location
    && a.units == b.units
    && a.netAreaDisable == b.netAreaDisable && a.lengthDisable == b.lengthDisable
    && a.wastageDisable == b.wastageDisable
  }

  /** The recalculation writes derived cells only, and an area edit always
      leaves a total area. */
  lemma CalculationsKeepIdentity(r: Row, t: Trigger)
    ensures SameIdentity(r, PerformCalculations(r, t))
    ensures RecomputesArea(t) ==> Present(PerformCalculations(r, t).totalArea)
  {
    var r0 := if RecomputesArea(t) then AreaFromDimensions(r) else r;
    StagesKeepIdentity(r0);
  }

  /** Quantities, pricing, costs and formatting keep the identity and
      whether there is a total area. */
  lemma StagesKeepIdentity(r: Row)
    ensures var c := FormatNumbers(Costs(Pricing(Quantities(r))));
            SameIdentity(r, c) && (Present(c.totalArea) <==> Present(r.totalArea))
  {
    var q := Quantities(r);
    assert SameIdentity(r, q) && q.totalArea == r.totalArea;
    var c := Costs(Pricing(q));
    assert SameIdentity(q, c) && c.totalArea == q.totalArea;
  }

  /** updateTableRow: the edit applies to the row(s) with the given id; every
      row keeps its id and place, rows with another id are untouched, and an
      edited row is the row after `UpdateRow`. */
  function UpdateTableRow(e: Editor, id: RowId, input: Input): (e': Editor)
    ensures |e'.rows| == |e.rows| && e'.(rows := e.rows) == e
    ensures forall i :: 0 <= i < |e.rows| ==> e'.rows[i].id == e.rows[i].id
    ensures forall i :: 0 <= i < |e.rows| && e.rows[i].id != id ==> e'.rows[i] == e.rows[i]
    ensures forall i :: 0 <= i < |e.rows| && e.rows[i].id == id ==>
              e'.rows[i].family == e.rows[i].family && e'.rows[i].itemInput == e.rows[i].itemInput
              && e'.rows[i].netAreaDisable == e.rows[i].netAreaDisable
              && e'.rows[i].lengthDisable == e.rows[i].lengthDisable
              && (input.SetNetArea? || input.SetWastage? ==> !e'.rows[i].wastageDisable)
  {
    e.(rows := seq(|e.rows|, i requires 0 <= i < |e.rows| =>
                     if e.rows[i].id == id then UpdateRow(e.rows[i], input) else e.rows[i]))
  }
}

=== FILE: calculator_facts.dfy ===
/**
 * What the derived-field calculator guarantees: rounding up of quantities,
 * tax and gross adding up to the cent, two-decimal formatting, which edits
 * recompute the area, and the enablement flags.
 */
module CalculatorFacts {
  import opened Values
  import opened Text
  import opened LineItems
  import opened Calculator

  /** Against a positive quantum `u` the count is a whole number, the least
      one whose units cover the total. */
  lemma UnitCountCovers(total: real, u: real)
    requires u > 0.0
    ensures var q := UnitCount(total, u);
            && q == q.Floor as real
            && q * u >= total
            && (q - 1.0) * u < total
  {
    CeilCovers(total, u);
  }

  /** The quantity area is the count of units times the unit, rounded to
      cents: a whole number of cents within half a cent of the exact area. */
  lemma CountedAreaRounds(total: real, u: real)
    requires u > 0.0
    ensures CountedArea(total, u) == Round2(UnitCount(total, u) * u)
    ensures IsCents(CountedArea(total, u))
    ensures -0.005 <= CountedArea(total, u) - UnitCount(total, u) * u <= 0.005
  {
    Round2IsCents(UnitCount(total, u) * u);
    Round2Error(UnitCount(total, u) * u);
  }

  /** Whenever calculateQuantities counts against a positive quantum, the
      quantity is the least whole count of units covering the total area, and
      the quantity area is that count times the unit, rounded to cents
      (CountedAreaRounds). */
  lemma QuantitiesCount(r: Row, u: real)
    requires Quantum(r.totalArea, r.units, r.widthM) == Some(u) && u > 0.0
    ensures var q := Num(Quantities(r).quantity);
            && Present(Quantities(r).quantity)
            && q == q.Floor as real
            && q * u >= Num(r.totalArea)
            && (q - 1.0) * u < Num(r.totalArea)
            && Quantities(r).quantitySqm == Val(CountedArea(Num(r.totalArea), u))
  {
    var total := Num(r.totalArea);
    QuantitiesOfQuantum(r, u);
    UnitCountCovers(total, u);
  }

  /** Against a non-zero quantum, the two quantity cells are the count and
      the counted area. */
  lemma QuantitiesOfQuantum(r: Row, u: real)
    requires Quantum(r.totalArea, r.units, r.widthM) == Some(u) && u != 0.0
    ensures Quantities(r).quantity == Val(UnitCount(Num(r.totalArea), u))
    ensures Quantities(r).quantitySqm == Val(CountedArea(Num(r.totalArea), u))
  {
  }

  /** A row with a total area and a unit label whose leading number is
      positive is counted in units of that number. */
  lemma QuantitiesRoundUp(r: Row)
    requires Present(r.totalArea) && r.units != ""
    requires ExtractUnitValue(r.units) > 0.0
    ensures var q := Num(Quantities(r).quantity);
            var u := ExtractUnitValue(r.units);
            && Present(Quantities(r).quantity)
            && q == q.Floor as real
            && q * u >= Num(r.totalArea)
            && (q - 1.0) * u < Num(r.totalArea)
            && Quantities(r).quantitySqm == Val(CountedArea(Num(r.totalArea), u))
  {
    QuantumOfUnits(r.totalArea, r.units, r.widthM);
    QuantitiesCount(r, ExtractUnitValue(r.units));
  }

  /** With a total area, a unit label sets the quantum. */
  lemma QuantumOfUnits(totalArea: Field, units: string, width: Field)
    requires Present(totalArea) && units != ""
    ensures Quantum(totalArea, units, width) == Some(ExtractUnitValue(units))
  {
  }

  /** Without units, a positive width is the quantum instead. */
  lemma QuantitiesRoundUpByWidth(r: Row)
    requires Present(r.totalArea) && r.units == "" && Present(r.widthM)
    requires Num(r.widthM) > 0.0
    ensures var q := Num(Quantities(r).quantity);
            var w := Num(r.widthM);
            && Present(Quantities(r).quantity)
            && q == q.Floor as real
            && q * w >= Num(r.totalArea)
            && (q - 1.0) * w < Num(r.totalArea)
            && Quantities(r).quantitySqm == Val(CountedArea(Num(r.totalArea), w))
  {
    QuantitiesCount(r, Num(r.widthM));
  }

  /** Quantities touch nothing but the quantity cells, and nothing at all
      without a total area. */
  lemma QuantitiesFrame(r: Row)
    ensures Quantities(r).(quantity := r.quantity, quantitySqm := r.quantitySqm) == r
    ensures !Present(r.totalArea) ==> Quantities(r) == r
  {
  }

  /** An amount pricing computes is a whole number of cents, and so is the
      amount it keeps when that one already was. */
  lemma AmountOfIsCents(quantitySqm: real, unitPrice: real, quantity: real, rate: real, amount: Field)
    requires || (quantitySqm != 0.0 && unitPrice != 0.0)
             || (quantity != 0.0 && rate != 0.0)
             || IsCents(Num(amount))
    ensures IsCents(Num(AmountOf(quantitySqm, unitPrice, quantity, rate, amount)))
  {
    if quantitySqm != 0.0 && unitPrice != 0.0 {
      Round2IsCents(quantitySqm * unitPrice);
    } else if quantity != 0.0 && rate != 0.0 {
      Round2IsCents(quantity * rate);
    }
  }

  /** Tax and gross of a non-zero whole-cents amount add up to the cent. */
  lemma GrossOfCentsIsAmountPlusTax(amount: real, tax: Field, gross: Field)
    requires IsCents(amount) && amount != 0.0
    ensures Num(GrossOf(amount, gross)) == amount + Num(TaxOf(amount, tax))
  {
    GrossIsAmountPlusTax(amount);
  }

  /** Whenever pricing leaves a non-zero amount, tax is 5% of it and gross is
      105% of it, each rounded to cents. With a zero or empty amount, tax and
      gross are left as they were. */
  lemma PricingTaxAndGross(r: Row)
    ensures var r' := Pricing(r);
            var a := Num(r'.amount);
            && (a != 0.0 ==> Num(r'.taxAmount) == Round2(a * 0.05) && Num(r'.grossAmount) == Round2(a * 1.05))
            && (a == 0.0 ==> r'.taxAmount == r.taxAmount && r'.grossAmount == r.grossAmount)
  {
  }

  /** Whenever pricing computes the amount, or the amount it keeps is
      already whole cents (as every formatted amount is), the gross it writes
      is exactly the amount plus the tax. */
  lemma PricingGrossIsAmountPlusTax(r: Row)
    requires var rate := RateOf(Num(r.unitPriceSub), r.units, r.widthM, r.rate);
             || (Num(r.quantitySqm) != 0.0 && Num(r.unitPriceSub) != 0.0)
             || (Num(r.quantity) != 0.0 && Num(rate) != 0.0)
             || IsCents(Num(r.amount))
    ensures var p := Pricing(r);
            Num(p.amount) != 0.0 ==> Num(p.grossAmount) == Num(p.amount) + Num(p.taxAmount)
  {
    var unitPrice := Num(r.unitPriceSub);
    var rate := RateOf(unitPrice, r.units, r.widthM, r.rate);
    var amount := AmountOf(Num(r.quantitySqm), unitPrice, Num(r.quantity), Num(rate), r.amount);
    AmountOfIsCents(Num(r.quantitySqm), unitPrice, Num(r.quantity), Num(rate), r.amount);
    if Num(amount) != 0.0 {
      GrossOfCentsIsAmountPlusTax(Num(amount), r.taxAmount, r.grossAmount);
    }
  }

  /** The rate pricing writes for a positive unit price: unit price times the
      unit label's number, else times the width, to the nearest cent; with
      neither, or without a positive unit price, the rate is kept. */
  lemma RateOfSources(unitPrice: real, units: string, width: Field, rate: Field)
    ensures var r := RateOf(unitPrice, units, width, rate);
            && (unitPrice > 0.0 && units != "" ==>
                  Present(r) && IsCents(Num(r)) && -0.005 <= Num(r) - unitPrice * ExtractUnitValue(units) <= 0.005)
            && (unitPrice > 0.0 && units == "" && Present(width) ==>
                  Present(r) && IsCents(Num(r)) && -0.005 <= Num(r) - unitPrice * Num(width) <= 0.005)
            && (unitPrice <= 0.0 || (units == "" && !Present(width)) ==> r == rate)
  {
    if unitPrice > 0.0 && units != "" {
      var u := ExtractUnitValue(units);
      Round2IsCents(unitPrice * u);
      Round2Error(unitPrice * u);
    } else if unitPrice > 0.0 && Present(width) {
      Round2IsCents(unitPrice * Num(width));
      Round2Error(unitPrice * Num(width));
    }
  }

  /** The extended cost: average cost times quantity to the nearest cent
      when both are non-zero, otherwise kept. */
  lemma ExtendedCostRounds(averageCost: real, quantity: real, cost: Field)
    ensures var c := ExtendedCostOf(averageCost, quantity, cost);
            && (averageCost != 0.0 && quantity != 0.0 ==>
                  Present(c) && IsCents(Num(c)) && -0.005 <= Num(c) - averageCost * quantity <= 0.005)
            && (averageCost == 0.0 || quantity == 0.0 ==> c == cost)
  {
    Round2IsCents(averageCost * quantity);
    Round2Error(averageCost * quantity);
  }

  /** The cost price: a non-zero cost per unit times the width, or, for a
      row without width, times the unit label's number, to the nearest cent;
      otherwise kept. */
  lemma CostPriceSources(perUnit: real, width: Field, units: string, costPrice: Field)
    ensures perUnit != 0.0 && Present(width) ==>
              var c := CostPriceOf(perUnit, width, units, costPrice);
              IsCents(Num(c)) && -0.005 <= Num(c) - Num(width) * perUnit <= 0.005
    ensures perUnit != 0.0 && !Present(width) && units != "" ==>
              var c := CostPriceOf(perUnit, width, units, costPrice);
              IsCents(Num(c)) && -0.005 <= Num(c) - ExtractUnitValue(units) * perUnit <= 0.005
    ensures perUnit == 0.0 || (!Present(width) && units == "") ==> CostPriceOf(perUnit, width, units, costPrice) == costPrice
  {
    if perUnit != 0.0 && Present(width) {
      Round2IsCents(Num(width) * perUnit);
      Round2Error(Num(width) * perUnit);
    } else if perUnit != 0.0 && units != "" {
      Round2IsCents(ExtractUnitValue(units) * perUnit);
      Round2Error(ExtractUnitValue(units) * perUnit);
    }
  }

  /** Formatting keeps a cell blank or filled, leaves whole cents and moves
      the value by at most half a cent. */
  lemma Format2Rounds(f: Field)
    ensures Present(Format2(f)) <==> Present(f)
    ensures IsCents(Num(Format2(f)))
    ensures -0.005 <= Num(Format2(f)) - Num(f) <= 0.005
  {
    Round2IsCents(Num(f));
    Round2Error(Num(f));
    assert IsCents(0.0);
  }

  /** Every formatted cell holds a whole number of cents; blank cells stay
      blank and filled cells stay filled. */
  lemma FormatNumbersRounds(r: Row)
    ensures var r' := FormatNumbers(r);
            && (Present(r'.amount) <==> Present(r.amount)) && IsCents(Num(r'.amount))
            && (Present(r'.grossAmount) <==> Present(r.grossAmount)) && IsCents(Num(r'.grossAmount))
            && (Present(r'.taxAmount) <==> Present(r.taxAmount)) && IsCents(Num(r'.taxAmount))
            && (Present(r'.rate) <==> Present(r.rate)) && IsCents(Num(r'.rate))
            && (Present(r'.totalArea) <==> Present(r.totalArea)) && IsCents(Num(r'.totalArea))
            && (Present(r'.quantitySqm) <==> Present(r.quantitySqm)) && IsCents(Num(r'.quantitySqm))
            && (Present(r'.estExtendedCost) <==> Present(r.estExtendedCost)) && IsCents(Num(r'.estExtendedCost))
  {
    Format2Rounds(r.amount);
    Format2Rounds(r.grossAmount);
    Format2Rounds(r.taxAmount);
    Format2Rounds(r.rate);
    Format2Rounds(r.totalArea);
    Format2Rounds(r.quantitySqm);
    Format2Rounds(r.estExtendedCost);
  }

  /** The net area comes out of a recalculation as the area step left it:
      only the area step writes it. */
  lemma CalculationsKeepNetArea(r: Row, t: Trigger)
    ensures PerformCalculations(r, t).netArea
              == (if RecomputesArea(t) then NetAreaOf(r.length, r.widthM, r.netArea) else r.netArea)
  {
    var r0 := if RecomputesArea(t) then AreaFromDimensions(r) else r;
    assert Quantities(r0).netArea == r0.netArea;
    LaterStagesKeep(Quantities(r0));
  }

  /** After an edit of the net area, the wastage or the length, the net area
      is length times width when both are filled in (else the edited net
      area), and the total area is that net area plus the wastage percentage
      of it, rounded to cents; with no net area the total is 0. */
  lemma AreaEditTotal(r: Row, input: Input)
    requires RecomputesArea(Typed(input))
    ensures var a := Apply(r, input);
            var net := if Present(a.length) && Present(a.widthM) then Val(Num(a.length) * Num(a.widthM)) else a.netArea;
            UpdateRow(r, input).netArea == net
    ensures var net := NetAreaOf(Apply(r, input).length, Apply(r, input).widthM, Apply(r, input).netArea);
            var n := Num(net);
            UpdateRow(r, input).totalArea == Val(Round2(if Present(net) then n + n * Num(Apply(r, input).wastage) / 100.0 else 0.0))
  {
    UpdateRowAreas(r, input);
    TotalAreaWritten(UpdateRow(r, input).totalArea,
                     NetAreaOf(Apply(r, input).length, Apply(r, input).widthM, Apply(r, input).netArea),
                     Apply(r, input).wastage);
  }

  /** The area cells an area-recomputing edit leaves: those of
      calculateAreaFromDimensions, the total rounded to cents. */
  lemma UpdateRowAreas(r: Row, input: Input)
    requires RecomputesArea(Typed(input))
    ensures var r0 := AreaFromDimensions(Apply(r, input));
            && UpdateRow(r, input).netArea == r0.netArea
            && UpdateRow(r, input).totalArea == Format2(r0.totalArea)
  {
    var a := Apply(r, input);
    var r0 := AreaFromDimensions(a);
    var q := Quantities(r0);
    assert q.totalArea == r0.totalArea && q.netArea == r0.netArea;
    LaterStagesKeep(q);
    var c := PerformCalculations(a, Typed(input));
    assert c == FormatNumbers(Costs(Pricing(q)));
    FieldStatesKeepCells(c, input);
    assert UpdateRow(r, input) == UpdateFieldStates(c, input);
  }

  /** A cell holding calculateTotalArea formatted to two decimals is the net
      area plus the wastage percentage of it, rounded to cents. */
  lemma TotalAreaWritten(t: Field, net: Field, w: Field)
    requires t == Format2(Val(TotalArea(net, w)))
    ensures t == Val(Round2(if Present(net) then Num(net) + Num(net) * Num(w) / 100.0 else 0.0))
  {
  }

  /** Pricing, costs and formatting leave the area and quantity cells alone,
      apart from rounding the total area and quantity area. */
  lemma LaterStagesKeep(q: Row)
    ensures var c := FormatNumbers(Costs(Pricing(q)));
            && c.netArea == q.netArea && c.quantity == q.quantity
            && c.quantitySqm == Format2(q.quantitySqm) && c.totalArea == Format2(q.totalArea)
  {
    var p := Pricing(q);
    assert p.netArea == q.netArea && p.quantity == q.quantity && p.quantitySqm == q.quantitySqm && p.totalArea == q.totalArea;
    var k := Costs(p);
    assert k.netArea == q.netArea && k.quantity == q.quantity && k.quantitySqm == q.quantitySqm && k.totalArea == q.totalArea;
  }

  /** Editing the width never recomputes the net area. */
  lemma WidthEditKeepsNetArea(r: Row, v: Field)
    ensures PerformCalculations(Apply(r, SetWidth(v)), Typed(SetWidth(v))).netArea == r.netArea
  {
    CalculationsKeepNetArea(Apply(r, SetWidth(v)), Typed(SetWidth(v)));
  }

  /** The area stage of the worked example: net area 10, total area 11. */
  lemma ExampleAreas(r: Row)
    requires r.widthM == Val(2.5) && r.wastage == Val(10.0) && r.units == "2 sqm"
    ensures var a := AreaFromDimensions(Apply(r, SetLength(Val(4.0))));
            a.netArea == Val(10.0) && a.totalArea == Val(11.0) && a.units == "2 sqm"
  {
    var r1 := Apply(r, SetLength(Val(4.0)));
    assert r1.length == Val(4.0) && r1.widthM == Val(2.5) && r1.wastage == Val(10.0) && r1.units == "2 sqm";
  }

  /** The unit label "2 sqm" counts two units of area. */
  lemma TwoSqmIsTwo()
    ensures ExtractUnitValue("2 sqm") == 2.0
  {
    assert "2 sqm" == "2" + " sqm";
    ExtractUnitValueOfInteger("2", " sqm");
    assert NatValue("2") == 2;
  }

  /** The quantity stage of the worked example: 11 sqm in units of "2 sqm"
      is six units, 12 sqm. */
  lemma ExampleQuantities(a: Row)
    requires a.netArea == Val(10.0) && a.totalArea == Val(11.0) && a.units == "2 sqm"
    ensures var b := Quantities(a);
            b.netArea == Val(10.0) && b.quantity == Val(6.0) && b.quantitySqm == Val(12.0) && b.totalArea == Val(11.0)
  {
    TwoSqmIsTwo();
    QuantumOfUnits(a.totalArea, a.units, a.widthM);
    assert UnitCount(11.0, 2.0) == 6.0;
    Round2OfCents(12.0);
    Round2OfCents(11.0);
  }

  /** The worked example: length 4 by width 2.5 with 10% wastage, sold in
      units of "2 sqm", gives net area 10, total area 11, six units, 12 sqm. */
  lemma LengthEditExample(r: Row)
    requires r.widthM == Val(2.5) && r.wastage == Val(10.0) && r.units == "2 sqm"
    ensures var r' := PerformCalculations(Apply(r, SetLength(Val(4.0))), Typed(SetLength(Val(4.0))));
            && r'.netArea == Val(10.0)
            && r'.totalArea == Val(11.0)
            && r'.quantity == Val(6.0)
            && r'.quantitySqm == Val(12.0)
  {
    var t := Typed(SetLength(Val(4.0)));
    var r1 := Apply(r, SetLength(Val(4.0)));
    ExampleAreas(r);
    var a := AreaFromDimensions(r1);
    ExampleQuantities(a);
    var b := Quantities(a);
    assert PerformCalculations(r1, t) == FormatNumbers(Costs(Pricing(b)));
    LaterStagesKeep(b);
    Round2OfCents(12.0);
    Round2OfCents(11.0);
  }

  /** After a typed edit the wastage input is enabled exactly when the row
      has a total area, except that a length edit leaves the flag as it was;
      an area edit always leaves a total area, any other edit keeps whether
      there is one. A typed quantity gives a unit-less row the base unit, a
      typed unit label stays as typed, and no other edit touches the label. */
  lemma EditFieldStates(r: Row, input: Input)
    ensures var r' := UpdateRow(r, input);
            && (RecomputesArea(Typed(input)) ==> Present(r'.totalArea))
            && (!RecomputesArea(Typed(input)) ==> (Present(r'.totalArea) <==> Present(r.totalArea)))
            && (input.SetLength? ==> r'.wastageDisable == r.wastageDisable)
            && (!input.SetLength? ==> (r'.wastageDisable <==> !Present(r'.totalArea)))
            && r'.units == (if input.SetUnits? then input.text
                            else if input.SetQuantity? && r.units == "" then BaseUnitLabel
                            else r.units)
  {
    var a := Apply(r, input);
    var t := Typed(input);
    CalculationsKeepIdentity(a, t);
    var c := PerformCalculations(a, t);
    if !RecomputesArea(t) {
      CalculationsKeepTotalArea(a, t);
      Format2Rounds(a.totalArea);
    }
  }

  /** Without an area edit the total area is only reformatted. */
  lemma CalculationsKeepTotalArea(r: Row, t: Trigger)
    requires !RecomputesArea(t)
    ensures PerformCalculations(r, t).totalArea == Format2(r.totalArea)
  {
    assert Quantities(r).totalArea == r.totalArea;
    LaterStagesKeep(Quantities(r));
  }

  /** Whatever cell is typed, the seven cells the editor formats come out as
      whole numbers of cents. */
  lemma EditLeavesCents(r: Row, input: Input)
    ensures var r' := UpdateRow(r, input);
            && IsCents(Num(r'.amount)) && IsCents(Num(r'.grossAmount)) && IsCents(Num(r'.taxAmount))
            && IsCents(Num(r'.rate)) && IsCents(Num(r'.totalArea)) && IsCents(Num(r'.quantitySqm))
            && IsCents(Num(r'.estExtendedCost))
  {
    var a := Apply(r, input);
    var r0 := if RecomputesArea(Typed(input)) then AreaFromDimensions(a) else a;
    var k := Costs(Pricing(Quantities(r0)));
    FormatNumbersRounds(k);
    var c := FormatNumbers(k);
    assert PerformCalculations(a, Typed(input)) == c;
    FieldStatesKeepCells(c, input);
  }

  /** updateFieldStates touches the unit label and the wastage flag only. */
  lemma FieldStatesKeepCells(r: Row, input: Input)
    ensures var r' := UpdateFieldStates(r, input);
            && r'.amount == r.amount && r'.grossAmount == r.grossAmount && r'.taxAmount == r.taxAmount
            && r'.rate == r.rate && r'.totalArea == r.totalArea && r'.quantitySqm == r.quantitySqm
            && r'.estExtendedCost == r.estExtendedCost
  {
  }
}

=== FILE: discount_facts.dfy ===
/**
 * What the discount engine guarantees: the overall-discount row is unique,
 * last, numbered 9999 and computed over every other row; recreating it only
 * renews its id; individual discounts are linked both ways; resynchronising
 * keeps the table's shape; the consecutive-discount guard rejects cleanly.
 */
module DiscountFacts {
  import opened Values
  import opened Text
  import opened LineItems
  import opened Calculator
  import opened Discounts

  // ---------------------------------------------------------------------------
  // Dropping the overall-discount row

  /** Dropping overall-discount rows keeps ids unique and below the counter. */
  lemma {:induction false} NonOverallKeepsIds(rows: seq<Row>, next: RowId)
    requires UniqueIds(rows) && IdsBelow(rows, next)
    ensures UniqueIds(NonOverall(rows)) && IdsBelow(NonOverall(rows), next)
  {
    if |rows| > 0 {
      NonOverallKeepsIds(rows[1..], next);
      NonOverallFrom(rows[1..]);
      var kept := NonOverall(rows[1..]);
      forall j | 0 <= j < |kept|
        ensures kept[j].id != rows[0].id
      {
        assert kept[j] in rows[1..];
      }
    }
  }

  /** After dropping them there are none left, and dropping again changes
      nothing. */
  lemma NonOverallHasNone(rows: seq<Row>)
    ensures forall i :: 0 <= i < |NonOverall(rows)| ==> !IsOverall(NonOverall(rows)[i])
    ensures NonOverall(NonOverall(rows)) == NonOverall(rows)
    ensures OverallLast(NonOverall(rows))
  {
  }

  // ---------------------------------------------------------------------------
  // The overall-discount row

  /** The overall-discount row: it is the overall row, numbered 9999, and
      each money column is the rate's share of that column's total over the
      base rows, negated and rounded to cents. */
  lemma OverallRowCells(id: RowId, rate: real, base: seq<Row>)
    ensures var row := OverallDiscountRow(id, rate, base);
            && IsOverall(row) && row.id == id
            && row.rowNumber == Some(OverallRowNumber)
            && row.quantity == Val(1.0)
            && Num(row.grossAmount) == DiscountShare(Total(base, GrossCol), rate)
            && Num(row.rate) == DiscountShare(Total(base, RateCol), rate)
            && Num(row.unitPriceSub) == DiscountShare(Total(base, UnitPriceCol), rate)
            && Num(row.amount) == DiscountShare(Total(base, AmountCol), rate)
            && Num(row.taxAmount) == DiscountShare(Total(base, TaxCol), rate)
  {
  }

  /** Appending an overall-discount row to rows without one leaves it the
      only one, last. */
  lemma AppendOverall(base: seq<Row>, row: Row)
    requires forall i :: 0 <= i < |base| ==> !IsOverall(base[i])
    requires IsOverall(row)
    ensures OverallLast(base + [row])
    ensures forall i :: 0 <= i < |base| ==> !IsOverall((base + [row])[i])
    ensures NonOverall(base + [row]) == base
    ensures (base + [row])[..|base|] == base
  {
    NonOverallAppend(base, [row]);
    NonOverallWithoutOverall(base);
    assert NonOverall([row]) == [];
  }

  lemma AddOverallAppends(e: Editor, rate: real)
    requires Total(NonOverall(e.rows), GrossCol) > 0.0
    ensures AddOverallDiscountRow(e, rate).rows == NonOverall(e.rows) + [OverallDiscountRow(e.nextId, rate, NonOverall(e.rows))]
    ensures AddOverallDiscountRow(e, rate).nextId == e.nextId + 1
  {
  }

  /** With a positive gross total over the other rows, the table ends with
      exactly one overall-discount row, with the next id; the other rows keep
      their order. */
  lemma AddOverallShape(e: Editor, rate: real)
    requires Total(NonOverall(e.rows), GrossCol) > 0.0
    ensures var e' := AddOverallDiscountRow(e, rate);
            var base := NonOverall(e.rows);
            && |e'.rows| == |base| + 1
            && e'.rows[..|base|] == base
            && e'.rows[|base|] == OverallDiscountRow(e.nextId, rate, base)
            && OverallLast(e'.rows)
            && (forall i :: 0 <= i < |e'.rows| - 1 ==> !IsOverall(e'.rows[i]))
            && e'.nextId == e.nextId + 1
            && NonOverall(e'.rows) == base
  {
    var base := NonOverall(e.rows);
    var row := OverallDiscountRow(e.nextId, rate, base);
    AddOverallAppends(e, rate);
    assert IsOverall(row);
    AppendOverall(base, row);
  }

  /** Recreating the overall-discount row with the same rate gives the same
      table, except that the row has the next id. */
  lemma AddOverallRepeat(e: Editor, rate: real)
    requires Total(NonOverall(e.rows), GrossCol) > 0.0
    ensures var e1 := AddOverallDiscountRow(e, rate);
            var e2 := AddOverallDiscountRow(e1, rate);
            && |e2.rows| == |e1.rows|
            && e2.rows[..|e2.rows| - 1] == e1.rows[..|e1.rows| - 1]
            && e2.rows[|e2.rows| - 1] == e1.rows[|e1.rows| - 1].(id := e1.nextId)
            && e2.nextId == e1.nextId + 1
  {
    var base := NonOverall(e.rows);
    AddOverallShape(e, rate);
    var e1 := AddOverallDiscountRow(e, rate);
    assert NonOverall(e1.rows) == base;
    AddOverallShape(e1, rate);
  }

  /** An empty rate leaves no overall-discount row. */
  lemma EmptyRateRemovesOverall(e: Editor)
    requires e.rate.None?
    ensures var e' := ApplyOverallDiscount(e);
            forall i :: 0 <= i < |e'.rows| ==> !IsOverall(e'.rows[i])
  {
    NonOverallHasNone(e.rows);
  }

  /** A rate reading 0 is ignored when typed, but the next resynchronisation
      does create an overall-discount row, with every money cell empty. */
  lemma ZeroRateRowOnResync(e: Editor)
    requires e.rate == Some(0.0)
    requires Total(NonOverall(e.rows), GrossCol) > 0.0
    ensures ApplyOverallDiscount(e) == e
    ensures var e' := RecalcOverall(e);
            var last := e'.rows[|e'.rows| - 1];
            && |e'.rows| == |NonOverall(e.rows)| + 1
            && IsOverall(last)
            && !Present(last.grossAmount) && !Present(last.amount) && !Present(last.taxAmount)
            && !Present(last.rate) && !Present(last.unitPriceSub)
  {
    AddOverallShape(e, 0.0);
    var base := NonOverall(e.rows);
    OverallRowCells(e.nextId, 0.0, base);
    Round2OfCents(0.0);
    assert Total(base, GrossCol) * 0.0 / 100.0 == 0.0;
    assert Total(base, RateCol) * 0.0 / 100.0 == 0.0;
    assert Total(base, UnitPriceCol) * 0.0 / 100.0 == 0.0;
    assert Total(base, AmountCol) * 0.0 / 100.0 == 0.0;
    assert Total(base, TaxCol) * 0.0 / 100.0 == 0.0;
  }

  /** Creating the overall-discount row keeps ids unique and below the
      counter, and leaves it last. */
  lemma AddOverallKeepsInvariants(e: Editor, rate: real)
    requires IdsFresh(e)
    ensures IdsFresh(AddOverallDiscountRow(e, rate)) && (OverallLast(e.rows) ==> OverallLast(AddOverallDiscountRow(e, rate).rows))
  {
    NonOverallKeepsIds(e.rows, e.nextId);
    NonOverallKeepsIds(e.rows, e.nextId + 1);
    if Total(NonOverall(e.rows), GrossCol) > 0.0 {
      AddOverallShape(e, rate);
    }
  }

  // ---------------------------------------------------------------------------
  // Individual discounts

  /** Every individual-discount product carries its percentage in its name. */
  lemma DiscountNamesHavePercent(name: string)
    requires IsIndividualDiscountName(name)
    ensures IntegerPercent(name).Some?
  {
    if name == "5% Discount" {
      assert name == "5" + "%" + " Discount";
      IntegerPercentOfLabel("5", " Discount");
    } else if name == "10% Discount" {
      assert name == "10" + "%" + " Discount";
      IntegerPercentOfLabel("10", " Discount");
    } else if name == "15% Discount" {
      assert name == "15" + "%" + " Discount";
      IntegerPercentOfLabel("15", " Discount");
    } else {
      assert name == "20" + "%" + " Discount";
      IntegerPercentOfLabel("20", " Discount");
    }
  }

  /** Attaching discount `d` to the row at `t` (a different row): the row
      with the id of `d` takes `p` percent off each money column of the
      target, negated and rounded, and the two rows point at each other;
      every other row is unchanged. */
  lemma AttachEffect(rows: seq<Row>, t: int, d: Row)
    requires Attaches(rows, t, d) && IndexOfId(rows, d.id) != t
    ensures var rows' := ApplyIndividualDiscount(rows, t, d);
            var k := IndexOfId(rows, d.id);
            var p := IntegerPercent(d.itemInput).value as real;
            && rows'[k].id == d.id
            && rows'[k].discountAppliedFromRow == Some(rows[t].id)
            && rows'[t] == rows[t].(individualDiscountRow := Some(d.id))
            && Num(rows'[k].grossAmount) == DiscountShare(Num(rows[t].grossAmount), p)
            && Num(rows'[k].rate) == DiscountShare(Num(rows[t].rate), p)
            && Num(rows'[k].unitPriceSub) == DiscountShare(Num(rows[t].unitPriceSub), p)
            && Num(rows'[k].amount) == DiscountShare(Num(rows[t].amount), p)
            && Num(rows'[k].taxAmount) == DiscountShare(Num(rows[t].taxAmount), p)
            && rows'[k].quantity == Val(1.0)
            && (forall j :: 0 <= j < |rows| && j != k && j != t ==> rows'[j] == rows[j])
  {
  }

  /** After an attachment the discount row and its target point at each
      other. */
  lemma AttachLinksBothWays(rows: seq<Row>, t: int, d: Row)
    requires Attaches(rows, t, d) && IndexOfId(rows, d.id) != t
    ensures var rows' := ApplyIndividualDiscount(rows, t, d);
            var k := IndexOfId(rows, d.id);
            && rows'[t].individualDiscountRow == Some(rows'[k].id)
            && rows'[k].discountAppliedFromRow == Some(rows'[t].id)
  {
    AttachEffect(rows, t, d);
  }

  /** The parts of a row that no discount computation changes. */
  datatype Skeleton = Skeleton(id: RowId, itemInput: string, family: string, location: string, salesforceId: Option<string>)

  ghost function SkeletonOf(r: Row): Skeleton {
    Skeleton(r.id, r.itemInput, r.family, r.location, r.salesforceId)
  }

  ghost function Skeletons(a: seq<Row>): (s: seq<Skeleton>)
    ensures |s| == |a| && forall i :: 0 <= i < |a| ==> s[i] == SkeletonOf(a[i])
  {
    seq(|a|, i requires 0 <= i < |a| => SkeletonOf(a[i]))
  }

  /** Two tables that agree, position by position, on every row's skeleton. */
  ghost predicate SameSkeleton(a: seq<Row>, b: seq<Row>) {
    Skeletons(a) == Skeletons(b)
  }

  /** With unique ids, attaching a discount row taken from a table of the
      same skeleton keeps the skeleton. */
  lemma AttachKeepsSkeleton(walked: seq<Row>, rows: seq<Row>, t: int, j: nat)
    requires UniqueIds(rows) && SameSkeleton(walked, rows) && j < |walked|
    ensures SameSkeleton(rows, ApplyIndividualDiscount(rows, t, walked[j]))
  {
    var d := walked[j];
    if Attaches(rows, t, d) {
      var k := IndexOfId(rows, d.id);
      assert rows[j].id == d.id;
      assert k == j;
    }
  }

  /** The state recalculateIndividualDiscounts moves to after looking at
      position `k`: the walked array, the current table and whether the two
      are still the same array. */
  ghost function RecalcNext(walked: seq<Row>, rows: seq<Row>, shared: bool, k: nat): (seq<Row>, seq<Row>, bool)
    requires k < |walked|
  {
    var d := walked[k];
    var t := LinkedTarget(rows, d);
    if t >= 0 && Attaches(rows, t, d) then
      var next := ApplyIndividualDiscount(rows, t, d);
      if shared then (next, next, false) else (walked, next, false)
    else (walked, rows, shared)
  }

  /** The rest of the walk starts from the state after position `k`. */
  lemma RecalcFromStep(walked: seq<Row>, rows: seq<Row>, shared: bool, k: nat)
    requires shared ==> walked == rows
    requires |walked| == |rows| && k < |walked|
    ensures var n := RecalcNext(walked, rows, shared, k);
            && (n.2 ==> n.0 == n.1) && |n.0| == |n.1|
            && RecalcFrom(walked, rows, shared, k) == RecalcFrom(n.0, n.1, n.2, k + 1)
  {
  }

  /** One step of the walk keeps the skeleton and the unique ids. */
  lemma RecalcStepKeepsSkeleton(walked: seq<Row>, rows: seq<Row>, shared: bool, k: nat)
    requires |walked| == |rows| && k < |walked|
    requires UniqueIds(rows) && SameSkeleton(walked, rows)
    ensures var n := RecalcNext(walked, rows, shared, k);
            UniqueIds(n.1) && SameSkeleton(n.0, n.1) && SameSkeleton(rows, n.1)
  {
    var d := walked[k];
    var t := LinkedTarget(rows, d);
    if t >= 0 && Attaches(rows, t, d) {
      var next := ApplyIndividualDiscount(rows, t, d);
      AttachKeepsSkeleton(walked, rows, t, k);
      SkeletonKeepsInvariants(rows, next, 1);
      if !shared {
        SkeletonTrans(walked, rows, next);
      }
    }
  }

  lemma {:induction false} RecalcFromKeepsSkeleton(walked: seq<Row>, rows: seq<Row>, shared: bool, k: nat)
    requires shared ==> walked == rows
    requires |walked| == |rows| && k <= |walked|
    requires UniqueIds(rows) && SameSkeleton(walked, rows)
    ensures SameSkeleton(rows, RecalcFrom(walked, rows, shared, k))
    decreases |walked| - k
  {
    if k < |walked| {
      var n := RecalcNext(walked, rows, shared, k);
      RecalcFromStep(walked, rows, shared, k);
      RecalcStepKeepsSkeleton(walked, rows, shared, k);
      RecalcFromKeepsSkeleton(n.0, n.1, n.2, k + 1);
      SkeletonTrans(rows, n.1, RecalcFrom(n.0, n.1, n.2, k + 1));
    } else {
      SkeletonSame(rows);
    }
  }

  /** Recalculating the individual discounts only rewrites cells and links:
      with unique ids, every row keeps its id, name, family, location and
      persisted id, in place. */
  lemma RecalcIndividualKeepsSkeleton(rows: seq<Row>)
    requires UniqueIds(rows)
    ensures SameSkeleton(rows, RecalcIndividual(rows))
  {
    RecalcFromKeepsSkeleton(rows, rows, true, 0);
  }

  lemma SkeletonTrans(a: seq<Row>, b: seq<Row>, c: seq<Row>)
    requires SameSkeleton(a, b) && SameSkeleton(b, c)
    ensures SameSkeleton(a, c)
  {
  }

  lemma SkeletonSame(a: seq<Row>)
    ensures SameSkeleton(a, a)
  {
  }

  lemma SkeletonKeepsInvariants(a: seq<Row>, b: seq<Row>, next: RowId)
    requires SameSkeleton(a, b)
    ensures UniqueIds(a) ==> UniqueIds(b)
    ensures IdsBelow(a, next) ==> IdsBelow(b, next)
    ensures OverallLast(a) ==> OverallLast(b)
  {
    assert forall i :: 0 <= i < |a| ==> (IsOverall(a[i]) <==> IsOverall(b[i]));
  }

  /** The resynchronisation in the component's order, overall discount first,
      keeps ids unique and fresh and the overall-discount row last. */
  lemma ResyncAsWrittenKeepsInvariants(e: Editor)
    requires IdsFresh(e)
    ensures IdsFresh(ResyncAsWritten(e))
    ensures OverallLast(e.rows) ==> OverallLast(ResyncAsWritten(e).rows)
  {
    var e1 := RecalcOverall(e);
    if e.rate.Some? {
      AddOverallKeepsInvariants(e, e.rate.value);
    }
    RecalcIndividualKeepsSkeleton(e1.rows);
    SkeletonKeepsInvariants(e1.rows, RecalcIndividual(e1.rows), e1.nextId);
  }

  /** The corrected resynchronisation, individual discounts first, keeps the
      same invariants. */
  lemma ResyncKeepsInvariants(e: Editor)
    requires IdsFresh(e)
    ensures IdsFresh(Resync(e))
    ensures OverallLast(e.rows) ==> OverallLast(Resync(e).rows)
  {
    var e1 := e.(rows := RecalcIndividual(e.rows));
    RecalcIndividualKeepsSkeleton(e.rows);
    SkeletonKeepsInvariants(e.rows, e1.rows, e.nextId);
    if e.rate.Some? {
      AddOverallKeepsInvariants(e1, e.rate.value);
    }
  }

  // ---------------------------------------------------------------------------
  // Picking a product

  /** Writing a row with a percentage in its name over position `i` and
      attaching it to the row above links the two both ways (ids being
      unique). */
  lemma AttachAboveLinks(rows: seq<Row>, i: nat, d: Row)
    requires UniqueIds(rows) && 1 <= i < |rows|
    requires d.id == rows[i].id && IntegerPercent(d.itemInput).Some?
    ensures var rows' := ApplyIndividualDiscount(rows[i := d], i - 1, d);
            && rows'[i].id == rows[i].id && rows'[i].itemInput == d.itemInput
            && rows'[i].discountAppliedFromRow == Some(rows[i - 1].id)
            && rows'[i - 1].individualDiscountRow == Some(rows[i].id)
  {
    var r1 := rows[i := d];
    assert UniqueIds(r1) by {
      forall a, b | 0 <= a < b < |r1|
        ensures r1[a].id != r1[b].id
      {
        assert r1[a].id == rows[a].id && r1[b].id == rows[b].id;
      }
    }
    assert r1[i] == d;
    assert IndexOfId(r1, d.id) == i;
    AttachEffect(r1, i - 1, d);
  }

  /** Picking an individual-discount product into a row below a product row
      (and not next to another discount) links the two rows both ways, with
      the percentage from the product's name. */
  lemma PickedDiscountLinks(e: Editor, i: nat, p: Product)
    requires UniqueIds(e.rows) && 1 <= i < |e.rows|
    requires IsIndividualDiscountName(p.name) && !ConsecutiveDiscount(e.rows, i, p.name)
    ensures var e' := SelectProduct(e, i, p);
            && e'.rows[i].id == e.rows[i].id && e'.rows[i].itemInput == p.name
            && e'.rows[i].discountAppliedFromRow == Some(e.rows[i - 1].id)
            && e'.rows[i - 1].individualDiscountRow == Some(e.rows[i].id)
  {
    DiscountNamesHavePercent(p.name);
    var c := PerformCalculations(SetFieldStatesForFamily(Picked(e.rows[i], p)), ProductSelected);
    assert c.id == e.rows[i].id && c.itemInput == p.name;
    assert ApplyProductToRow(e, i, p).rows == e.rows[i := c];
    AttachAboveLinks(e.rows, i, c);
  }

  /** An accepted pick sets the row's enablement flags from the picked
      product's family, and the recalculation that follows keeps them: the
      net area is locked for wall-to-wall families, the length for decking
      ones. */
  lemma PickSetsFamilyFlags(e: Editor, i: nat, p: Product)
    requires i < |e.rows| && !ConsecutiveDiscount(e.rows, i, p.name)
    ensures var r := ApplyProductToRow(e, i, p).rows[i];
            && (r.netAreaDisable <==> p.family in WallToWallFamilies)
            && (r.lengthDisable <==> p.family in DeckingFamilies)
            && r.family == p.family && r.itemInput == p.name && r.id == e.rows[i].id
  {
    var f := SetFieldStatesForFamily(Picked(e.rows[i], p));
    CalculationsKeepIdentity(f, ProductSelected);
  }
}

=== FILE: discounts.dfy ===
/**
 * The discount engine: the single overall-discount row appended after every
 * other row, the individual-discount rows each linked to the product row
 * just above them, the resynchronisation of both after an edit, and the
 * product pick that may attach an individual discount.
 */
module Discounts {
  import opened Values
  import opened Text
  import opened LineItems
  import opened Calculator

  /** A catalog entry as the product search returns it: the price-book entry
      and its product. Missing texts are empty; missing numbers are None. */
  datatype Product = Product(
    entryId: string,
    name: string,
    description: string,
    saleUnit: string,
    width: Option<real>,
    family: string,
    unitPrice: Option<real>,
    averageCost: Option<real>,
    costPerUnit: Option<real>)

  /** The money columns a discount row mirrors. */
  datatype Column = GrossCol | RateCol | UnitPriceCol | AmountCol | TaxCol

  function Cell(r: Row, c: Column): Field {
    match c
    case GrossCol => r.grossAmount
    case RateCol => r.rate
    case UnitPriceCol => r.unitPriceSub
    case AmountCol => r.amount
    case TaxCol => r.taxAmount
  }

  /** Sum of a column's numeric readings, blank cells counting 0. */
  function Total(rows: seq<Row>, c: Column): real {
    if |rows| == 0 then 0.0 else Total(rows[..|rows| - 1], c) + Num(Cell(rows[|rows| - 1], c))
  }

  /** The discount a percentage `p` takes off `base`: the negated share,
      rounded to cents. */
  function DiscountShare(base: real, p: real): real {
    -Round2(base * p / 100.0)
  }

  // ---------------------------------------------------------------------------
  // Overall discount

  function OverallLabel(rate: real): string {
    "Discount (" + NumberText(rate) + "%)"
  }

  function OverallDescription(rate: real): string {
    NumberText(rate) + "% discount on total amount"
  }

  /** createOverallDiscountRow: each money column is the discount on that
      column's total over `base`. */
  function OverallDiscountRow(id: RowId, rate: real, base: seq<Row>): Row {
    BlankRow(id).(
      location := OverallLocation,
      itemInput := OverallLabel(rate),
      description := OverallDescription(rate),
      quantity := Val(1.0),
      rate := FromNumber(DiscountShare(Total(base, RateCol), rate)),
      unitPriceSub := FromNumber(DiscountShare(Total(base, UnitPriceCol), rate)),
      amount := FromNumber(DiscountShare(Total(base, AmountCol), rate)),
      taxAmount := FromNumber(DiscountShare(Total(base, TaxCol), rate)),
      grossAmount := FromNumber(DiscountShare(Total(base, GrossCol), rate)),
      costEstimateType := DiscountFamily,
      estimateType := DiscountFamily,
      family := DiscountFamily,
      mode := Read,
      netAreaDisable := true,
      lengthDisable := true,
      rowNumber := Some(OverallRowNumber))
  }

  /** addOverallDiscountRow: replaces any overall-discount row by a fresh one
      computed over every other row, unless their gross total is not
      positive, in which case nothing changes at all. */
  function AddOverallDiscountRow(e: Editor, rate: real): (e': Editor)
    ensures e'.selected == e.selected && e'.rate == e.rate && e'.snapshot == e.snapshot && e'.ledger == e.ledger
    ensures Total(NonOverall(e.rows), GrossCol) <= 0.0 ==> e' == e
    ensures Total(NonOverall(e.rows), GrossCol) > 0.0 ==> e'.nextId == e.nextId + 1
  {
    var base := NonOverall(e.rows);
    if Total(base, GrossCol) <= 0.0 then e
    else e.(rows := base + [OverallDiscountRow(e.nextId, rate, base)], nextId := e.nextId + 1)
  }

  /** applyOverallDiscount: an empty rate removes the overall-discount row, a
      rate reading above 0 (re)creates it, any other rate changes nothing. */
  function ApplyOverallDiscount(e: Editor): (e': Editor)
    ensures e.rate.None? ==> e'.rows == NonOverall(e.rows) && e'.nextId == e.nextId
    ensures e.rate.Some? && e.rate.value <= 0.0 ==> e' == e
  {
    match e.rate
    case None => e.(rows := NonOverall(e.rows))
    case Some(v) => if v > 0.0 then AddOverallDiscountRow(e, v) else e
  }

  /** recalculateOverallDiscount: any non-empty rate, including one reading
      0 or less, recreates the row. */
  function RecalcOverall(e: Editor): (e': Editor)
    ensures e.rate.None? ==> e' == e
  {
    match e.rate
    case None => e
    case Some(v) => AddOverallDiscountRow(e, v)
  }

  // ---------------------------------------------------------------------------
  // Individual discounts

  /** The discount row `d` rewritten to take `p` percent off `target`. */
  function DiscountedRow(d: Row, target: Row, p: nat): Row {
    var pr := p as real;
    d.(quantity := Val(1.0),
       rate := FromNumber(DiscountShare(Num(target.rate), pr)),
       unitPriceSub := FromNumber(DiscountShare(Num(target.unitPriceSub), pr)),
       amount := FromNumber(DiscountShare(Num(target.amount), pr)),
       taxAmount := FromNumber(DiscountShare(Num(target.taxAmount), pr)),
       grossAmount := FromNumber(DiscountShare(Num(target.grossAmount), pr)),
       description := NatText(p) + "% discount applied to: " + target.itemInput,
       mode := Read,
       netAreaDisable := true,
       lengthDisable := true,
       discountAppliedFromRow := Some(target.id))
  }

  /** Whether applyIndividualDiscount(t, d) gets past its three early exits:
      a target at `t`, a percentage in the name of `d`, and a row with the id
      of `d` in the table. */
  predicate Attaches(rows: seq<Row>, t: int, d: Row) {
    0 <= t < |rows| && IntegerPercent(d.itemInput).Some? && IndexOfId(rows, d.id) >= 0
  }

  /** applyIndividualDiscount(t, d): the row with the id of `d` becomes `d`
      discounted against the row at `t`, and that row points back at it. The
      second write wins when both are the same position. */
  function ApplyIndividualDiscount(rows: seq<Row>, t: int, d: Row): (rows': seq<Row>)
    ensures |rows'| == |rows|
    ensures !Attaches(rows, t, d) ==> rows' == rows
  {
    if !Attaches(rows, t, d) then rows
    else
      var target := rows[t];
      var k := IndexOfId(rows, d.id);
      rows[k := DiscountedRow(d, target, IntegerPercent(d.itemInput).value)][t := target.(individualDiscountRow := Some(d.id))]
  }

  /** The target position recalculateIndividualDiscounts finds for a row, or
      -1 when the row is not a linked individual discount. */
  function LinkedTarget(rows: seq<Row>, d: Row): (t: int)
    ensures -1 <= t < |rows|
    ensures t >= 0 ==> IsIndividualDiscount(d) && d.discountAppliedFromRow == Some(rows[t].id)
  {
    if IsIndividualDiscount(d) && d.discountAppliedFromRow.Some? then IndexOfId(rows, d.discountAppliedFromRow.value)
    else -1
  }

  /** recalculateIndividualDiscounts from position `k` on. The loop walks the
      array it started on (`walked`); the current table is `rows`. Until the
      first discount attaches, both are the same array, so that first
      attachment also rewrites the walked array (`shared`); every later one
      only rewrites a fresh copy. */
  function RecalcFrom(walked: seq<Row>, rows: seq<Row>, shared: bool, k: nat): (rows': seq<Row>)
    requires shared ==> walked == rows
    requires |walked| == |rows| && k <= |walked|
    ensures |rows'| == |rows|
    decreases |walked| - k
  {
    if k == |walked| then rows
    else
      var d := walked[k];
      var t := LinkedTarget(rows, d);
      if t >= 0 && Attaches(rows, t, d) then
        var next := ApplyIndividualDiscount(rows, t, d);
        if shared then RecalcFrom(next, next, false, k + 1) else RecalcFrom(walked, next, false, k + 1)
      else RecalcFrom(walked, rows, shared, k + 1)
  }

  /** recalculateIndividualDiscounts. */
  function RecalcIndividual(rows: seq<Row>): (rows': seq<Row>)
    ensures |rows'| == |rows|
  {
    RecalcFrom(rows, rows, true, 0)
  }

  /** The deferred resynchronisation after an edit, an insert or a removal,
      in the order the component runs it: the overall discount first, then
      the individual ones. The overall row is therefore priced from
      individual-discount cells that are not yet up to date. */
  function ResyncAsWritten(e: Editor): (e': Editor)
    ensures e'.nextId >= e.nextId && e'.selected == e.selected && e'.rate == e.rate && e'.ledger == e.ledger
    ensures e'.snapshot == e.snapshot
  {
    var e1 := RecalcOverall(e);
    e1.(rows := RecalcIndividual(e1.rows))
  }

  /** The deferred resynchronisation with the individual discounts brought
      up to date first, so that the overall row is priced from them. */
  function Resync(e: Editor): (e': Editor)
    ensures e'.nextId >= e.nextId && e'.selected == e.selected && e'.rate == e.rate && e'.ledger == e.ledger
    ensures e'.snapshot == e.snapshot
  {
    RecalcOverall(e.(rows := RecalcIndividual(e.rows)))
  }

  // ---------------------------------------------------------------------------
  // Picking a product into a row

  /** The consecutive-discount guard: an individual-discount product may not
      go next to another individual-discount row. */
  predicate ConsecutiveDiscount(rows: seq<Row>, i: nat, name: string) {
    IsIndividualDiscountName(name)
    && ((0 < i <= |rows| && IsIndividualDiscount(rows[i - 1])) || (i + 1 < |rows| && IsIndividualDiscount(rows[i + 1])))
  }

  /** The cells a picked product writes into a row. */
  function Picked(r: Row, p: Product): Row {
    r.(itemInput := p.name,
       description := p.description,
       units := p.saleUnit,
       widthM := FromOptionalNumber(p.width),
       family := p.family,
       selectedItemId := p.entryId,
       unitPriceSub := FromOptionalNumber(p.unitPrice),
       averageCost := FromOptionalNumber(p.averageCost),
       costPricePerUnit := FromOptionalNumber(p.costPerUnit),
       rate := FromOptionalNumber(p.unitPrice))
  }

  /** applyProductToRow without its deferred part: write the product into the
      row at `i`, set its flags and recalculate it; rejected by the guard. A
      position past the table is ignored, as the handler does. */
  function ApplyProductToRow(e: Editor, i: nat, p: Product): (e': Editor)
    ensures |e'.rows| == |e.rows|
    ensures i >= |e.rows| || ConsecutiveDiscount(e.rows, i, p.name) ==> e' == e
    ensures i < |e.rows| && !ConsecutiveDiscount(e.rows, i, p.name) ==>
              e'.rows == e.rows[i := PerformCalculations(SetFieldStatesForFamily(Picked(e.rows[i], p)), ProductSelected)]
              && e'.nextId == e.nextId && e'.selected == e.selected
  {
    if i >= |e.rows| || ConsecutiveDiscount(e.rows, i, p.name) then e
    else e.(rows := e.rows[i := PerformCalculations(SetFieldStatesForFamily(Picked(e.rows[i], p)), ProductSelected)])
  }

  /** handleProductSelect, with the deferred attachment of an individual
      discount to the row above run straight after the pick. */
  function SelectProduct(e: Editor, i: nat, p: Product): (e': Editor)
    ensures |e'.rows| == |e.rows|
    ensures ConsecutiveDiscount(e.rows, i, p.name) ==> e' == e
  {
    var e1 := ApplyProductToRow(e, i, p);
    if i < |e.rows| && !ConsecutiveDiscount(e.rows, i, p.name) && IsIndividualDiscountName(p.name) && i >= 1 then
      e1.(rows := ApplyIndividualDiscount(e1.rows, i - 1, e1.rows[i]))
    else e1
  }
}

=== FILE: line_items.dfy ===
/**
 * The rows of the quote line-item table, the editor state around them, and
 * the classifications every other part of the editor relies on: which row is
 * the overall-discount row, which product names are individual discounts, and
 * which rows have been persisted.
 */
module LineItems {
  import opened Values
  import opened Text

  /** Row ids come from a counter that starts at 1, so every id is truthy. */
  type RowId = x: int | x >= 1 witness 1

  const DiscountFamily: string := "Discount"
  const OverallLocation: string := "Discount"
  /** Row number of the overall-discount row, so that it sorts last. */
  const OverallRowNumber: int := 9999
  const TaxRate: real := 0.05
  /** Unit label given to a row whose quantity is typed while it has no units. */
  const BaseUnitLabel: string := "SqM"

  /** Families whose net area is not typed in. */
  const WallToWallFamilies: seq<string> := ["Wall to Wall", "F.SHEET-VINYL", "F.ARTIFICIAL GRASS"]
  /** Families whose length is not typed in. */
  const DeckingFamilies: seq<string> := ["F. DECKING", "Wood Flooring", "F.LVT"]
  /** Catalog products that act as a discount on the row just above them. */
  const IndividualDiscountProducts: seq<string> := ["5% Discount", "10% Discount", "15% Discount", "20% Discount"]

  datatype Mode = Edit | Read

  /** One table entry: a product line, an individual-discount line or the
      overall-discount line. */
  datatype Row = Row(
    id: RowId,
    salesforceId: Option<string>,
    location: string,
    itemInput: string,
    description: string,
    netArea: Field,
    wastage: Field,
    length: Field,
    widthM: Field,
    totalArea: Field,
    quantity: Field,
    quantitySqm: Field,
    units: string,
    rate: Field,
    unitPriceSub: Field,
    amount: Field,
    taxAmount: Field,
    grossAmount: Field,
    estExtendedCost: Field,
    costEstimateType: string,
    estimateType: string,
    family: string,
    selectedItemId: string,
    averageCost: Field,
    costPricePerUnit: Field,
    costPrice: Field,
    mode: Mode,
    isSelected: bool,
    netAreaDisable: bool,
    wastageDisable: bool,
    lengthDisable: bool,
    productNameDisabled: bool,
    individualDiscountRow: Option<RowId>,
    discountAppliedFromRow: Option<RowId>,
    rowNumber: Option<int>)

  /** createNewRow: an empty row in edit mode with the next id. */
  function BlankRow(id: RowId): Row {
    Row(id, None, "", "", "", Blank, Blank, Blank, Blank, Blank, Blank, Blank, "",
        Blank, Blank, Blank, Blank, Blank, Blank, "", "", "", "", Blank, Blank, Blank,
        Edit, false, false, true, false, false, None, None, None)
  }

  /** The editor around the table: selected index (None for -1), the overall
      discount rate as typed (None for an empty input, otherwise the number
      parseFloat reads from it), the row copy kept for cancel, the ids of
      persisted rows removed since the last save, and the id counter. */
  datatype Editor = Editor(
    rows: seq<Row>,
    selected: Option<nat>,
    rate: Option<real>,
    snapshot: Option<Row>,
    ledger: seq<string>,
    nextId: RowId)

  predicate IsOverall(r: Row) {
    r.family == DiscountFamily && r.location == OverallLocation
  }

  predicate IsIndividualDiscountName(name: string) {
    name in IndividualDiscountProducts
  }

  predicate IsIndividualDiscount(r: Row) {
    IsIndividualDiscountName(r.itemInput)
  }

  /** A row that came from the store carries a non-empty external id. */
  predicate Persisted(r: Row) {
    r.salesforceId.Some? && r.salesforceId.value != ""
  }

  /** removeOverallDiscountRow's filter: every row except overall-discount rows. */
  function NonOverall(rows: seq<Row>): (kept: seq<Row>)
    ensures |kept| <= |rows|
    ensures forall i :: 0 <= i < |kept| ==> !IsOverall(kept[i])
  {
    if |rows| == 0 then []
    else if IsOverall(rows[0]) then NonOverall(rows[1..])
    else [rows[0]] + NonOverall(rows[1..])
  }

  /** A table without an overall-discount row passes the filter as it is. */
  lemma {:induction false} NonOverallWithoutOverall(rows: seq<Row>)
    requires forall i :: 0 <= i < |rows| ==> !IsOverall(rows[i])
    ensures NonOverall(rows) == rows
  {
    if |rows| > 0 {
      assert !IsOverall(rows[0]);
      NonOverallWithoutOverall(rows[1..]);
      assert rows == [rows[0]] + rows[1..];
    }
  }

  /** Every row the filter keeps comes from the table. */
  lemma {:induction false} NonOverallFrom(rows: seq<Row>)
    ensures forall r :: r in NonOverall(rows) ==> r in rows
  {
    if |rows| > 0 {
      NonOverallFrom(rows[1..]);
      assert forall r :: r in rows[1..] ==> r in rows;
    }
  }

  lemma {:induction false} NonOverallAppend(a: seq<Row>, b: seq<Row>)
    ensures NonOverall(a + b) == NonOverall(a) + NonOverall(b)
  {
    if |a| > 0 {
      assert (a + b)[1..] == a[1..] + b;
      NonOverallAppend(a[1..], b);
    } else {
      assert a + b == b;
    }
  }

  /** Position of the first row with the given id, or -1. */
  function IndexOfId(rows: seq<Row>, id: RowId): (k: int)
    ensures -1 <= k < |rows|
    ensures k >= 0 ==> rows[k].id == id
    ensures forall j :: 0 <= j < |rows| && (k < 0 || j < k) ==> rows[j].id != id
  {
    if |rows| == 0 then -1
    else if rows[0].id == id then 0
    else
      var k := IndexOfId(rows[1..], id);
      if k < 0 then -1 else k + 1
  }

  /** Position of the first overall-discount row, or -1. */
  function FirstOverallIndex(rows: seq<Row>): (k: int)
    ensures -1 <= k < |rows|
    ensures k >= 0 ==> IsOverall(rows[k])
    ensures forall j :: 0 <= j < |rows| && (k < 0 || j < k) ==> !IsOverall(rows[j])
  {
    if |rows| == 0 then -1
    else if IsOverall(rows[0]) then 0
    else
      var k := FirstOverallIndex(rows[1..]);
      if k < 0 then -1 else k + 1
  }

  /** The table shape the editor maintains: an overall-discount row, if any,
      is the last row (so there is at most one). */
  ghost predicate OverallLast(rows: seq<Row>) {
    forall i :: 0 <= i < |rows| && IsOverall(rows[i]) ==> i == |rows| - 1
  }

  ghost predicate UniqueIds(rows: seq<Row>) {
    forall i, j :: 0 <= i < j < |rows| ==> rows[i].id != rows[j].id
  }

  /** Every id in the table was handed out before `next`. */
  ghost predicate IdsBelow(rows: seq<Row>, next: RowId) {
    forall i :: 0 <= i < |rows| ==> rows[i].id < next
  }

  /** The id discipline of generateRowId: ids are unique and below the counter. */
  ghost predicate IdsFresh(e: Editor) {
    UniqueIds(e.rows) && IdsBelow(e.rows, e.nextId)
  }

  /** Removing the row at `i` (a filter on the index, so an index past the end
      removes nothing). */
  function RemoveAt(rows: seq<Row>, i: nat): (r: seq<Row>)
    ensures i < |rows| ==> |r| == |rows| - 1
    ensures i >= |rows| ==> r == rows
  {
    if i < |rows| then rows[..i] + rows[i + 1..] else rows
  }
}

=== FILE: persistence.dfy ===
/**
 * Loading a quote's stored line items into the table and building what a
 * save sends back: the row numbers, the line-item payloads, the overall
 * discount amount and percentage, and the ids of removed persisted rows.
 *
 * The store itself is not modelled: a load receives what the query returned
 * (`None` when it failed), and a save is told whether the upsert succeeded.
 */
module Persistence {
  import opened Values
  import opened Text
  import opened LineItems

  /** A stored quote line item as the load query returns it. Missing texts
      are empty; missing numbers are None. */
  datatype StoredItem = StoredItem(
    salesforceId: Option<string>,
    location: string,
    productName: string,
    productDescription: string,
    netArea: Option<real>,
    wastage: Option<real>,
    length: Option<real>,
    width: Option<real>,
    totalArea: Option<real>,
    quantity: Option<real>,
    quantityArea: Option<real>,
    units: string,
    rate: Option<real>,
    unitPrice: Option<real>,
    amount: Option<real>,
    taxAmount: Option<real>,
    grossAmount: Option<real>,
    estExtendedCost: Option<real>,
    family: string,
    productFamily: string,
    productId: string,
    averageCost: Option<real>,
    costPricePerUnit: Option<real>,
    costPrice: Option<real>,
    rowNumber: Option<int>)

  /** The estimate type of a loaded row: discount rows are recognised by
      their location. */
  function LoadedEstimateType(location: string): string {
    if location == OverallLocation then DiscountFamily else "Custom"
  }

  /** mapItemToTableRow: a read-only row whose product cannot be changed,
      with the stored numbers as cells (a stored 0 is a filled-in cell) and
      the area inputs enabled according to the stored product family. */
  function MapItemToTableRow(item: StoredItem, id: RowId): (r: Row)
    ensures r.id == id && r.salesforceId == item.salesforceId
    ensures r.mode == Read && r.productNameDisabled && !r.isSelected
    ensures r.individualDiscountRow.None? && r.discountAppliedFromRow.None?
  {
    BlankRow(id).(
      salesforceId := item.salesforceId,
      location := item.location,
      itemInput := item.productName,
      description := item.productDescription,
      netArea := FromStored(item.netArea),
      wastage := FromStored(item.wastage),
      length := FromStored(item.length),
      widthM := FromStored(item.width),
      totalArea := FromStored(item.totalArea),
      quantity := FromStored(item.quantity),
      quantitySqm := FromStored(item.quantityArea),
      units := item.units,
      rate := FromStored(item.rate),
      unitPriceSub := FromStored(item.unitPrice),
      amount := FromStored(item.amount),
      taxAmount := FromStored(item.taxAmount),
      grossAmount := FromStored(item.grossAmount),
      estExtendedCost := FromStored(item.estExtendedCost),
      costEstimateType := LoadedEstimateType(item.location),
      estimateType := LoadedEstimateType(item.location),
      family := item.family,
      selectedItemId := item.productId,
      averageCost := FromStored(item.averageCost),
      costPricePerUnit := FromStored(item.costPricePerUnit),
      costPrice := FromStored(item.costPrice),
      mode := Read,
      netAreaDisable := item.productFamily in WallToWallFamilies,
      wastageDisable := true,
      lengthDisable := item.productFamily in DeckingFamilies,
      productNameDisabled := true,
      rowNumber := item.rowNumber)
  }

  /** The loaded rows, numbered from `first` in the order the query returned. */
  function MapItems(items: seq<StoredItem>, first: RowId): (rows: seq<Row>)
    ensures |rows| == |items|
    ensures forall i :: 0 <= i < |items| ==> rows[i] == MapItemToTableRow(items[i], first + i)
  {
    seq(|items|, i requires 0 <= i < |items| => MapItemToTableRow(items[i], first + i))
  }

  predicate InDiscountFamily(r: Row) {
    r.family == DiscountFamily
  }

  /** The rows that are (`discount`) or are not in the discount family, in
      their order. */
  function SplitFamily(rows: seq<Row>, discount: bool): (kept: seq<Row>)
    ensures |kept| <= |rows|
    ensures forall i :: 0 <= i < |kept| ==> (InDiscountFamily(kept[i]) <==> discount)
  {
    if |rows| == 0 then []
    else (if InDiscountFamily(rows[0]) == discount then [rows[0]] else []) + SplitFamily(rows[1..], discount)
  }

  /** The rows a load puts in the table: the items mapped with fresh ids
      from `first`, in query order, with the discount-family rows moved
      behind all others. */
  function LoadedRows(items: seq<StoredItem>, first: RowId): seq<Row> {
    var mapped := MapItems(items, first);
    SplitFamily(mapped, false) + SplitFamily(mapped, true)
  }

  /** The overall rate read back from the first discount-family row placed
      at the discount location: the first decimal percentage in its name;
      the rate is left as it was when there is none. */
  function LoadedRate(discounts: seq<Row>, rate: Option<real>): Option<real> {
    var k := FirstOverallIndex(discounts);
    if k < 0 || discounts[k].itemInput == "" then rate
    else
      match DecimalPercent(discounts[k].itemInput)
      case None => rate
      case Some(v) => Some(v)
  }

  /** loadExistingQuoteLineItems. `data` is the query's result, None when it
      failed. Loaded rows take fresh ids in query order; the discount-family
      rows then move behind all others. A failed or empty load leaves one
      blank row. */
  function Load(e: Editor, data: Option<seq<StoredItem>>): (e': Editor)
    ensures e'.selected == e.selected && e'.snapshot == e.snapshot && e'.ledger == e.ledger
    ensures |e'.rows| >= 1
  {
    match data
    case None => e.(rows := [BlankRow(e.nextId)], nextId := e.nextId + 1)
    case Some(items) =>
      if |items| == 0 then e.(rows := [BlankRow(e.nextId)], nextId := e.nextId + 1)
      else
        e.(rows := LoadedRows(items, e.nextId),
           rate := LoadedRate(SplitFamily(MapItems(items, e.nextId), true), e.rate),
           nextId := e.nextId + |items|)
  }

  // ---------------------------------------------------------------------------
  // Saving

  /** How many of the rows before index `i` are not the overall-discount
      row: the count assignRowNumbers has reached when it gets to row `i`. */
  function NonOverallBefore(rows: seq<Row>, i: nat): nat
    requires i <= |rows|
  {
    if i == 0 then 0 else NonOverallBefore(rows, i - 1) + (if IsOverall(rows[i - 1]) then 0 else 1)
  }

  lemma NonOverallStep(rows: seq<Row>, i: nat)
    requires i < |rows|
    ensures |NonOverall(rows[..i + 1])| == |NonOverall(rows[..i])| + (if IsOverall(rows[i]) then 0 else 1)
  {
    assert rows[..i + 1] == rows[..i] + [rows[i]];
    NonOverallAppend(rows[..i], [rows[i]]);
  }

  /** The running count is the number of rows the overall filter keeps from
      the prefix. */
  lemma {:induction false} NonOverallBeforeCounts(rows: seq<Row>, i: nat)
    requires i <= |rows|
    ensures NonOverallBefore(rows, i) == |NonOverall(rows[..i])|
  {
    if i > 0 {
      NonOverallBeforeCounts(rows, i - 1);
      NonOverallStep(rows, i - 1);
    }
  }

  /** The two passes of assignRowNumbers over the row numbers alone: the
      first numbers the non-overall rows 1, 2, ... in table order, the second
      gives overall-discount rows 9999. */
  method RowNumbers(rows: seq<Row>) returns (numbers: seq<Option<int>>)
    ensures |numbers| == |rows|
    ensures forall i :: 0 <= i < |rows| && IsOverall(rows[i]) ==> numbers[i] == Some(OverallRowNumber)
    ensures forall i {:trigger numbers[i]} :: 0 <= i < |rows| && !IsOverall(rows[i]) ==> numbers[i] == Some(NonOverallBefore(rows, i) + 1)
  {
    numbers := seq(|rows|, j requires 0 <= j < |rows| => rows[j].rowNumber);
    var next := 1;
    var i := 0;
    while i < |rows|
      invariant 0 <= i <= |rows| && |numbers| == |rows|
      invariant next == NonOverallBefore(rows, i) + 1
      invariant forall j {:trigger numbers[j]} :: 0 <= j < i && !IsOverall(rows[j]) ==> numbers[j] == Some(NonOverallBefore(rows, j) + 1)
      invariant forall j :: 0 <= j < |rows| && IsOverall(rows[j]) ==> numbers[j] == rows[j].rowNumber
    {
      assert NonOverallBefore(rows, i + 1) == NonOverallBefore(rows, i) + (if IsOverall(rows[i]) then 0 else 1);
      if !IsOverall(rows[i]) {
        numbers := numbers[i := Some(next)];
        next := next + 1;
      }
      i := i + 1;
    }
    i := 0;
    while i < |rows|
      invariant 0 <= i <= |rows| && |numbers| == |rows|
      invariant forall j {:trigger numbers[j]} :: 0 <= j < |rows| && !IsOverall(rows[j]) ==> numbers[j] == Some(NonOverallBefore(rows, j) + 1)
      invariant forall j :: 0 <= j < i && IsOverall(rows[j]) ==> numbers[j] == Some(OverallRowNumber)
    {
      if IsOverall(rows[i]) {
        numbers := numbers[i := Some(OverallRowNumber)];
      }
      i := i + 1;
    }
  }

  /** assignRowNumbers: the rows with their new numbers; nothing else in a
      row changes. */
  method AssignRowNumbers(rows: seq<Row>) returns (numbered: seq<Row>)
    ensures |numbered| == |rows|
    ensures forall i :: 0 <= i < |rows| ==> numbered[i] == rows[i].(rowNumber := numbered[i].rowNumber)
    ensures forall i :: 0 <= i < |rows| && IsOverall(rows[i]) ==> numbered[i].rowNumber == Some(OverallRowNumber)
    ensures forall i {:trigger numbered[i]} :: 0 <= i < |rows| && !IsOverall(rows[i]) ==> numbered[i].rowNumber == Some(NonOverallBefore(rows, i) + 1)
  {
    var numbers := RowNumbers(rows);
    numbered := seq(|rows|, j requires 0 <= j < |rows| => rows[j].(rowNumber := numbers[j]));
    forall i | 0 <= i < |rows|
      ensures numbered[i] == rows[i].(rowNumber := numbers[i]) && numbered[i].rowNumber == numbers[i]
    {
    }
  }

  /** One line item as the save sends it. */
  datatype Payload = Payload(
    salesforceId: Option<string>,
    quoteId: string,
    location: string,
    productId: string,
    productDescription: string,
    netArea: real,
    wastage: real,
    length: Field,
    width: Field,
    totalArea: real,
    rate: real,
    productUnitPrice: real,
    quantity: real,
    quantityArea: real,
    price: real,
    taxAmount: real,
    grossAmount: real,
    estExtendedCost: real,
    discountPercentage: real,
    discountId: string,
    rowId: string,
    units: string,
    costPrice: Field,
    family: string,
    isIndividualDiscount: bool,
    discountAppliedFromRow: Option<RowId>,
    individualDiscountRow: Option<RowId>,
    rowNumber: Option<int>)

  /** buildQuoteLineItems for one row: numbers read with their defaults (a
      blank quantity counts one), length, width and cost price passed as
      typed, the row id as decimal text. Rows carry no per-row discount
      percentage or discount id, so those go out as 0 and empty. */
  function ToPayload(r: Row, quoteId: string): (p: Payload)
    ensures p.rowId == NatText(r.id) && p.quantity == NumOr(r.quantity, 1.0)
    ensures p.isIndividualDiscount <==> IsIndividualDiscount(r)
  {
    Payload(
      r.salesforceId, quoteId, r.location, r.selectedItemId, r.description,
      Num(r.netArea), Num(r.wastage), r.length, r.widthM, Num(r.totalArea), Num(r.rate),
      Num(r.unitPriceSub), NumOr(r.quantity, 1.0), Num(r.quantitySqm), Num(r.amount),
      Num(r.taxAmount), Num(r.grossAmount), Num(r.estExtendedCost),
      0.0, "", NatText(r.id), r.units, r.costPrice, r.family,
      IsIndividualDiscount(r), r.discountAppliedFromRow, r.individualDiscountRow, r.rowNumber)
  }

  function BuildQuoteLineItems(rows: seq<Row>, quoteId: string): (items: seq<Payload>)
    ensures |items| == |rows|
    ensures forall i :: 0 <= i < |rows| ==> items[i].rowId == NatText(rows[i].id) && items[i].rowNumber == rows[i].rowNumber
  {
    seq(|rows|, i requires 0 <= i < |rows| => ToPayload(rows[i], quoteId))
  }

  function Abs(x: real): real {
    if x < 0.0 then -x else x
  }

  /** calculateOverallDiscountAmount: the sum of the magnitudes of the gross
      cells of overall-discount rows whose gross is filled in. */
  function OverallDiscountAmount(rows: seq<Row>): (amount: real)
    ensures amount >= 0.0
  {
    if |rows| == 0 then 0.0
    else
      var last := rows[|rows| - 1];
      OverallDiscountAmount(rows[..|rows| - 1]) + (if IsOverall(last) && Present(last.grossAmount) then Abs(Num(last.grossAmount)) else 0.0)
  }

  /** What the upsert receives. */
  datatype SaveRequest = SaveRequest(
    lineItems: seq<Payload>,
    discountPercent: real,
    discountAmount: real,
    deletedRowIds: seq<string>)

  /** createQuoteLineItemData. The row numbers are assigned in the table
      before the request is built, and stay assigned whatever the outcome;
      the ledger of removed ids is cleared only when the upsert succeeds. */
  method Save(e: Editor, quoteId: string, succeeded: bool) returns (e': Editor, request: SaveRequest)
    ensures |e'.rows| == |e.rows| && |request.lineItems| == |e.rows|
    ensures forall i :: 0 <= i < |e.rows| ==> e'.rows[i] == e.rows[i].(rowNumber := e'.rows[i].rowNumber)
    ensures forall i :: 0 <= i < |e.rows| ==> request.lineItems[i] == ToPayload(e'.rows[i], quoteId)
    ensures request.discountPercent == (if e.rate.Some? then e.rate.value else 0.0)
    ensures request.discountAmount == OverallDiscountAmount(e'.rows)
    ensures request.deletedRowIds == e.ledger
    ensures e'.ledger == (if succeeded then [] else e.ledger)
    ensures e'.selected == e.selected && e'.rate == e.rate && e'.nextId == e.nextId
  {
    var rows := AssignRowNumbers(e.rows);
    request := SaveRequest(
      BuildQuoteLineItems(rows, quoteId),
      if e.rate.Some? then e.rate.value else 0.0,
      OverallDiscountAmount(rows),
      e.ledger);
    e' := e.(rows := rows, ledger := if succeeded then [] else e.ledger);
  }
}

=== FILE: persistence_facts.dfy ===
/**
 * What loading and saving guarantee: a load keeps every stored item, gives
 * fresh unique ids and puts the discount-family rows last; the overall rate
 * is read back from the overall-discount row's name; a loaded row goes back
 * out with the numbers it was stored with; row numbers count the
 * non-overall rows from 1; and the discount amount sent is the overall
 * discount row's gross.
 */
module PersistenceFacts {
  import opened Values
  import opened Text
  import opened LineItems
  import opened Discounts
  import opened Persistence

  // ---------------------------------------------------------------------------
  // Load

  /** Splitting by family loses and invents no row. */
  lemma {:induction false} SplitFamilyPermutes(rows: seq<Row>)
    ensures multiset(SplitFamily(rows, false)) + multiset(SplitFamily(rows, true)) == multiset(rows)
  {
    if |rows| > 0 {
      var r, tail := rows[0], rows[1..];
      SplitFamilyPermutes(tail);
      assert rows == [r] + tail;
      var a, b := SplitFamily(tail, false), SplitFamily(tail, true);
      if InDiscountFamily(r) {
        assert SplitFamily(rows, false) == a;
        assert SplitFamily(rows, true) == [r] + b;
        assert multiset([r] + b) == multiset{r} + multiset(b);
      } else {
        assert SplitFamily(rows, false) == [r] + a;
        assert SplitFamily(rows, true) == b;
        assert multiset([r] + a) == multiset{r} + multiset(a);
      }
      assert multiset(rows) == multiset{r} + multiset(tail);
    }
  }

  /** Every row either part holds comes from the table. */
  lemma SplitFamilyFrom(rows: seq<Row>)
    ensures forall r :: r in SplitFamily(rows, false) ==> r in rows
    ensures forall r :: r in SplitFamily(rows, true) ==> r in rows
  {
    SplitFamilyPermutes(rows);
    forall r | r in SplitFamily(rows, false)
      ensures r in rows
    {
      assert r in multiset(SplitFamily(rows, false));
    }
    forall r | r in SplitFamily(rows, true)
      ensures r in rows
    {
      assert r in multiset(SplitFamily(rows, true));
    }
  }

  ghost predicate IdsIncreasing(rows: seq<Row>) {
    forall i, j :: 0 <= i < j < |rows| ==> rows[i].id < rows[j].id
  }

  /** Splitting by family keeps the order of the rows it keeps. */
  lemma {:induction false} SplitFamilyKeepsOrder(rows: seq<Row>, discount: bool)
    requires IdsIncreasing(rows)
    ensures IdsIncreasing(SplitFamily(rows, discount))
  {
    if |rows| > 0 {
      SplitFamilyKeepsOrder(rows[1..], discount);
      SplitFamilyFrom(rows[1..]);
      var rest := SplitFamily(rows[1..], discount);
      forall j | 0 <= j < |rest|
        ensures rows[0].id < rest[j].id
      {
        assert rest[j] in rows[1..];
      }
    }
  }

  lemma MapItemsIds(items: seq<StoredItem>, first: RowId)
    ensures IdsIncreasing(MapItems(items, first))
    ensures IdsBelow(MapItems(items, first), first + |items|)
    ensures forall r :: r in MapItems(items, first) ==> r.id >= first
  {
  }

  /** The loaded rows are the mapped items, each once. */
  lemma LoadedRowsPermute(items: seq<StoredItem>, first: RowId)
    ensures |LoadedRows(items, first)| == |items|
    ensures multiset(LoadedRows(items, first)) == multiset(MapItems(items, first))
  {
    var mapped := MapItems(items, first);
    SplitFamilyPermutes(mapped);
    var a := SplitFamily(mapped, false);
    var b := SplitFamily(mapped, true);
    assert LoadedRows(items, first) == a + b;
    assert multiset(a + b) == multiset(a) + multiset(b);
    assert |multiset(a + b)| == |a + b|;
    assert |multiset(mapped)| == |mapped|;
  }

  /** Splitting by family and joining the parts puts every discount-family
      row after every other row. */
  lemma SplitFamilyOrders(rows: seq<Row>)
    ensures var joined := SplitFamily(rows, false) + SplitFamily(rows, true);
            forall i, j :: 0 <= i < j < |joined| && InDiscountFamily(joined[i]) ==> InDiscountFamily(joined[j])
  {
    var a := SplitFamily(rows, false);
    var b := SplitFamily(rows, true);
    var joined := a + b;
    forall i: int, j: int | 0 <= i < j < |joined| && InDiscountFamily(joined[i])
      ensures InDiscountFamily(joined[j])
    {
      if i >= |a| {
        assert joined[j] == b[j - |a|];
      }
    }
  }

  /** Every discount-family row of the loaded rows comes after every other
      row. */
  lemma LoadedRowsOrder(items: seq<StoredItem>, first: RowId)
    ensures var rows := LoadedRows(items, first);
            forall i, j :: 0 <= i < j < |rows| && InDiscountFamily(rows[i]) ==> InDiscountFamily(rows[j])
  {
    SplitFamilyOrders(MapItems(items, first));
  }

  /** Every loaded row is in read mode. */
  lemma LoadedRowsRead(items: seq<StoredItem>, first: RowId)
    ensures var rows := LoadedRows(items, first);
            forall i :: 0 <= i < |rows| ==> rows[i].mode == Read
  {
    var mapped := MapItems(items, first);
    var a := SplitFamily(mapped, false);
    var b := SplitFamily(mapped, true);
    var rows := LoadedRows(items, first);
    assert rows == a + b;
    SplitFamilyFrom(mapped);
    assert forall r :: r in mapped ==> r.mode == Read;
    forall i: int | 0 <= i < |rows|
      ensures rows[i].mode == Read
    {
      if i < |a| {
        assert rows[i] == a[i] && a[i] in mapped;
      } else {
        assert rows[i] == b[i - |a|] && b[i - |a|] in mapped;
      }
    }
  }

  /** A load with items keeps each of them, as one row, and places every
      discount-family row after every other row. */
  lemma LoadShape(e: Editor, items: seq<StoredItem>)
    requires |items| > 0
    ensures var e' := Load(e, Some(items));
            && |e'.rows| == |items|
            && multiset(e'.rows) == multiset(MapItems(items, e.nextId))
            && (forall i, j :: 0 <= i < j < |e'.rows| && InDiscountFamily(e'.rows[i]) ==> InDiscountFamily(e'.rows[j]))
            && (forall i :: 0 <= i < |e'.rows| ==> e'.rows[i].mode == Read)
            && e'.nextId == e.nextId + |items|
  {
    assert Load(e, Some(items)).rows == LoadedRows(items, e.nextId);
    LoadedRowsPermute(items, e.nextId);
    LoadedRowsOrder(items, e.nextId);
    LoadedRowsRead(items, e.nextId);
  }

  /** A failed or empty load leaves a single blank row with the next id. */
  lemma LoadWithoutItems(e: Editor, data: Option<seq<StoredItem>>)
    requires data.None? || |data.value| == 0
    ensures Load(e, data).rows == [BlankRow(e.nextId)] && Load(e, data).nextId == e.nextId + 1
    ensures Load(e, data).rate == e.rate
  {
  }

  /** Rows taken from a table whose ids increase, split by family and put
      back together, still have unique ids. */
  lemma SplitFamilyUnique(rows: seq<Row>)
    requires IdsIncreasing(rows)
    ensures UniqueIds(SplitFamily(rows, false) + SplitFamily(rows, true))
  {
    var a := SplitFamily(rows, false);
    var b := SplitFamily(rows, true);
    SplitFamilyKeepsOrder(rows, false);
    SplitFamilyKeepsOrder(rows, true);
    SplitFamilyFrom(rows);
    var joined := a + b;
    forall i, j | 0 <= i < j < |joined|
      ensures joined[i].id != joined[j].id
    {
      if i < |a| && j >= |a| {
        SplitsDiffer(rows, a[i], b[j - |a|]);
      } else if i >= |a| {
        assert joined[i] == b[i - |a|] && joined[j] == b[j - |a|];
      }
    }
  }

  lemma SplitsDiffer(rows: seq<Row>, x: Row, y: Row)
    requires IdsIncreasing(rows)
    requires x in rows && y in rows && !InDiscountFamily(x) && InDiscountFamily(y)
    ensures x.id != y.id
  {
    var p :| 0 <= p < |rows| && rows[p] == x;
    var q :| 0 <= q < |rows| && rows[q] == y;
    assert p != q;
  }

  /** Whatever the table held before, the loaded table's ids are unique and
      below the counter. */
  lemma LoadIdsFresh(e: Editor, data: Option<seq<StoredItem>>)
    ensures IdsFresh(Load(e, data))
  {
    if data.Some? && |data.value| > 0 {
      var items := data.value;
      var mapped := MapItems(items, e.nextId);
      MapItemsIds(items, e.nextId);
      SplitFamilyUnique(mapped);
      SplitFamilyFrom(mapped);
      var rows := LoadedRows(items, e.nextId);
      assert Load(e, data).rows == rows;
      assert forall i :: 0 <= i < |rows| ==> rows[i] in mapped;
    }
  }

  /** Absence of digits at the front lets the scan for a percentage move on. */
  lemma {:induction false} DecimalPercentSkips(s: string, i: nat, k: nat)
    requires i <= k <= |s|
    requires forall j :: i <= j < k ==> !IsDigit(s[j])
    ensures DecimalPercentFrom(s, i) == DecimalPercentFrom(s, k)
    decreases k - i
  {
    if i < k {
      assert StopsDigits(s[i..]);
      DecimalPercentSkips(s, i + 1, k);
    }
  }

  /** A whole number is printed as its digits. */
  lemma WholeNumberText(n: nat)
    ensures NumberText(n as real) == NatText(n)
  {
    assert (n as real).Floor == n;
  }

  /** Digits followed by "%)" scan as that whole number, with the '%' right
      after them. */
  lemma LeadingWholePercent(d: string)
    requires |d| > 0 && AllDigits(d)
    ensures var t := d + "%)";
            LeadingDecimal(t) == Some(Scan(NatValue(d) as real, |d|)) && t[|d|] == '%'
  {
    var t := d + "%)";
    DigitRunOfPrefix(d, "%)");
    assert t[..|d|] == d;
  }

  /** The name "Discount (<d>%)" opens with ten characters that are not
      digits, followed by `d + "%)"`. */
  lemma WholeLabelShape(d: string)
    ensures var s := "Discount (" + d + "%)";
            && |s| == 10 + |d| + 2 && s[10..] == d + "%)"
            && forall j :: 0 <= j < 10 ==> !IsDigit(s[j])
  {
    var s := "Discount (" + d + "%)";
    assert s == "Discount (" + (d + "%)");
  }

  /** A name of the form "Discount (<digits>%)" carries those digits as its
      first percentage. */
  lemma DecimalPercentOfWholeLabel(d: string)
    requires |d| > 0 && AllDigits(d)
    ensures DecimalPercent("Discount (" + d + "%)") == Some(NatValue(d) as real)
  {
    var s := "Discount (" + d + "%)";
    WholeLabelShape(d);
    DecimalPercentSkips(s, 0, 10);
    LeadingWholePercent(d);
  }

  /** The name the editor gives the overall-discount row for a whole-number
      rate carries that rate as its first percentage. */
  lemma OverallLabelCarriesRate(n: nat)
    ensures DecimalPercent(OverallLabel(n as real)) == Some(n as real)
  {
    WholeNumberText(n);
    DecimalPercentOfWholeLabel(NatText(n));
    NatTextRoundTrip(n);
  }

  /** A stored overall-discount row named as the editor names it for a
      whole-number rate brings that rate back on load. */
  lemma LoadRestoresWholeRate(e: Editor, items: seq<StoredItem>, n: nat)
    requires |items| > 0
    requires var d := SplitFamily(MapItems(items, e.nextId), true);
             FirstOverallIndex(d) >= 0 && d[FirstOverallIndex(d)].itemInput == OverallLabel(n as real)
    ensures Load(e, Some(items)).rate == Some(n as real)
  {
    OverallLabelCarriesRate(n);
  }

  /** Without an overall-discount row among the loaded rows the rate is left
      as it was. */
  lemma LoadKeepsRateWithoutOverall(e: Editor, items: seq<StoredItem>)
    requires forall i :: 0 <= i < |items| ==> !(items[i].family == DiscountFamily && items[i].location == OverallLocation)
    ensures Load(e, Some(items)).rate == e.rate
  {
    if |items| > 0 {
      var d := SplitFamily(MapItems(items, e.nextId), true);
      SplitFamilyFrom(MapItems(items, e.nextId));
      assert forall r :: r in MapItems(items, e.nextId) ==> !IsOverall(r);
    }
  }

  // ---------------------------------------------------------------------------
  // Save

  /** A loaded row is saved with the numbers it was stored with: a missing
      number goes out as 0, a missing quantity as 1. */
  lemma PayloadOfLoadedItem(item: StoredItem, id: RowId, quoteId: string)
    ensures var p := ToPayload(MapItemToTableRow(item, id), quoteId);
            && p.salesforceId == item.salesforceId && p.location == item.location
            && p.productId == item.productId && p.productDescription == item.productDescription
            && p.units == item.units && p.family == item.family && p.rowNumber == item.rowNumber
            && p.netArea == OrZero(item.netArea) && p.wastage == OrZero(item.wastage)
            && p.totalArea == OrZero(item.totalArea) && p.rate == OrZero(item.rate)
            && p.productUnitPrice == OrZero(item.unitPrice)
            && p.quantity == (if item.quantity.Some? then item.quantity.value else 1.0)
            && p.quantityArea == OrZero(item.quantityArea) && p.price == OrZero(item.amount)
            && p.taxAmount == OrZero(item.taxAmount) && p.grossAmount == OrZero(item.grossAmount)
            && p.estExtendedCost == OrZero(item.estExtendedCost)
            && p.length == FromStored(item.length) && p.width == FromStored(item.width)
            && p.costPrice == FromStored(item.costPrice)
            && p.individualDiscountRow.None? && p.discountAppliedFromRow.None?
  {
  }

  function OrZero(o: Option<real>): real {
    if o.Some? then o.value else 0.0
  }

  /** The numbers assignRowNumbers gives count the non-overall rows: the
      k-th of them, in table order, is numbered k + 1. */
  lemma NumbersCountRows(rows: seq<Row>, numbered: seq<Row>)
    requires |numbered| == |rows|
    requires forall i {:trigger numbered[i]} :: 0 <= i < |rows| ==> IsOverall(numbered[i]) == IsOverall(rows[i])
    requires forall i {:trigger numbered[i]} :: 0 <= i < |rows| && !IsOverall(rows[i]) ==> numbered[i].rowNumber == Some(NonOverallBefore(rows, i) + 1)
    ensures |NonOverall(numbered)| == |NonOverall(rows)|
    ensures forall k :: 0 <= k < |NonOverall(numbered)| ==> NonOverall(numbered)[k].rowNumber == Some(k + 1)
  {
    NumbersCountPrefix(rows, numbered, |rows|);
    assert numbered[..|rows|] == numbered;
    NonOverallBeforeCounts(rows, |rows|);
    assert rows[..|rows|] == rows;
  }

  lemma {:induction false} NumbersCountPrefix(rows: seq<Row>, numbered: seq<Row>, m: nat)
    requires |numbered| == |rows| && m <= |rows|
    requires forall i {:trigger numbered[i]} :: 0 <= i < |rows| ==> IsOverall(numbered[i]) == IsOverall(rows[i])
    requires forall i {:trigger numbered[i]} :: 0 <= i < |rows| && !IsOverall(rows[i]) ==> numbered[i].rowNumber == Some(NonOverallBefore(rows, i) + 1)
    ensures |NonOverall(numbered[..m])| == NonOverallBefore(rows, m)
    ensures forall k :: 0 <= k < |NonOverall(numbered[..m])| ==> NonOverall(numbered[..m])[k].rowNumber == Some(k + 1)
  {
    if m == 0 {
      assert numbered[..0] == [];
    } else {
      NumbersCountPrefix(rows, numbered, m - 1);
      var a, x, c := numbered[..m - 1], numbered[m - 1], NonOverallBefore(rows, m - 1);
      assert numbered[..m] == a + [x];
      assert IsOverall(x) == IsOverall(rows[m - 1]);
      assert !IsOverall(x) ==> x.rowNumber == Some(c + 1);
      assert NonOverallBefore(rows, m) == c + (if IsOverall(x) then 0 else 1);
      NumbersAppend(a, x, c);
    }
  }

  lemma NumbersAppend(a: seq<Row>, x: Row, m: nat)
    requires |NonOverall(a)| == m
    requires forall k :: 0 <= k < m ==> NonOverall(a)[k].rowNumber == Some(k + 1)
    requires !IsOverall(x) ==> x.rowNumber == Some(m + 1)
    ensures |NonOverall(a + [x])| == m + (if IsOverall(x) then 0 else 1)
    ensures forall k :: 0 <= k < |NonOverall(a + [x])| ==> NonOverall(a + [x])[k].rowNumber == Some(k + 1)
  {
    NonOverallAppend(a, [x]);
    NonOverallSingle(x);
  }

  lemma NonOverallSingle(x: Row)
    ensures NonOverall([x]) == if IsOverall(x) then [] else [x]
  {
    assert [x][1..] == [];
  }

  /** The overall discount amount of a table without an overall-discount
      row is 0. */
  lemma {:induction false} AmountWithoutOverall(rows: seq<Row>)
    requires forall i :: 0 <= i < |rows| ==> !IsOverall(rows[i])
    ensures OverallDiscountAmount(rows) == 0.0
  {
    if |rows| > 0 {
      AmountWithoutOverall(rows[..|rows| - 1]);
    }
  }

  /** The discount amount a save sends, once the overall discount has been
      applied, is the size of that row's gross discount. */
  lemma AmountOfAppliedDiscount(e: Editor, rate: real)
    requires Total(NonOverall(e.rows), GrossCol) > 0.0
    ensures OverallDiscountAmount(AddOverallDiscountRow(e, rate).rows)
            == Abs(DiscountShare(Total(NonOverall(e.rows), GrossCol), rate))
  {
    var base := NonOverall(e.rows);
    var rows := AddOverallDiscountRow(e, rate).rows;
    var row := OverallDiscountRow(e.nextId, rate, base);
    assert rows == base + [row];
    assert rows[..|rows| - 1] == base;
    AmountWithoutOverall(base);
    assert IsOverall(row);
  }
}

=== FILE: recalc_facts.dfy ===
/**
 * What recalculateIndividualDiscounts computes. The walk runs over the array
 * it started on while the table it rewrites is replaced after the first
 * attachment; as long as no linked discount points at another discount row,
 * that aliasing is harmless: every linked discount row ends up discounted
 * against its target as the table stood, the targets keep their money cells,
 * and every other row is left alone.
 */
module RecalcFacts {
  import opened Values
  import opened Text
  import opened LineItems
  import opened Discounts
  import opened DiscountFacts

  /** The five money cells of a row. */
  datatype Money = Money(rate: Field, unitPrice: Field, amount: Field, tax: Field, gross: Field)

  function MoneyOf(r: Row): Money {
    Money(r.rate, r.unitPriceSub, r.amount, r.taxAmount, r.grossAmount)
  }

  /** No linked individual discount points at an individual-discount row. */
  ghost predicate TargetsPlain(rows: seq<Row>) {
    forall i :: 0 <= i < |rows| && LinkedTarget(rows, rows[i]) >= 0 ==>
      !IsIndividualDiscount(rows[LinkedTarget(rows, rows[i])])
  }

  /** The row the walk writes for the linked discount at `j`: that row
      discounted against its target as the table stood. */
  ghost function Rebuilt(rows: seq<Row>, j: nat): Row
    requires j < |rows| && LinkedTarget(rows, rows[j]) >= 0
  {
    DiscountNamesHavePercent(rows[j].itemInput);
    DiscountedRow(rows[j], rows[LinkedTarget(rows, rows[j])], IntegerPercent(rows[j].itemInput).value)
  }

  /** `rb` holds, at the position of every linked discount row, that row
      rewritten against its target. */
  ghost predicate RebuiltAs(orig: seq<Row>, rb: seq<Row>) {
    |rb| == |orig| && forall i :: 0 <= i < |orig| && LinkedTarget(orig, orig[i]) >= 0 ==> rb[i] == Rebuilt(orig, i)
  }

  ghost function RebuiltRows(orig: seq<Row>): (rb: seq<Row>)
    ensures RebuiltAs(orig, rb)
  {
    seq(|orig|, i requires 0 <= i < |orig| => if LinkedTarget(orig, orig[i]) >= 0 then Rebuilt(orig, i) else orig[i])
  }

  /** The walk as it goes when the aliasing does no harm: position by
      position, each linked discount row of the original table is replaced
      by its rewritten form from `rb`, and its target then points back at
      it. */
  ghost function PlainWalk(orig: seq<Row>, rb: seq<Row>, rows: seq<Row>, k: nat): (rows': seq<Row>)
    requires |rows| == |orig| && |rb| == |orig| && k <= |orig|
    ensures |rows'| == |rows|
    decreases |orig| - k
  {
    if k == |orig| then rows
    else
      var t := LinkedTarget(orig, orig[k]);
      if t >= 0 then PlainWalk(orig, rb, rows[k := rb[k]][t := rows[t].(individualDiscountRow := Some(orig[k].id))], k + 1)
      else PlainWalk(orig, rb, rows, k + 1)
  }

  /** `x` matches `orig` position by position in every row's id and name,
      and in the money cells of every row that is not an individual
      discount. */
  ghost predicate Agrees(orig: seq<Row>, x: seq<Row>) {
    && |x| == |orig|
    && (forall i :: 0 <= i < |orig| ==> x[i].id == orig[i].id && x[i].itemInput == orig[i].itemInput)
    && (forall i :: 0 <= i < |orig| && !IsIndividualDiscount(orig[i]) ==> MoneyOf(x[i]) == MoneyOf(orig[i]))
  }

  /** The state of recalculateIndividualDiscounts at position `k`: both the
      walked array and the table agree with the table the walk started from,
      and no discount row from `k` on has been touched yet. */
  ghost predicate Walking(orig: seq<Row>, walked: seq<Row>, rows: seq<Row>, k: nat) {
    && Agrees(orig, walked) && Agrees(orig, rows)
    && (forall i :: k <= i < |orig| && IsIndividualDiscount(orig[i]) ==> walked[i] == orig[i] && rows[i] == orig[i])
  }

  /** Tables with the same ids, position by position, find an id at the same
      place. */
  lemma IndexOfIdAlike(a: seq<Row>, b: seq<Row>, id: RowId)
    requires |a| == |b| && forall i :: 0 <= i < |a| ==> a[i].id == b[i].id
    ensures IndexOfId(a, id) == IndexOfId(b, id)
  {
    var ka := IndexOfId(a, id);
    var kb := IndexOfId(b, id);
    if ka >= 0 {
      assert b[ka].id == id;
    }
    if kb >= 0 {
      assert a[kb].id == id;
    }
  }

  /** With unique ids, a row is found at its own position. */
  lemma IndexOfOwnId(rows: seq<Row>, k: nat)
    requires UniqueIds(rows) && k < |rows|
    ensures IndexOfId(rows, rows[k].id) == k
  {
  }

  /** A discount row written against two targets that agree on what the
      rewrite reads comes out the same. */
  lemma DiscountedRowReads(d: Row, x: Row, y: Row, p: nat)
    requires MoneyOf(x) == MoneyOf(y) && x.itemInput == y.itemInput && x.id == y.id
    ensures DiscountedRow(d, x, p) == DiscountedRow(d, y, p)
  {
  }

  /** Attaching the untouched linked discount at `k` during the walk writes
      what the plain walk writes. */
  lemma AttachStep(orig: seq<Row>, rb: seq<Row>, rows: seq<Row>, k: nat)
    requires UniqueIds(orig) && TargetsPlain(orig) && Agrees(orig, rows) && RebuiltAs(orig, rb)
    requires k < |orig| && LinkedTarget(orig, orig[k]) >= 0 && rows[k] == orig[k]
    ensures var t := LinkedTarget(orig, orig[k]);
            var next := ApplyIndividualDiscount(rows, t, orig[k]);
            && Attaches(rows, t, orig[k]) && t != k
            && rb[k].id == orig[k].id && rb[k].itemInput == orig[k].itemInput
            && next == rows[k := rb[k]][t := rows[t].(individualDiscountRow := Some(orig[k].id))]
  {
    var d := orig[k];
    var t := LinkedTarget(orig, orig[k]);
    assert !IsIndividualDiscount(orig[t]);
    DiscountNamesHavePercent(d.itemInput);
    IndexOfIdAlike(rows, orig, d.id);
    IndexOfOwnId(orig, k);
    DiscountedRowReads(d, rows[t], orig[t], IntegerPercent(d.itemInput).value);
  }

  /** The table after that attachment still agrees with the original. */
  lemma AttachAgrees(orig: seq<Row>, rows: seq<Row>, w: Row, k: nat, t: nat)
    requires Agrees(orig, rows) && k < |orig| && t < |orig| && t != k
    requires LinkedTarget(orig, orig[k]) == t && w.id == orig[k].id && w.itemInput == orig[k].itemInput
    ensures Agrees(orig, rows[k := w][t := rows[t].(individualDiscountRow := Some(orig[k].id))])
  {
  }

  /** The walk finds, for the row it is at, the target the original table
      gives; a linked discount there is still the original row. */
  lemma WalkTarget(orig: seq<Row>, walked: seq<Row>, rows: seq<Row>, k: nat)
    requires Walking(orig, walked, rows, k) && k < |orig|
    ensures LinkedTarget(rows, walked[k]) == LinkedTarget(orig, orig[k])
    ensures LinkedTarget(orig, orig[k]) >= 0 ==> walked[k] == orig[k] && rows[k] == orig[k]
  {
    var d := walked[k];
    if d.discountAppliedFromRow.Some? {
      IndexOfIdAlike(rows, orig, d.discountAppliedFromRow.value);
    }
  }

  /** After the attachment at `k` the walk's state carries over to `k + 1`,
      whether or not the walked array was the table itself. */
  lemma AttachWalking(orig: seq<Row>, walked: seq<Row>, rows: seq<Row>, w: Row, k: nat, t: nat)
    requires Walking(orig, walked, rows, k) && k < |orig| && t < |orig| && t != k
    requires LinkedTarget(orig, orig[k]) == t && !IsIndividualDiscount(orig[t])
    requires w.id == orig[k].id && w.itemInput == orig[k].itemInput
    ensures var next := rows[k := w][t := rows[t].(individualDiscountRow := Some(orig[k].id))];
            && Walking(orig, walked, next, k + 1)
            && (walked == rows ==> Walking(orig, next, next, k + 1))
  {
    AttachAgrees(orig, rows, w, k, t);
  }

  /** One step of recalculateIndividualDiscounts, at position `k`, does what
      one step of the plain walk does, and the walk's state carries over. */
  lemma WalkStep(orig: seq<Row>, rb: seq<Row>, walked: seq<Row>, rows: seq<Row>, shared: bool, k: nat)
    requires UniqueIds(orig) && TargetsPlain(orig) && RebuiltAs(orig, rb)
    requires Walking(orig, walked, rows, k) && k < |orig| && (shared ==> walked == rows)
    ensures var n := RecalcNext(walked, rows, shared, k);
            var t := LinkedTarget(orig, orig[k]);
            && Walking(orig, n.0, n.1, k + 1)
            && (n.2 ==> n.0 == n.1)
            && n.1 == (if t >= 0 then rows[k := rb[k]][t := rows[t].(individualDiscountRow := Some(orig[k].id))] else rows)
  {
    var t := LinkedTarget(orig, orig[k]);
    WalkTarget(orig, walked, rows, k);
    if t >= 0 {
      AttachStep(orig, rb, rows, k);
      AttachWalking(orig, walked, rows, rb[k], k, t);
    }
  }

  /** recalculateIndividualDiscounts is the plain walk, as long as no linked
      discount points at an individual-discount row. */
  lemma {:induction false} WalkIsPlain(orig: seq<Row>, rb: seq<Row>, walked: seq<Row>, rows: seq<Row>, shared: bool, k: nat)
    requires UniqueIds(orig) && TargetsPlain(orig) && RebuiltAs(orig, rb)
    requires Walking(orig, walked, rows, k) && k <= |orig| && (shared ==> walked == rows)
    ensures RecalcFrom(walked, rows, shared, k) == PlainWalk(orig, rb, rows, k)
    decreases |orig| - k
  {
    if k < |orig| {
      var n := RecalcNext(walked, rows, shared, k);
      RecalcFromStep(walked, rows, shared, k);
      WalkStep(orig, rb, walked, rows, shared, k);
      WalkIsPlain(orig, rb, n.0, n.1, n.2, k + 1);
    }
  }

  lemma RecalcIsPlain(rows: seq<Row>)
    requires UniqueIds(rows) && TargetsPlain(rows)
    ensures RecalcIndividual(rows) == PlainWalk(rows, RebuiltRows(rows), rows, 0)
  {
    WalkIsPlain(rows, RebuiltRows(rows), rows, rows, true, 0);
  }

  // ---------------------------------------------------------------------------
  // What the plain walk writes

  /** A linked discount row, once rewritten, stays as it is: later steps
      write their own row and a target, which is never a discount row. */
  lemma {:induction false} PlainRebuilds(orig: seq<Row>, rb: seq<Row>, rows: seq<Row>, k: nat, j: nat)
    requires TargetsPlain(orig) && |rows| == |orig| && |rb| == |orig| && k <= |orig|
    requires j < |orig| && LinkedTarget(orig, orig[j]) >= 0
    requires j < k ==> rows[j] == rb[j]
    ensures PlainWalk(orig, rb, rows, k)[j] == rb[j]
    decreases |orig| - k
  {
    if k < |orig| {
      var t := LinkedTarget(orig, orig[k]);
      if t >= 0 {
        assert !IsIndividualDiscount(orig[t]);
        PlainRebuilds(orig, rb, rows[k := rb[k]][t := rows[t].(individualDiscountRow := Some(orig[k].id))], k + 1, j);
      } else {
        PlainRebuilds(orig, rb, rows, k + 1, j);
      }
    }
  }

  /** The target of the linked discount at `j` points back at it at the end,
      provided no later discount row claims the same target. */
  lemma {:induction false} PlainLinksTarget(orig: seq<Row>, rb: seq<Row>, rows: seq<Row>, k: nat, j: nat)
    requires TargetsPlain(orig) && |rows| == |orig| && |rb| == |orig| && k <= |orig|
    requires j < |orig| && LinkedTarget(orig, orig[j]) >= 0
    requires forall m :: j < m < |orig| ==> LinkedTarget(orig, orig[m]) != LinkedTarget(orig, orig[j])
    requires j < k ==> rows[LinkedTarget(orig, orig[j])].individualDiscountRow == Some(orig[j].id)
    ensures PlainWalk(orig, rb, rows, k)[LinkedTarget(orig, orig[j])].individualDiscountRow == Some(orig[j].id)
    decreases |orig| - k
  {
    if k < |orig| {
      var t := LinkedTarget(orig, orig[k]);
      if t >= 0 {
        assert !IsIndividualDiscount(orig[t]);
        PlainLinksTarget(orig, rb, rows[k := rb[k]][t := rows[t].(individualDiscountRow := Some(orig[k].id))], k + 1, j);
      } else {
        PlainLinksTarget(orig, rb, rows, k + 1, j);
      }
    }
  }

  /** A row that is neither a linked discount nor the target of one is not
      written. */
  lemma {:induction false} PlainLeaves(orig: seq<Row>, rb: seq<Row>, rows: seq<Row>, k: nat, i: nat)
    requires |rows| == |orig| && |rb| == |orig| && k <= |orig|
    requires i < |orig| && LinkedTarget(orig, orig[i]) < 0
    requires forall m :: 0 <= m < |orig| ==> LinkedTarget(orig, orig[m]) != i
    ensures PlainWalk(orig, rb, rows, k)[i] == rows[i]
    decreases |orig| - k
  {
    if k < |orig| {
      var t := LinkedTarget(orig, orig[k]);
      if t >= 0 {
        PlainLeaves(orig, rb, rows[k := rb[k]][t := rows[t].(individualDiscountRow := Some(orig[k].id))], k + 1, i);
      } else {
        PlainLeaves(orig, rb, rows, k + 1, i);
      }
    }
  }

  /** A row that is not an individual discount keeps its money cells: the
      walk only writes its link to a discount row. */
  lemma {:induction false} PlainKeepsMoney(orig: seq<Row>, rb: seq<Row>, rows: seq<Row>, k: nat, i: nat)
    requires TargetsPlain(orig)
    requires |rows| == |orig| && |rb| == |orig| && k <= |orig|
    requires i < |orig| && !IsIndividualDiscount(orig[i])
    ensures MoneyOf(PlainWalk(orig, rb, rows, k)[i]) == MoneyOf(rows[i])
    decreases |orig| - k
  {
    if k < |orig| {
      var t := LinkedTarget(orig, orig[k]);
      if t >= 0 {
        PlainKeepsMoney(orig, rb, rows[k := rb[k]][t := rows[t].(individualDiscountRow := Some(orig[k].id))], k + 1, i);
      } else {
        PlainKeepsMoney(orig, rb, rows, k + 1, i);
      }
    }
  }

  // ---------------------------------------------------------------------------
  // recalculateIndividualDiscounts

  /** The cells a discount row takes from its target. */
  lemma DiscountedRowCells(d: Row, target: Row, p: nat)
    ensures var r := DiscountedRow(d, target, p);
            && r.id == d.id && r.itemInput == d.itemInput
            && Num(r.grossAmount) == DiscountShare(Num(target.grossAmount), p as real)
            && Num(r.rate) == DiscountShare(Num(target.rate), p as real)
            && Num(r.unitPriceSub) == DiscountShare(Num(target.unitPriceSub), p as real)
            && Num(r.amount) == DiscountShare(Num(target.amount), p as real)
            && Num(r.taxAmount) == DiscountShare(Num(target.taxAmount), p as real)
            && r.quantity == Val(1.0)
            && r.discountAppliedFromRow == Some(target.id)
  {
  }

  /** The rows recalculateIndividualDiscounts leaves at a linked discount
      and at its target. */
  lemma RecalcAtDiscount(rows: seq<Row>, j: nat)
    requires UniqueIds(rows) && TargetsPlain(rows)
    requires j < |rows| && LinkedTarget(rows, rows[j]) >= 0
    ensures var rows' := RecalcIndividual(rows);
            var t := LinkedTarget(rows, rows[j]);
            && rows'[j] == Rebuilt(rows, j)
            && MoneyOf(rows'[t]) == MoneyOf(rows[t])
            && rows'[t].id == rows[t].id
            && ((forall m :: j < m < |rows| ==> LinkedTarget(rows, rows[m]) != t) ==>
                  rows'[t].individualDiscountRow == Some(rows[j].id))
  {
    var t := LinkedTarget(rows, rows[j]);
    var rb := RebuiltRows(rows);
    RecalcIsPlain(rows);
    PlainRebuilds(rows, rb, rows, 0, j);
    assert !IsIndividualDiscount(rows[t]);
    PlainKeepsMoney(rows, rb, rows, 0, t);
    RecalcIndividualKeepsSkeleton(rows);
    assert Skeletons(rows)[t] == Skeletons(RecalcIndividual(rows))[t];
    if forall m :: j < m < |rows| ==> LinkedTarget(rows, rows[m]) != t {
      PlainLinksTarget(rows, rb, rows, 0, j);
    }
  }

  /** recalculateIndividualDiscounts, for a linked discount row at `j` with
      target `t`: the row takes its percentage off each money column of the
      target as the table stood, negated and rounded, exactly as attaching it
      did; it keeps pointing at the target, which keeps its money cells and,
      unless a later discount row claims it too, points back at it. */
  lemma RecalcRebuildsDiscount(rows: seq<Row>, j: nat)
    requires UniqueIds(rows) && TargetsPlain(rows)
    requires j < |rows| && LinkedTarget(rows, rows[j]) >= 0
    ensures var rows' := RecalcIndividual(rows);
            var t := LinkedTarget(rows, rows[j]);
            var pct := IntegerPercent(rows[j].itemInput);
            var p := if pct.Some? then pct.value as real else 0.0;
            && pct.Some?
            && rows'[j].id == rows[j].id && rows'[j].itemInput == rows[j].itemInput
            && Num(rows'[j].grossAmount) == DiscountShare(Num(rows[t].grossAmount), p)
            && Num(rows'[j].rate) == DiscountShare(Num(rows[t].rate), p)
            && Num(rows'[j].unitPriceSub) == DiscountShare(Num(rows[t].unitPriceSub), p)
            && Num(rows'[j].amount) == DiscountShare(Num(rows[t].amount), p)
            && Num(rows'[j].taxAmount) == DiscountShare(Num(rows[t].taxAmount), p)
            && rows'[j].quantity == Val(1.0)
            && rows'[j].discountAppliedFromRow == Some(rows'[t].id)
            && MoneyOf(rows'[t]) == MoneyOf(rows[t])
            && ((forall m :: j < m < |rows| ==> LinkedTarget(rows, rows[m]) != t) ==>
                  rows'[t].individualDiscountRow == Some(rows'[j].id))
  {
    var t := LinkedTarget(rows, rows[j]);
    DiscountNamesHavePercent(rows[j].itemInput);
    RecalcAtDiscount(rows, j);
    DiscountedRowCells(rows[j], rows[t], IntegerPercent(rows[j].itemInput).value);
  }

  /** recalculateIndividualDiscounts keeps the money cells of every row that
      is not an individual discount, and does not touch a row that is neither
      a linked discount nor the target of one. */
  lemma RecalcKeepsOtherRows(rows: seq<Row>, i: nat)
    requires UniqueIds(rows) && TargetsPlain(rows) && i < |rows|
    ensures var rows' := RecalcIndividual(rows);
            && (!IsIndividualDiscount(rows[i]) ==> MoneyOf(rows'[i]) == MoneyOf(rows[i]))
            && (LinkedTarget(rows, rows[i]) < 0 && (forall m :: 0 <= m < |rows| ==> LinkedTarget(rows, rows[m]) != i) ==>
                  rows'[i] == rows[i])
  {
    RecalcIsPlain(rows);
    if !IsIndividualDiscount(rows[i]) {
      PlainKeepsMoney(rows, RebuiltRows(rows), rows, 0, i);
    }
    if LinkedTarget(rows, rows[i]) < 0 && (forall m :: 0 <= m < |rows| ==> LinkedTarget(rows, rows[m]) != i) {
      PlainLeaves(rows, RebuiltRows(rows), rows, 0, i);
    }
  }

  // ---------------------------------------------------------------------------
  // The order of the resynchronisation

  /** With the individual discounts brought up to date first, the overall row
      the resynchronisation appends is priced from the other rows exactly as
      they end up, so pricing it once more only renews its id. */
  lemma ResyncPricesOverallLast(e: Editor)
    requires e.rate.Some?
    ensures var e' := Resync(e);
            var base := NonOverall(e'.rows);
            Total(NonOverall(RecalcIndividual(e.rows)), GrossCol) > 0.0 ==>
              && e'.rows == base + [OverallDiscountRow(e.nextId, e.rate.value, base)]
              && RecalcOverall(e').rows == base + [OverallDiscountRow(e'.nextId, e.rate.value, base)]
  {
    if Total(NonOverall(RecalcIndividual(e.rows)), GrossCol) > 0.0 {
      var e1 := e.(rows := RecalcIndividual(e.rows));
      AddOverallShape(e1, e.rate.value);
      var e' := Resync(e);
      var base := NonOverall(e'.rows);
      assert e'.rows == base + [OverallDiscountRow(e.nextId, e.rate.value, base)];
      AddOverallShape(e', e.rate.value);
    }
  }

  /** The overall-discount row is never taken for an individual discount:
      its name starts with a letter, theirs with a digit. */
  lemma OverallNotIndividual(id: RowId, rate: real, base: seq<Row>)
    ensures IsOverall(OverallDiscountRow(id, rate, base)) && !IsIndividualDiscount(OverallDiscountRow(id, rate, base))
  {
    var name := OverallLabel(rate);
    assert name[0] == 'D';
  }

  /** A table whose only linked discount, at position 1, points at the row
      above it: the walk rewrites that row against position 0 and keeps the
      money cells of the other two. */
  lemma RecalcPairWithOther(rows: seq<Row>)
    requires |rows| == 3 && rows[0].id != rows[1].id && rows[0].id != rows[2].id && rows[1].id != rows[2].id
    requires !IsIndividualDiscount(rows[0]) && !IsIndividualDiscount(rows[2])
    requires IsIndividualDiscount(rows[1]) && rows[1].discountAppliedFromRow == Some(rows[0].id)
    ensures var rows' := RecalcIndividual(rows);
            var pct := IntegerPercent(rows[1].itemInput);
            && pct.Some?
            && Num(rows'[1].grossAmount) == DiscountShare(Num(rows[0].grossAmount), pct.value as real)
            && MoneyOf(rows'[0]) == MoneyOf(rows[0]) && MoneyOf(rows'[2]) == MoneyOf(rows[2])
            && rows'[1].discountAppliedFromRow == rows[1].discountAppliedFromRow
            && SameSkeleton(rows, rows')
  {
    assert UniqueIds(rows);
    assert IndexOfId(rows, rows[0].id) == 0;
    assert LinkedTarget(rows, rows[1]) == 0;
    assert TargetsPlain(rows) by {
      forall i | 0 <= i < 3 && LinkedTarget(rows, rows[i]) >= 0
        ensures !IsIndividualDiscount(rows[LinkedTarget(rows, rows[i])])
      {
        assert i == 1;
      }
    }
    RecalcRebuildsDiscount(rows, 1);
    RecalcKeepsOtherRows(rows, 0);
    RecalcKeepsOtherRows(rows, 2);
    RecalcIndividualKeepsSkeleton(rows);
  }

  /** A product row priced at 100 with a 10% individual discount below it
      whose cells are not up to date yet, under a 10% overall rate. */
  function StaleExample(): Editor {
    var product := BlankRow(1).(itemInput := "Carpet", grossAmount := Val(100.0), individualDiscountRow := Some(2));
    var discount := BlankRow(2).(itemInput := "10% Discount", family := DiscountFamily, discountAppliedFromRow := Some(1));
    Editor([product, discount], None, Some(10.0), None, [], 3)
  }

  lemma TenPercent()
    ensures IntegerPercent("10% Discount") == Some(10)
  {
    assert "10% Discount" == "10" + "%" + " Discount";
    IntegerPercentOfLabel("10", " Discount");
    assert NatValue("10") == 10 by {
      assert "10"[..1] == "1";
    }
  }

  /** The overall row a 10% rate appends over rows whose gross total is a
      whole number of cents. */
  lemma OverallGrossAtTenPercent(e: Editor, total: real)
    requires e.rate == Some(10.0) && Total(NonOverall(e.rows), GrossCol) == total && total > 0.0
    requires IsCents(total / 10.0)
    ensures var rows' := RecalcOverall(e).rows;
            && rows' == NonOverall(e.rows) + [OverallDiscountRow(e.nextId, 10.0, NonOverall(e.rows))]
            && rows'[|rows'| - 1].grossAmount == Val(-(total / 10.0))
            && IsOverall(rows'[|rows'| - 1]) && !IsIndividualDiscount(rows'[|rows'| - 1])
  {
    AddOverallAppends(e, 10.0);
    OverallRowCells(e.nextId, 10.0, NonOverall(e.rows));
    OverallNotIndividual(e.nextId, 10.0, NonOverall(e.rows));
    assert total * 10.0 / 100.0 == total / 10.0;
    Round2OfCents(total / 10.0);
  }

  /** The first run on a table shaped like the example: the overall row
      takes 10 off the gross total of 100, the discount row then takes 10 off
      the product row. */
  lemma StaleFirstRun(e: Editor)
    requires |e.rows| == 2 && e.rate == Some(10.0)
    requires e.rows[0].id != e.rows[1].id && e.rows[0].id < e.nextId && e.rows[1].id < e.nextId
    requires !IsOverall(e.rows[0]) && !IsOverall(e.rows[1]) && !IsIndividualDiscount(e.rows[0])
    requires e.rows[1].itemInput == "10% Discount" && e.rows[1].discountAppliedFromRow == Some(e.rows[0].id)
    requires e.rows[0].grossAmount == Val(100.0) && e.rows[1].grossAmount == Blank
    ensures var e1 := ResyncAsWritten(e);
            && |e1.rows| == 3 && e1.nextId == e.nextId + 1 && e1.rate == Some(10.0)
            && e1.rows[0].id == e.rows[0].id && e1.rows[1].id == e.rows[1].id && e1.rows[2].id == e.nextId
            && !IsOverall(e1.rows[0]) && !IsOverall(e1.rows[1]) && IsOverall(e1.rows[2])
            && !IsIndividualDiscount(e1.rows[0])
            && e1.rows[1].discountAppliedFromRow == Some(e.rows[0].id) && e1.rows[1].itemInput == "10% Discount"
            && e1.rows[0].grossAmount == Val(100.0)
            && e1.rows[1].grossAmount == Val(-10.0)
            && e1.rows[2].grossAmount == Val(-10.0)
  {
    StaleOverallFirst(e);
    var rows1 := RecalcOverall(e).rows;
    TenPercent();
    RecalcPairWithOther(rows1);
    var rows2 := RecalcIndividual(rows1);
    assert Skeletons(rows1)[0] == Skeletons(rows2)[0];
    assert Skeletons(rows1)[1] == Skeletons(rows2)[1];
    assert Skeletons(rows1)[2] == Skeletons(rows2)[2];
    Round2OfCents(10.0);
  }

  /** The overall step of that first run. */
  lemma StaleOverallFirst(e: Editor)
    requires |e.rows| == 2 && e.rate == Some(10.0)
    requires !IsOverall(e.rows[0]) && !IsOverall(e.rows[1])
    requires e.rows[0].grossAmount == Val(100.0) && e.rows[1].grossAmount == Blank
    ensures var e1 := RecalcOverall(e);
            && e1.nextId == e.nextId + 1 && e1.rate == e.rate && |e1.rows| == 3
            && e1.rows == [e.rows[0], e.rows[1], e1.rows[2]]
            && e1.rows[2].id == e.nextId && IsOverall(e1.rows[2]) && !IsIndividualDiscount(e1.rows[2])
            && e1.rows[2].grossAmount == Val(-10.0)
  {
    var rows0 := e.rows;
    NonOverallWithoutOverall(rows0);
    assert Total(rows0[..1], GrossCol) == 100.0 by {
      assert rows0[..1][..0] == [];
    }
    assert Total(rows0, GrossCol) == 100.0;
    assert IsCents(100.0 / 10.0) by {
      assert 100.0 / 10.0 * 100.0 == 1000.0;
    }
    OverallGrossAtTenPercent(e, 100.0);
    OverallRowCells(e.nextId, 10.0, rows0);
  }

  /** The second run on any table shaped like the first run's result. */
  lemma StaleSecondRun(e1: Editor)
    requires |e1.rows| == 3 && e1.rate == Some(10.0)
    requires e1.rows[0].id != e1.rows[1].id && e1.rows[0].id != e1.rows[2].id && e1.rows[1].id != e1.rows[2].id
    requires e1.nextId != e1.rows[0].id && e1.nextId != e1.rows[1].id
    requires !IsOverall(e1.rows[0]) && !IsOverall(e1.rows[1]) && IsOverall(e1.rows[2])
    requires !IsIndividualDiscount(e1.rows[0]) && IsIndividualDiscount(e1.rows[1])
    requires e1.rows[1].itemInput == "10% Discount" && e1.rows[1].discountAppliedFromRow == Some(e1.rows[0].id)
    requires e1.rows[0].grossAmount == Val(100.0) && e1.rows[1].grossAmount == Val(-10.0)
    ensures Total(NonOverall(e1.rows), GrossCol) == 90.0
    ensures |ResyncAsWritten(e1).rows| == 3 && ResyncAsWritten(e1).rows[2].grossAmount == Val(-9.0)
  {
    var base := e1.rows[..2];
    AppendOverall(base, e1.rows[2]);
    assert base + [e1.rows[2]] == e1.rows;
    assert Total(base[..1], GrossCol) == 100.0 by {
      assert base[..1][..0] == [];
    }
    assert Total(base, GrossCol) == 90.0;
    assert NonOverall(e1.rows) == base;
    assert IsCents(90.0 / 10.0) by {
      assert 90.0 / 10.0 * 100.0 == 900.0;
    }
    OverallGrossAtTenPercent(e1, 90.0);
    var rows3 := RecalcOverall(e1).rows;
    assert rows3 == [e1.rows[0], e1.rows[1], rows3[2]];
    RecalcPairWithOther(rows3);
    TenPercent();
  }

  /** In the order the component runs it, the resynchronisation prices the
      overall row from the stale discount cell: it takes 10 off the gross
      total of 100, although the rows it ends up with total 90; a second run
      then changes it to 9. */
  lemma ResyncAsWrittenPricesStale()
    ensures var e1 := ResyncAsWritten(StaleExample());
            && |e1.rows| == 3 && IsOverall(e1.rows[2])
            && e1.rows[2].grossAmount == Val(-10.0)
            && Total(NonOverall(e1.rows), GrossCol) == 90.0
            && |ResyncAsWritten(e1).rows| == 3
            && ResyncAsWritten(e1).rows[2].grossAmount == Val(-9.0)
  {
    StaleFirstRun(StaleExample());
    StaleSecondRun(ResyncAsWritten(StaleExample()));
  }
}

=== FILE: row_table.dfy ===
/**
 * The row-table transitions behind the editor's buttons: selecting a row,
 * toggling it between edit and read mode, cancelling an edit, inserting a
 * blank row and removing a row (with the discount row it owns).
 *
 * Each handler's deferred step is not part of the transition: after a
 * toggle the caller runs `RecalcOverall`, after an insert or a removal it
 * runs `ResyncAsWritten`, in the component's order (see the `...Settled`
 * functions).
 */
module RowTable {
  import opened Values
  import opened Text
  import opened LineItems
  import opened Calculator
  import opened Discounts

  /** handleRowSelection: exactly the row at `i` is flagged selected. */
  function Select(e: Editor, i: nat): (e': Editor)
    ensures |e'.rows| == |e.rows| && e'.selected == Some(i)
    ensures forall j :: 0 <= j < |e.rows| ==> e'.rows[j] == e.rows[j].(isSelected := j == i)
  {
    e.(rows := seq(|e.rows|, j requires 0 <= j < |e.rows| => e.rows[j].(isSelected := j == i)),
       selected := Some(i))
  }

  /** The discount row below a selected row, refreshed against it: its
      description names both rows and its money cells take the percentage
      off the selected row's cells, unrounded. */
  function RefreshedDiscount(next: Row, sel: Row, p: nat): Row {
    var pr := p as real;
    next.(description := next.itemInput + " applied to: " + sel.itemInput,
          grossAmount := FromNumber(-(Num(sel.grossAmount) * pr) / 100.0),
          rate := FromNumber(-(Num(sel.rate) * pr) / 100.0),
          unitPriceSub := FromNumber(-(Num(sel.unitPriceSub) * pr) / 100.0),
          amount := FromNumber(-(Num(sel.amount) * pr) / 100.0),
          taxAmount := FromNumber(-(Num(sel.taxAmount) * pr) / 100.0))
  }

  /** Whether the toggle stops after refreshing the row below: that row is
      an individual discount whose name carries no percentage. */
  predicate StopsAtDiscountBelow(rows: seq<Row>, s: nat) {
    s + 1 < |rows| && IsIndividualDiscount(rows[s + 1]) && IntegerPercent(rows[s + 1].itemInput).None?
  }

  /** The table once an individual-discount row just below the selected row
      has been refreshed against it; no other row changes, and the refreshed
      row keeps its id, name, family and location. */
  function RefreshBelow(rows: seq<Row>, s: nat): (rows': seq<Row>)
    requires s < |rows|
    ensures |rows'| == |rows|
    ensures forall j :: 0 <= j < |rows| && j != s + 1 ==> rows'[j] == rows[j]
    ensures s + 1 < |rows| ==>
              rows'[s + 1].id == rows[s + 1].id && rows'[s + 1].itemInput == rows[s + 1].itemInput
              && rows'[s + 1].family == rows[s + 1].family && rows'[s + 1].location == rows[s + 1].location
  {
    var sel := rows[s];
    if s + 1 < |rows| && IsIndividualDiscount(rows[s + 1]) then
      var next := rows[s + 1];
      match IntegerPercent(next.itemInput)
      case None => rows[s + 1 := next.(description := next.itemInput + " applied to: " + sel.itemInput)]
      case Some(p) => rows[s + 1 := RefreshedDiscount(next, sel, p)]
    else rows
  }

  /** handleAddRow: toggles the selected row between edit and read mode and,
      when it enters edit mode, keeps a copy of it for cancel. An
      individual-discount row just below is refreshed first; should its name
      carry no percentage, the handler stops after rewriting its description.
      A selection past the table makes the handler fail before any change. */
  function ToggleEdit(e: Editor): (e': Editor)
    ensures |e'.rows| == |e.rows| && e'.nextId == e.nextId && e'.selected == e.selected
    ensures e'.ledger == e.ledger && e'.rate == e.rate
  {
    match e.selected
    case None => e
    case Some(s) =>
      if s >= |e.rows| then e
      else
        var sel := e.rows[s];
        var rows1 := RefreshBelow(e.rows, s);
        if StopsAtDiscountBelow(e.rows, s) then e.(rows := rows1)
        else
          var entering := sel.mode == Read;
          e.(rows := rows1[s := sel.(mode := if entering then Edit else Read)],
             snapshot := if entering then Some(sel) else e.snapshot)
  }

  /** handleCancel as the source writes it: the kept copy, in read mode,
      replaces whichever row is selected now. */
  function CancelAsWritten(e: Editor): (e': Editor)
    ensures |e'.rows| == |e.rows|
  {
    match (e.selected, e.snapshot)
    case (Some(s), Some(c)) => if s < |e.rows| then e.(rows := e.rows[s := c.(mode := Read)]) else e
    case _ => e
  }

  /** handleCancel, restoring the kept copy only into the row it was taken
      from. */
  function Cancel(e: Editor): (e': Editor)
    ensures |e'.rows| == |e.rows|
    ensures forall j :: 0 <= j < |e.rows| ==> e'.rows[j].id == e.rows[j].id
  {
    match (e.selected, e.snapshot)
    case (Some(s), Some(c)) =>
      if s < |e.rows| && e.rows[s].id == c.id then e.(rows := e.rows[s := c.(mode := Read)]) else e
    case _ => e
  }

  /** Where handleInsert puts the new row: after the selection, but never
      after the overall-discount row. */
  function InsertIndex(rows: seq<Row>, s: nat): (k: nat)
    ensures FirstOverallIndex(rows) < 0 || s + 1 <= FirstOverallIndex(rows) ==> k == s + 1
    ensures 0 <= FirstOverallIndex(rows) < s + 1 ==> k == FirstOverallIndex(rows)
    ensures forall j :: 0 <= j < k && j < |rows| ==> !IsOverall(rows[j])
  {
    var ov := FirstOverallIndex(rows);
    if ov != -1 && s + 1 > ov then ov else s + 1
  }

  function Deselected(rows: seq<Row>): (rows': seq<Row>)
    ensures |rows'| == |rows|
    ensures forall j :: 0 <= j < |rows| ==> rows'[j] == rows[j].(isSelected := false)
  {
    seq(|rows|, j requires 0 <= j < |rows| => rows[j].(isSelected := false))
  }

  /** handleInsert: a blank row with the next id goes in at the insert index
      (the slices stop at the table's end), every row is deselected, the
      selection moves to the insert index and the blank row is kept for
      cancel. */
  function Insert(e: Editor): (e': Editor)
    ensures e.selected.None? ==> e' == e
    ensures e.selected.Some? ==> |e'.rows| == |e.rows| + 1 && e'.nextId == e.nextId + 1
  {
    match e.selected
    case None => e
    case Some(s) =>
      var k := InsertIndex(e.rows, s);
      var pos := if k <= |e.rows| then k else |e.rows|;
      var rows := Deselected(e.rows);
      e.(rows := rows[..pos] + [BlankRow(e.nextId)] + rows[pos..],
         selected := Some(k),
         snapshot := Some(BlankRow(e.nextId)),
         nextId := e.nextId + 1)
  }

  /** The ledger after removing `r`: its external id, when it has one. */
  function Noted(ledger: seq<string>, r: Row): (ledger': seq<string>)
    ensures Persisted(r) ==> ledger' == ledger + [r.salesforceId.value]
    ensures !Persisted(r) ==> ledger' == ledger
  {
    if Persisted(r) then ledger + [r.salesforceId.value] else ledger
  }

  /** The rejection of handleRemove: a product row may not be removed while
      an individual-discount row follows it. */
  predicate DiscountBelow(rows: seq<Row>, s: nat) {
    s + 1 < |rows| && IsIndividualDiscount(rows[s + 1]) && !IsIndividualDiscount(rows[s])
  }

  /** The table, selection and ledger once the discount row owned by the
      selected row is gone (when it has one that is still in the table). */
  function DropOwnedDiscount(rows: seq<Row>, s: nat, ledger: seq<string>): (seq<Row>, nat, seq<string>)
    requires s < |rows|
  {
    var sel := rows[s];
    if sel.individualDiscountRow.None? then (rows, s, ledger)
    else
      var k := IndexOfId(rows, sel.individualDiscountRow.value);
      if k < 0 then (rows, s, ledger)
      else (RemoveAt(rows, k), if k < s then s - 1 else s, Noted(ledger, rows[k]))
  }

  /** handleRemove. No selection or a single row: nothing happens; a
      selection past the table makes the handler fail before any change. The
      selected row's external id is noted before the rejection is checked,
      so a rejected removal still notes it. */
  function Remove(e: Editor): (e': Editor)
    ensures e'.nextId == e.nextId && e'.snapshot == e.snapshot
    ensures e.selected.None? || |e.rows| == 1 ==> e' == e
    ensures |e'.rows| <= |e.rows|
  {
    match e.selected
    case None => e
    case Some(s) =>
      if |e.rows| == 1 || s >= |e.rows| then e
      else
        var sel := e.rows[s];
        var ledger := Noted(e.ledger, sel);
        if DiscountBelow(e.rows, s) then e.(ledger := ledger)
        else
          var (rows1, s1, ledger1) := DropOwnedDiscount(e.rows, s, ledger);
          var e1 := e.(rows := RemoveAt(rows1, s1), selected := Some(if s1 >= 1 then s1 - 1 else 0), ledger := ledger1);
          if IsOverall(sel) then e1.(rate := None) else e1
  }

  /** Whether a handler returns before scheduling its deferred step: no
      selection, or a selection past the table (the handler fails first). */
  predicate NoTarget(e: Editor) {
    e.selected.None? || e.selected.value >= |e.rows|
  }

  /** The toggle followed by its deferred overall-discount refresh, which is
      scheduled only when the toggle went through. */
  function ToggleEditSettled(e: Editor): (e': Editor)
    ensures NoTarget(e) ==> e' == e
  {
    if NoTarget(e) || StopsAtDiscountBelow(e.rows, e.selected.value) then ToggleEdit(e)
    else RecalcOverall(ToggleEdit(e))
  }

  /** An insert followed by its deferred resynchronisation, scheduled
      whenever there is a selection. */
  function InsertSettled(e: Editor): (e': Editor)
    ensures e.selected.None? ==> e' == e
  {
    if e.selected.None? then e else ResyncAsWritten(Insert(e))
  }

  /** A removal followed by its deferred resynchronisation, scheduled once
      the handler is past its early returns, rejection included. */
  function RemoveSettled(e: Editor): (e': Editor)
    ensures NoTarget(e) || |e.rows| == 1 ==> e' == e
  {
    if NoTarget(e) || |e.rows| == 1 then e else ResyncAsWritten(Remove(e))
  }

  /** handleInputChange: the edit, followed by the deferred
      resynchronisation of both kinds of discount when the edited cell is
      the amount, gross amount, quantity, rate or unit price. Any other edit
      adds no row and uses no id. */
  function UpdateSettled(e: Editor, id: RowId, input: Input): (e': Editor)
    ensures e'.selected == e.selected && e'.rate == e.rate && e'.ledger == e.ledger && e'.snapshot == e.snapshot
    ensures e'.nextId >= e.nextId
    ensures !TriggersResync(input) ==> |e'.rows| == |e.rows| && e'.nextId == e.nextId
  {
    var e1 := UpdateTableRow(e, id, input);
    if TriggersResync(input) then ResyncAsWritten(e1) else e1
  }
}

=== FILE: row_table_facts.dfy ===
/**
 * What the row-table transitions guarantee: the toggle takes the cancel copy
 * exactly when a row enters edit mode, cancelling an edit restores the row,
 * an insert adds one blank row that never lands after the overall-discount
 * row, a removal takes the owned discount row with it and notes persisted
 * ids, and every transition keeps ids unique and fresh and the overall
 * discount last.
 */
module RowTableFacts {
  import opened Values
  import opened Text
  import opened LineItems
  import opened Calculator
  import opened Discounts
  import opened DiscountFacts
  import opened RowTable

  // ---------------------------------------------------------------------------
  // Positions after removing one row

  lemma RemoveAtShifts(rows: seq<Row>, i: nat)
    requires i < |rows|
    ensures forall j :: 0 <= j < |RemoveAt(rows, i)| ==>
              RemoveAt(rows, i)[j] == (if j < i then rows[j] else rows[j + 1])
  {
    var r := RemoveAt(rows, i);
    forall j | 0 <= j < |r|
      ensures r[j] == (if j < i then rows[j] else rows[j + 1])
    {
      if j < i {
        assert r[j] == rows[..i][j];
      } else {
        assert r[j] == rows[i + 1..][j - i];
      }
    }
  }

  /** Positions after putting `x` in at `pos`. */
  lemma InsertAtShifts(a: seq<Row>, pos: nat, x: Row)
    requires pos <= |a|
    ensures |a[..pos] + [x] + a[pos..]| == |a| + 1
    ensures forall j :: 0 <= j <= |a| ==>
              (a[..pos] + [x] + a[pos..])[j] == (if j < pos then a[j] else if j == pos then x else a[j - 1])
  {
    var r := a[..pos] + [x] + a[pos..];
    forall j | 0 <= j <= |a|
      ensures r[j] == (if j < pos then a[j] else if j == pos then x else a[j - 1])
    {
      if j < pos {
        assert r[j] == a[..pos][j];
      } else if j > pos {
        assert r[j] == a[pos..][j - pos - 1];
      }
    }
  }

  /** Removing a row keeps ids unique and fresh and the overall discount last. */
  lemma RemoveAtKeepsInvariants(rows: seq<Row>, i: nat, next: RowId)
    ensures UniqueIds(rows) ==> UniqueIds(RemoveAt(rows, i))
    ensures IdsBelow(rows, next) ==> IdsBelow(RemoveAt(rows, i), next)
    ensures OverallLast(rows) ==> OverallLast(RemoveAt(rows, i))
  {
    if i < |rows| {
      RemoveAtShifts(rows, i);
    }
  }

  /** Rewriting rows in place without touching ids, families or locations
      keeps the invariants. */
  lemma SameIdsKeepInvariants(a: seq<Row>, b: seq<Row>, next: RowId)
    requires |a| == |b|
    requires forall j :: 0 <= j < |a| ==> a[j].id == b[j].id
    ensures UniqueIds(a) ==> UniqueIds(b)
    ensures IdsBelow(a, next) ==> IdsBelow(b, next)
  {
  }

  // ---------------------------------------------------------------------------
  // Toggle and cancel

  /** The toggle flips the selected row's mode; it keeps a copy of the row,
      as it was, exactly when the row enters edit mode; and it touches no
      other row than the individual-discount row just below. */
  lemma ToggleEditFlips(e: Editor, s: nat)
    requires e.selected == Some(s) && s < |e.rows| && !StopsAtDiscountBelow(e.rows, s)
    ensures var e' := ToggleEdit(e);
            && e'.rows[s] == e.rows[s].(mode := if e.rows[s].mode == Read then Edit else Read)
            && (e.rows[s].mode == Read ==> e'.snapshot == Some(e.rows[s]))
            && (e.rows[s].mode == Edit ==> e'.snapshot == e.snapshot)
            && (forall j :: 0 <= j < |e.rows| && j != s && j != s + 1 ==> e'.rows[j] == e.rows[j])
            && (s + 1 < |e.rows| ==> e'.rows[s + 1] == RefreshBelow(e.rows, s)[s + 1])
  {
  }

  /** The percentage is always there for the products the table knows as
      individual discounts, so the toggle never stops half-way. */
  lemma ToggleEditNeverStops(rows: seq<Row>, s: nat)
    ensures !StopsAtDiscountBelow(rows, s)
  {
    if s + 1 < |rows| && IsIndividualDiscount(rows[s + 1]) {
      DiscountNamesHavePercent(rows[s + 1].itemInput);
    }
  }

  /** The individual-discount row below the selection is refreshed against
      it: the percentage of each money cell, negated and not rounded, and a
      description naming both rows. */
  lemma RefreshBelowCells(rows: seq<Row>, s: nat)
    requires s + 1 < |rows| && IsIndividualDiscount(rows[s + 1])
    ensures var p := IntegerPercent(rows[s + 1].itemInput);
            var d := RefreshBelow(rows, s)[s + 1];
            && p.Some?
            && d.description == rows[s + 1].itemInput + " applied to: " + rows[s].itemInput
            && Num(d.grossAmount) == -(Num(rows[s].grossAmount) * p.value as real) / 100.0
            && Num(d.amount) == -(Num(rows[s].amount) * p.value as real) / 100.0
            && Num(d.taxAmount) == -(Num(rows[s].taxAmount) * p.value as real) / 100.0
            && Num(d.rate) == -(Num(rows[s].rate) * p.value as real) / 100.0
            && Num(d.unitPriceSub) == -(Num(rows[s].unitPriceSub) * p.value as real) / 100.0
  {
    ToggleEditNeverStops(rows, s);
  }

  /** The toggle keeps ids and the overall discount last. */
  lemma ToggleEditKeepsInvariants(e: Editor)
    requires IdsFresh(e) && OverallLast(e.rows)
    ensures IdsFresh(ToggleEdit(e)) && OverallLast(ToggleEdit(e).rows)
  {
    var e' := ToggleEdit(e);
    if e.selected.Some? && e.selected.value < |e.rows| {
      ToggleEditKeepsRowKinds(e, e.selected.value);
    }
    assert forall j :: 0 <= j < |e.rows| ==> e'.rows[j].id == e.rows[j].id && (IsOverall(e'.rows[j]) <==> IsOverall(e.rows[j]));
  }

  /** Every row keeps its id and its kind across the toggle. */
  lemma ToggleEditKeepsRowKinds(e: Editor, s: nat)
    requires e.selected == Some(s) && s < |e.rows|
    ensures var e' := ToggleEdit(e);
            forall j :: 0 <= j < |e.rows| ==> e'.rows[j].id == e.rows[j].id && (IsOverall(e'.rows[j]) <==> IsOverall(e.rows[j]))
  {
    var e' := ToggleEdit(e);
    ToggleEditNeverStops(e.rows, s);
    ToggleEditFlips(e, s);
    forall j | 0 <= j < |e.rows|
      ensures e'.rows[j].id == e.rows[j].id && (IsOverall(e'.rows[j]) <==> IsOverall(e.rows[j]))
    {
      if j == s + 1 {
        assert e'.rows[j] == RefreshBelow(e.rows, s)[j];
      }
    }
  }

  /** Entering edit mode, editing the row and cancelling gives back the row
      exactly as it was. */
  lemma EditThenCancelRestores(e: Editor, s: nat, input: Input)
    requires UniqueIds(e.rows) && e.selected == Some(s) && s < |e.rows| && e.rows[s].mode == Read
    ensures var e1 := ToggleEdit(e);
            var e2 := UpdateTableRow(e1, e.rows[s].id, input);
            Cancel(e2).rows[s] == e.rows[s]
  {
    ToggleEditNeverStops(e.rows, s);
    ToggleEditFlips(e, s);
  }

  /** Cancelling keeps ids unique and fresh. */
  lemma CancelKeepsIds(e: Editor)
    requires IdsFresh(e)
    ensures IdsFresh(Cancel(e))
  {
    SameIdsKeepInvariants(e.rows, Cancel(e).rows, e.nextId);
  }

  /** The source's cancel, after the user enters edit mode on the first row
      and then selects the second: the copy of the first row overwrites the
      second, and the table holds the first row's id twice. */
  lemma CancelAsWrittenDuplicatesRow()
    ensures var e0 := Editor([BlankRow(1).(mode := Read), BlankRow(2).(mode := Read)], None, None, None, [], 3);
            var e := CancelAsWritten(Select(ToggleEdit(Select(e0, 0)), 1));
            && UniqueIds(e0.rows)
            && |e.rows| == 2 && e.rows[0].id == 1 && e.rows[1].id == 1
            && !UniqueIds(e.rows)
  {
    var e0 := Editor([BlankRow(1).(mode := Read), BlankRow(2).(mode := Read)], None, None, None, [], 3);
    var e1 := Select(e0, 0);
    var e2 := ToggleEdit(e1);
    assert e2.snapshot == Some(e1.rows[0]);
    var e3 := Select(e2, 1);
    assert e3.rows[1].id == 2;
  }

  /** The corrected cancel in the same flow leaves the second row alone. */
  lemma CancelLeavesOtherRow()
    ensures var e0 := Editor([BlankRow(1).(mode := Read), BlankRow(2).(mode := Read)], None, None, None, [], 3);
            var e3 := Select(ToggleEdit(Select(e0, 0)), 1);
            Cancel(e3) == e3
  {
    var e0 := Editor([BlankRow(1).(mode := Read), BlankRow(2).(mode := Read)], None, None, None, [], 3);
    var e2 := ToggleEdit(Select(e0, 0));
    assert e2.snapshot == Some(Select(e0, 0).rows[0]);
  }

  // ---------------------------------------------------------------------------
  // Insert

  /** An insert with a selection adds exactly one blank edit-mode row with
      the next id, at the insert index clamped to the table's end; every
      other row keeps its order and is deselected; the selection moves to
      the insert index and the blank row is kept for cancel. */
  lemma InsertShape(e: Editor, s: nat)
    requires e.selected == Some(s)
    ensures var e' := Insert(e);
            var k := InsertIndex(e.rows, s);
            var pos := if k <= |e.rows| then k else |e.rows|;
            && e'.rows[pos] == BlankRow(e.nextId) && e'.rows[pos].mode == Edit
            && (forall j :: 0 <= j < pos ==> e'.rows[j] == e.rows[j].(isSelected := false))
            && (forall j :: pos <= j < |e.rows| ==> e'.rows[j + 1] == e.rows[j].(isSelected := false))
            && e'.selected == Some(k) && e'.snapshot == Some(BlankRow(e.nextId))
  {
    var k := InsertIndex(e.rows, s);
    var pos := if k <= |e.rows| then k else |e.rows|;
    var rows := Deselected(e.rows);
    InsertAtShifts(rows, pos, BlankRow(e.nextId));
    assert Insert(e).rows == rows[..pos] + [BlankRow(e.nextId)] + rows[pos..];
  }

  /** Inserting a fresh non-overall row where no overall-discount row comes
      before it keeps ids unique and below the next id, and that row last. */
  lemma InsertAtKeepsInvariants(a: seq<Row>, pos: nat, x: Row, next: RowId)
    requires pos <= |a| && UniqueIds(a) && IdsBelow(a, next) && OverallLast(a)
    requires x.id == next && !IsOverall(x)
    requires forall j :: 0 <= j < pos ==> !IsOverall(a[j])
    ensures var rows' := a[..pos] + [x] + a[pos..];
            UniqueIds(rows') && IdsBelow(rows', next + 1) && OverallLast(rows')
  {
    InsertAtShifts(a, pos, x);
    var rows' := a[..pos] + [x] + a[pos..];
    forall j | 0 <= j < |rows'|
      ensures rows'[j].id <= next && (rows'[j].id == next <==> j == pos)
      ensures IsOverall(rows'[j]) ==> j == |rows'| - 1
    {
      if j > pos {
        assert rows'[j] == a[j - 1];
      } else if j < pos {
        assert rows'[j] == a[j];
      }
    }
    forall i, j | 0 <= i < j < |rows'|
      ensures rows'[i].id != rows'[j].id
    {
      if i != pos && j != pos {
        var i0 := if i < pos then i else i - 1;
        var j0 := if j < pos then j else j - 1;
        assert rows'[i] == a[i0] && rows'[j] == a[j0] && i0 < j0;
      }
    }
  }

  /** The inserted row never lands after the overall-discount row, so that
      row stays last; ids stay unique and fresh. */
  lemma InsertKeepsInvariants(e: Editor)
    requires IdsFresh(e) && OverallLast(e.rows)
    ensures IdsFresh(Insert(e)) && OverallLast(Insert(e).rows)
  {
    if e.selected.Some? {
      var k := InsertIndex(e.rows, e.selected.value);
      var pos := if k <= |e.rows| then k else |e.rows|;
      var a := Deselected(e.rows);
      SameIdsKeepInvariants(e.rows, a, e.nextId);
      assert forall j :: 0 <= j < pos ==> !IsOverall(a[j]);
      InsertAtKeepsInvariants(a, pos, BlankRow(e.nextId), e.nextId);
    }
  }

  // ---------------------------------------------------------------------------
  // Remove

  /** The rejection: the table is unchanged, but a persisted selected row's
      id has been noted already. */
  lemma RemoveRejected(e: Editor, s: nat)
    requires e.selected == Some(s) && |e.rows| != 1 && s < |e.rows| && DiscountBelow(e.rows, s)
    ensures Remove(e).rows == e.rows && Remove(e).selected == e.selected
    ensures Remove(e).ledger == Noted(e.ledger, e.rows[s])
  {
  }

  /** A row that owns no discount row is removed alone; the selection moves
      up by one (not below 0) and a persisted id is noted. */
  lemma RemoveAlone(e: Editor, s: nat)
    requires e.selected == Some(s) && |e.rows| != 1 && s < |e.rows| && !DiscountBelow(e.rows, s)
    requires e.rows[s].individualDiscountRow.None?
    ensures var e' := Remove(e);
            && |e'.rows| == |e.rows| - 1
            && (forall j :: 0 <= j < |e'.rows| ==> e'.rows[j] == (if j < s then e.rows[j] else e.rows[j + 1]))
            && e'.selected == Some(if s >= 1 then s - 1 else 0)
            && e'.ledger == Noted(e.ledger, e.rows[s])
            && (IsOverall(e.rows[s]) ==> e'.rate.None?)
            && (!IsOverall(e.rows[s]) ==> e'.rate == e.rate)
  {
    RemoveAtShifts(e.rows, s);
  }

  /** A row that owns a discount row elsewhere in the table is removed
      together with it: the owned row goes first, then the selected row at
      its shifted position; two rows fewer, neither id left, the others in
      their order; the selection moves up by one from the shifted position
      (not below 0); both persisted ids are noted, the selected row's first. */
  lemma RemoveWithOwnedDiscount(e: Editor, s: nat)
    requires UniqueIds(e.rows)
    requires e.selected == Some(s) && |e.rows| != 1 && s < |e.rows| && !DiscountBelow(e.rows, s)
    requires e.rows[s].individualDiscountRow.Some?
    requires var k := IndexOfId(e.rows, e.rows[s].individualDiscountRow.value); k >= 0 && k != s
    ensures var e' := Remove(e);
            var k := IndexOfId(e.rows, e.rows[s].individualDiscountRow.value);
            && |e'.rows| == |e.rows| - 2
            && (forall j :: 0 <= j < |e'.rows| ==> e'.rows[j] in e.rows && e'.rows[j].id != e.rows[s].id && e'.rows[j].id != e.rows[k].id)
            && e'.ledger == Noted(Noted(e.ledger, e.rows[s]), e.rows[k])
            && var s1 := if k < s then s - 1 else s;
               && e'.rows == RemoveAt(RemoveAt(e.rows, k), s1)
               && e'.selected == Some(if s1 >= 1 then s1 - 1 else 0)
  {
    var k := IndexOfId(e.rows, e.rows[s].individualDiscountRow.value);
    var s1 := if k < s then s - 1 else s;
    RemoveBothLeavesNeither(e.rows, s, k);
    assert Remove(e).rows == RemoveAt(RemoveAt(e.rows, k), s1);
  }

  /** Removing the row at `k` and then the row that was at `s` leaves two
      rows fewer, all from the table, with neither of the two ids (ids being
      unique). */
  lemma RemoveBothLeavesNeither(rows: seq<Row>, s: nat, k: nat)
    requires UniqueIds(rows) && s < |rows| && k < |rows| && k != s
    ensures var rows2 := RemoveAt(RemoveAt(rows, k), if k < s then s - 1 else s);
            && |rows2| == |rows| - 2
            && forall j :: 0 <= j < |rows2| ==> rows2[j] in rows && rows2[j].id != rows[s].id && rows2[j].id != rows[k].id
  {
    var rows1 := RemoveAt(rows, k);
    var s1 := if k < s then s - 1 else s;
    RemoveAtShifts(rows, k);
    assert rows1[s1] == rows[s];
    RemoveAtShifts(rows1, s1);
    var rows2 := RemoveAt(rows1, s1);
    forall j | 0 <= j < |rows2|
      ensures rows2[j] in rows && rows2[j].id != rows[s].id && rows2[j].id != rows[k].id
    {
      var j1 := if j < s1 then j else j + 1;
      assert rows2[j] == rows1[j1] && j1 != s1;
      var j0 := if j1 < k then j1 else j1 + 1;
      assert rows1[j1] == rows[j0] && j0 != k && j0 != s;
    }
  }

  /** Removing the overall-discount row clears the overall rate. */
  lemma RemoveOverallClearsRate(e: Editor, s: nat)
    requires e.selected == Some(s) && |e.rows| != 1 && s < |e.rows| && !DiscountBelow(e.rows, s)
    requires IsOverall(e.rows[s])
    ensures Remove(e).rate.None?
  {
  }

  /** Links are written only when a discount is attached, never cleared:
      removing an individual-discount row on its own leaves the product row
      it was applied to (at its shifted position) still naming the removed
      row's id, which no row of the table carries any more. */
  lemma RemoveDiscountLeavesDanglingLink(e: Editor, s: nat, t: nat)
    requires UniqueIds(e.rows)
    requires e.selected == Some(s) && |e.rows| != 1 && s < |e.rows|
    requires IsIndividualDiscount(e.rows[s]) && e.rows[s].individualDiscountRow.None?
    requires t < |e.rows| && t != s && e.rows[t].individualDiscountRow == Some(e.rows[s].id)
    ensures var e' := Remove(e);
            var t' := if t < s then t else t - 1;
            && t' < |e'.rows|
            && e'.rows[t'].id == e.rows[t].id
            && e'.rows[t'].individualDiscountRow == Some(e.rows[s].id)
            && forall j :: 0 <= j < |e'.rows| ==> e'.rows[j].id != e.rows[s].id
  {
    assert !DiscountBelow(e.rows, s);
    RemoveAlone(e, s);
  }

  /** Every removal keeps ids unique and fresh and the overall discount last. */
  lemma RemoveKeepsInvariants(e: Editor)
    requires IdsFresh(e) && OverallLast(e.rows)
    ensures IdsFresh(Remove(e)) && OverallLast(Remove(e).rows)
  {
    if e.selected.Some? && |e.rows| != 1 && e.selected.value < |e.rows| && !DiscountBelow(e.rows, e.selected.value) {
      var s := e.selected.value;
      var sel := e.rows[s];
      var (rows1, s1, ledger1) := DropOwnedDiscount(e.rows, s, Noted(e.ledger, sel));
      if sel.individualDiscountRow.Some? && IndexOfId(e.rows, sel.individualDiscountRow.value) >= 0 {
        RemoveAtKeepsInvariants(e.rows, IndexOfId(e.rows, sel.individualDiscountRow.value), e.nextId);
      }
      RemoveAtKeepsInvariants(rows1, s1, e.nextId);
    }
  }

  // ---------------------------------------------------------------------------
  // Whole handlers

  /** The toggle with its deferred overall-discount refresh keeps the
      invariants. */
  lemma ToggleEditSettledKeepsInvariants(e: Editor)
    requires IdsFresh(e) && OverallLast(e.rows)
    ensures IdsFresh(ToggleEditSettled(e)) && OverallLast(ToggleEditSettled(e).rows)
  {
    ToggleEditKeepsInvariants(e);
    var t := ToggleEdit(e);
    if t.rate.Some? {
      AddOverallKeepsInvariants(t, t.rate.value);
    }
  }

  /** An insert with its deferred resynchronisation keeps the invariants. */
  lemma InsertSettledKeepsInvariants(e: Editor)
    requires IdsFresh(e) && OverallLast(e.rows)
    ensures IdsFresh(InsertSettled(e)) && OverallLast(InsertSettled(e).rows)
  {
    InsertKeepsInvariants(e);
    ResyncAsWrittenKeepsInvariants(Insert(e));
  }

  /** A removal with its deferred resynchronisation keeps the invariants. */
  lemma RemoveSettledKeepsInvariants(e: Editor)
    requires IdsFresh(e) && OverallLast(e.rows)
    ensures IdsFresh(RemoveSettled(e)) && OverallLast(RemoveSettled(e).rows)
  {
    RemoveKeepsInvariants(e);
    ResyncAsWrittenKeepsInvariants(Remove(e));
  }

  /** Selecting a row keeps the invariants: it only moves the selection flag. */
  lemma SelectKeepsInvariants(e: Editor, i: nat)
    requires IdsFresh(e) && OverallLast(e.rows)
    ensures IdsFresh(Select(e, i)) && OverallLast(Select(e, i).rows)
  {
    SameIdsKeepInvariants(e.rows, Select(e, i).rows, e.nextId);
    assert forall j :: 0 <= j < |e.rows| ==> (IsOverall(Select(e, i).rows[j]) <==> IsOverall(e.rows[j]));
  }

  /** A cell edit with its deferred resynchronisation keeps ids unique and
      fresh: no edit changes an id. It keeps the overall-discount row last
      as long as the edit does not type the overall location into a row;
      only a location edit moves a row to or from that location. */
  lemma UpdateSettledKeepsInvariants(e: Editor, id: RowId, input: Input)
    requires IdsFresh(e)
    ensures IdsFresh(UpdateSettled(e, id, input))
    ensures OverallLast(e.rows) && !(input.SetLocation? && input.text == OverallLocation) ==>
              OverallLast(UpdateSettled(e, id, input).rows)
  {
    var e1 := UpdateTableRow(e, id, input);
    SameIdsKeepInvariants(e.rows, e1.rows, e.nextId);
    if OverallLast(e.rows) && !(input.SetLocation? && input.text == OverallLocation) {
      forall j | 0 <= j < |e.rows| && IsOverall(e1.rows[j])
        ensures IsOverall(e.rows[j])
      {
        if e.rows[j].id == id {
          assert e1.rows[j] == UpdateRow(e.rows[j], input);
        }
      }
    }
    if TriggersResync(input) {
      ResyncAsWrittenKeepsInvariants(e1);
    }
  }

  /** Typing the overall location into a discount-family row that sits
      before the last row makes it count as an overall-discount row that is
      not last: the exception in UpdateSettledKeepsInvariants is real. */
  lemma LocationEditMovesOverall(e: Editor, k: nat)
    requires k + 1 < |e.rows| && e.rows[k].family == DiscountFamily
    ensures !OverallLast(UpdateSettled(e, e.rows[k].id, SetLocation(OverallLocation)).rows)
  {
    var input := SetLocation(OverallLocation);
    var e1 := UpdateTableRow(e, e.rows[k].id, input);
    assert UpdateSettled(e, e.rows[k].id, input) == e1;
    assert e1.rows[k] == UpdateRow(e.rows[k], input);
    assert IsOverall(e1.rows[k]);
  }

  /** Every handler, deferred step included, keeps ids unique and below the
      counter (so a fresh id never clashes) and the overall-discount row last. */
  lemma HandlersKeepInvariants(e: Editor, i: nat)
    requires IdsFresh(e) && OverallLast(e.rows)
    ensures IdsFresh(ToggleEditSettled(e)) && OverallLast(ToggleEditSettled(e).rows)
    ensures IdsFresh(InsertSettled(e)) && OverallLast(InsertSettled(e).rows)
    ensures IdsFresh(RemoveSettled(e)) && OverallLast(RemoveSettled(e).rows)
    ensures IdsFresh(Select(e, i)) && OverallLast(Select(e, i).rows)
  {
    ToggleEditSettledKeepsInvariants(e);
    InsertSettledKeepsInvariants(e);
    RemoveSettledKeepsInvariants(e);
    SelectKeepsInvariants(e, i);
  }

  /** The id counter never goes back: an insert hands out one id, a refresh
      of the overall discount one more, and no handler lowers it. */
  lemma HandlersOnlyRaiseCounter(e: Editor, i: nat)
    ensures ToggleEditSettled(e).nextId >= e.nextId
    ensures e.selected.Some? ==> InsertSettled(e).nextId >= e.nextId + 1
    ensures RemoveSettled(e).nextId >= e.nextId
    ensures Select(e, i).nextId == e.nextId
  {
  }
}

=== FILE: text.dfy ===
/**
 * The small text scanners the editor runs over product names and unit labels:
 * the leading decimal number of a unit label (`/^(\d+(?:\.\d+)?)/`), the first
 * integer percentage of a discount product name (`/(\d+)%/`), the first decimal
 * percentage of a stored overall-discount name (`/(\d+(?:\.\d+)?)%/`), and the
 * decimal rendering of numbers inside generated labels.
 */
module Text {
  import opened Values

  predicate IsDigit(c: char) {
    '0' <= c <= '9'
  }

  function DigitValue(c: char): nat
    requires IsDigit(c)
  {
    c as int - '0' as int
  }

  function DigitChar(d: nat): (c: char)
    requires d < 10
    ensures IsDigit(c) && DigitValue(c) == d
  {
    ('0' as int + d) as char
  }

  predicate AllDigits(s: string) {
    forall i :: 0 <= i < |s| ==> IsDigit(s[i])
  }

  /** True when `s` does not continue a digit run. */
  predicate StopsDigits(s: string) {
    |s| == 0 || !IsDigit(s[0])
  }

  /** Length of the longest run of digits at the start of `s`. */
  function DigitRun(s: string): (n: nat)
    ensures n <= |s|
    ensures AllDigits(s[..n])
    ensures StopsDigits(s[n..])
  {
    if |s| == 0 || !IsDigit(s[0]) then 0
    else
      var m := DigitRun(s[1..]);
      assert s[1..][..m] == s[1..m + 1];
      assert s[1..][m..] == s[m + 1..];
      1 + m
  }

  function Pow10(k: nat): (p: nat)
    ensures p >= 1
  {
    if k == 0 then 1 else 10 * Pow10(k - 1)
  }

  /** The number a string of decimal digits denotes (empty denotes 0). */
  function NatValue(ds: string): nat
    requires AllDigits(ds)
  {
    if |ds| == 0 then 0 else NatValue(ds[..|ds| - 1]) * 10 + DigitValue(ds[|ds| - 1])
  }

  /** The value of digits written after a decimal point. */
  function FracValue(ds: string): real
    requires AllDigits(ds)
  {
    NatValue(ds) as real / Pow10(|ds|) as real
  }

  /** Decimal digits of a natural number, without leading zeros. */
  function NatText(n: nat): (s: string)
    ensures 1 <= |s| && AllDigits(s)
  {
    if n < 10 then [DigitChar(n)] else NatText(n / 10) + [DigitChar(n % 10)]
  }

  /** A number scanned off the front of a text, and how many characters it took. */
  datatype Scan = Scan(value: real, len: nat)

  /** Greedy match of `\d+(\.\d+)?` at the start of `s`. */
  function LeadingDecimal(s: string): (o: Option<Scan>)
    ensures o.Some? ==> 0 < o.value.len <= |s|
    ensures o.None? <==> StopsDigits(s)
  {
    var n := DigitRun(s);
    if n == 0 then None
    else if n + 1 < |s| && s[n] == '.' && IsDigit(s[n + 1]) then
      var m := DigitRun(s[n + 1..]);
      assert s[n + 1..][..m] == s[n + 1..n + 1 + m];
      Some(Scan(NatValue(s[..n]) as real + FracValue(s[n + 1..n + 1 + m]), n + 1 + m))
    else
      Some(Scan(NatValue(s[..n]) as real, n))
  }

  /** extractUnitValue: the leading number of a unit label such as "2.5 sqm",
      or 1 when the label does not start with a digit. */
  function ExtractUnitValue(units: string): real {
    match LeadingDecimal(units)
    case None => 1.0
    case Some(sc) => sc.value
  }

  /** Leftmost match of `(\d+)%` in `s` at or after position `i`. */
  function IntegerPercentFrom(s: string, i: nat): Option<nat>
    requires i <= |s|
    decreases |s| - i
  {
    if i == |s| then None
    else
      var t := s[i..];
      var n := DigitRun(t);
      if n > 0 && n < |t| && t[n] == '%' then Some(NatValue(t[..n]))
      else IntegerPercentFrom(s, i + 1)
  }

  /** The percentage `parseInt` reads from the first `(\d+)%` of a name. */
  function IntegerPercent(s: string): Option<nat> {
    IntegerPercentFrom(s, 0)
  }

  /** Leftmost match of `(\d+(?:\.\d+)?)%` in `s` at or after position `i`. A
      start position matches exactly when the greedy number there is followed
      by '%': giving back digits or the fraction leaves a digit or '.' where
      '%' is needed. */
  function DecimalPercentFrom(s: string, i: nat): Option<real>
    requires i <= |s|
    decreases |s| - i
  {
    if i == |s| then None
    else
      var t := s[i..];
      match LeadingDecimal(t)
      case Some(sc) =>
        if sc.len < |t| && t[sc.len] == '%' then Some(sc.value)
        else DecimalPercentFrom(s, i + 1)
      case None => DecimalPercentFrom(s, i + 1)
  }

  function DecimalPercent(s: string): Option<real> {
    DecimalPercentFrom(s, 0)
  }

  /** Up to `k` decimal digits of a fraction in [0, 1), stopping once it is exhausted. */
  function FractionDigits(f: real, k: nat): (s: string)
    requires 0.0 <= f < 1.0
    ensures AllDigits(s)
    decreases k
  {
    if k == 0 || f == 0.0 then ""
    else
      var d := (f * 10.0).Floor;
      [DigitChar(d)] + FractionDigits(f * 10.0 - d as real, k - 1)
  }

  /** How a number is printed inside a template string, for values with at
      most six decimals. */
  function NumberText(x: real): string {
    if x < 0.0 then "-" + MagnitudeText(-x) else MagnitudeText(x)
  }

  function MagnitudeText(x: real): string
    requires x >= 0.0
  {
    var whole := x.Floor;
    var frac := x - whole as real;
    NatText(whole) + (if frac == 0.0 then "" else "." + FractionDigits(frac, 6))
  }

  // ---------------------------------------------------------------------------
  // Properties of the scanners

  lemma {:induction false} NatTextRoundTrip(n: nat)
    ensures NatValue(NatText(n)) == n
  {
    if n >= 10 {
      NatTextRoundTrip(n / 10);
      var s := NatText(n);
      assert s[..|s| - 1] == NatText(n / 10);
    }
  }

  /** A digit run followed by a non-digit is scanned exactly. */
  lemma {:induction false} DigitRunOfPrefix(d: string, t: string)
    requires AllDigits(d) && StopsDigits(t)
    ensures DigitRun(d + t) == |d|
  {
    if |d| > 0 {
      assert (d + t)[1..] == d[1..] + t;
      DigitRunOfPrefix(d[1..], t);
    }
  }

  /** Digits followed by text that does not continue them: the digit run is
      exactly the digits. */
  lemma DigitsThenRest(d: string, rest: string)
    requires AllDigits(d) && StopsDigits(rest)
    ensures var s := d + rest;
            DigitRun(s) == |d| && s[..|d|] == d && s[|d|..] == rest
  {
    DigitRunOfPrefix(d, rest);
    assert (d + rest)[..|d|] == d;
    assert (d + rest)[|d|..] == rest;
  }

  /** Where the pieces of `d + "." + f + t` sit, as the decimal scanner sees
      them. */
  lemma DecimalLabelShape(d: string, f: string, t: string)
    requires |d| > 0 && AllDigits(d) && |f| > 0 && AllDigits(f) && StopsDigits(t)
    ensures var s := d + "." + f + t;
            var n := |d|;
            && DigitRun(s) == n && n + 1 < |s| && s[n] == '.' && IsDigit(s[n + 1])
            && s[..n] == d && DigitRun(s[n + 1..]) == |f| && s[n + 1..n + 1 + |f|] == f
  {
    var s := d + "." + f + t;
    var n := |d|;
    var rest := "." + f + t;
    assert s == d + rest;
    DigitsThenRest(d, rest);
    var tail := f + t;
    assert rest[1..] == tail;
    assert s[n + 1..] == tail;
    DigitsThenRest(f, t);
  }

  /** A label made of an integer part and a fraction yields that decimal. */
  lemma ExtractUnitValueOfDecimal(d: string, f: string, t: string)
    requires |d| > 0 && AllDigits(d) && |f| > 0 && AllDigits(f) && StopsDigits(t)
    ensures ExtractUnitValue(d + "." + f + t) == NatValue(d) as real + FracValue(f)
  {
    var s := d + "." + f + t;
    var n := |d|;
    DecimalLabelShape(d, f, t);
    assert NatValue(s[..n]) == NatValue(d);
    assert FracValue(s[n + 1..n + 1 + |f|]) == FracValue(f);
  }

  /** A label made of an integer part not followed by ".digit" yields that integer. */
  lemma {:induction false} ExtractUnitValueOfInteger(d: string, t: string)
    requires |d| > 0 && AllDigits(d) && StopsDigits(t)
    requires !(|t| >= 2 && t[0] == '.' && IsDigit(t[1]))
    ensures ExtractUnitValue(d + t) == NatValue(d) as real
  {
    var s := d + t;
    DigitRunOfPrefix(d, t);
    assert s[..|d|] == d;
  }

  /** A label that does not start with a digit counts as one unit. */
  lemma ExtractUnitValueDefault(units: string)
    requires StopsDigits(units)
    ensures ExtractUnitValue(units) == 1.0
  {
  }

  /** A name that starts with "<digits>%" carries that percentage. */
  lemma {:induction false} IntegerPercentOfLabel(d: string, rest: string)
    requires |d| > 0 && AllDigits(d)
    ensures IntegerPercent(d + "%" + rest) == Some(NatValue(d))
  {
    var s := d + "%" + rest;
    assert s == d + ("%" + rest);
    DigitRunOfPrefix(d, "%" + rest);
    assert s[0..] == s;
    assert s[..|d|] == d;
  }

  /** A text without digits carries no percentage. */
  lemma {:induction false} IntegerPercentWithoutDigits(s: string, i: nat)
    requires i <= |s|
    requires forall j :: i <= j < |s| ==> !IsDigit(s[j])
    ensures IntegerPercentFrom(s, i) == None
    decreases |s| - i
  {
    if i < |s| {
      IntegerPercentWithoutDigits(s, i + 1);
    }
  }
}

=== FILE: values.dfy ===
/**
 * Numeric cells of a quote line-item row and the fixed-point arithmetic the
 * editor applies to them.
 *
 * The editor keeps every cell as loosely typed JavaScript data: a text typed by
 * the user, a text produced by `toFixed(2)`, or a bare number. Two readings of a
 * cell matter to the logic: whether it is truthy, and what `parseFloat` makes of
 * it (with NaN replaced by a default). A `Field` records exactly those two.
 */
module Values {

  datatype Option<+T> = None | Some(value: T)

  /** `Blank` is a falsy cell (empty text, null, the number 0). `Val(x)` is a
      truthy cell whose numeric reading is `x`; a text that does not start with
      a number is truthy and reads as 0, so it is `Val(0.0)`. */
  datatype Field = Blank | Val(x: real)

  predicate Present(f: Field) {
    f.Val?
  }

  /** safeParseFloat(cell, default). */
  function NumOr(f: Field, default: real): real {
    match f
    case Blank => default
    case Val(x) => x
  }

  /** safeParseFloat(cell): the numeric reading, 0 for a blank cell. */
  function Num(f: Field): real {
    NumOr(f, 0.0)
  }

  /** A JavaScript number written into a cell: zero is falsy and reads as 0,
      which is exactly how a blank cell behaves. */
  function FromNumber(x: real): (f: Field)
    ensures Num(f) == x
    ensures Present(f) <==> x != 0.0
  {
    if x == 0.0 then Blank else Val(x)
  }

  /** A possibly missing number, written as `value || ''`. */
  function FromOptionalNumber(o: Option<real>): (f: Field)
    ensures Num(f) == (if o.Some? then o.value else 0.0)
  {
    match o
    case None => Blank
    case Some(x) => FromNumber(x)
  }

  /** A persisted number rendered with `value?.toString() || ''`: only a
      missing value is blank, a stored zero becomes the truthy text "0". */
  function FromStored(o: Option<real>): (f: Field)
    ensures Present(f) <==> o.Some?
  {
    match o
    case None => Blank
    case Some(x) => Val(x)
  }

  /** The value a whole number of hundredths has. */
  ghost predicate IsCents(x: real) {
    (x * 100.0).Floor as real == x * 100.0
  }

  /** `x.toFixed(2)` read back as a number, on exact values: the nearest
      hundredth, ties rounded away from zero (toFixed rounds the magnitude). */
  function Round2(x: real): real {
    if x >= 0.0 then ((x * 100.0 + 0.5).Floor as real) / 100.0
    else -(((-x * 100.0 + 0.5).Floor as real) / 100.0)
  }

  /** Math.ceil. */
  function Ceil(x: real): int {
    -((-x).Floor)
  }

  lemma FloorShift(k: int, y: real)
    ensures (k as real + y).Floor == k + y.Floor
  {
  }

  lemma Round2IsCents(x: real)
    ensures IsCents(Round2(x))
  {
    var n := if x >= 0.0 then (x * 100.0 + 0.5).Floor else -((-x * 100.0 + 0.5).Floor);
    assert Round2(x) == n as real / 100.0;
    assert Round2(x) * 100.0 == n as real;
  }

  /** Rounding is within half a cent of the exact value. */
  lemma Round2Error(x: real)
    ensures -0.005 <= Round2(x) - x <= 0.005
  {
  }

  lemma Round2OfCents(c: real)
    requires IsCents(c)
    ensures Round2(c) == c
  {
    var k := (c * 100.0).Floor;
    if c >= 0.0 {
      FloorShift(k, 0.5);
    } else {
      assert (-c * 100.0).Floor == -k;
      FloorShift(-k, 0.5);
    }
  }

  lemma Round2Odd(x: real)
    ensures Round2(-x) == -Round2(x)
  {
    if x == 0.0 {
      assert Round2(0.0) == 0.0;
    }
  }

  lemma NegCents(c: real)
    requires IsCents(c)
    ensures IsCents(-c)
  {
    var k := (c * 100.0).Floor;
    assert -c * 100.0 == (-k) as real;
  }

  /** Adding a whole number of cents commutes with rounding, for values of one sign. */
  lemma Round2ShiftCents(c: real, y: real)
    requires IsCents(c) && c >= 0.0 && y >= 0.0
    ensures Round2(c + y) == c + Round2(y)
  {
    var k := (c * 100.0).Floor;
    assert (c + y) * 100.0 + 0.5 == k as real + (y * 100.0 + 0.5);
    FloorShift(k, y * 100.0 + 0.5);
  }

  /** For an amount that is a whole number of cents, rounding the 5%-inclusive
      gross gives the amount plus the rounded 5% tax, with no cent lost. */
  lemma GrossIsAmountPlusTax(a: real)
    requires IsCents(a)
    ensures Round2(a * 1.05) == a + Round2(a * 0.05)
  {
    if a >= 0.0 {
      assert a * 1.05 == a + a * 0.05;
      Round2ShiftCents(a, a * 0.05);
    } else {
      NegCents(a);
      assert -a * 1.05 == -a + -a * 0.05;
      Round2ShiftCents(-a, -a * 0.05);
      Round2Odd(a * 1.05);
      Round2Odd(a * 0.05);
    }
  }

  /** Math.ceil(x) is the least whole number not below x. */
  lemma CeilIsLeast(x: real)
    ensures Ceil(x) as real >= x
    ensures (Ceil(x) - 1) as real < x
  {
  }

  /** Rounding a count up against a positive quantum: the count covers the
      total, and one fewer would not. */
  lemma CeilCovers(total: real, u: real)
    requires u > 0.0
    ensures Ceil(total / u) as real * u >= total
    ensures (Ceil(total / u) - 1) as real * u < total
  {
    var q := Ceil(total / u);
    CeilIsLeast(total / u);
    assert (total / u) * u == total;
    MulMonotone(total / u, q as real, u);
    assert (q - 1) as real < total / u;
    MulStrict((q - 1) as real, total / u, u);
    assert (q - 1) as real * u < total;
    assert q - 1 == Ceil(total / u) - 1;
  }

  lemma MulMonotone(a: real, b: real, u: real)
    requires a <= b && u > 0.0
    ensures a * u <= b * u
  {
  }

  lemma MulStrict(a: real, b: real, u: real)
    requires a < b && u > 0.0
    ensures a * u < b * u
  {
  }
}
